=== FILE: README.md ===
# Mini-OS-Simulator core in Dafny

This project models the sequential core of the Mini-OS-Simulator, a C++ teaching simulator. Its parts are:

- **Resource ledger** (`Bankers`, `BankersProofs`, with `Vectors` and `ColumnSums`). This is Dijkstra's Banker's algorithm as `src/bankers.cpp` implements it:
  - `available` is a vector, `allocation` and `max_need` are maps from pid to vector;
  - `request_resources` records a claim, tentatively grants the remaining need, runs the safety check and rolls back on failure;
  - `release_all` returns a pid's allocation;
  - `safety_check` iterates passes over the allocation map until one makes no progress, and builds a finish order.
- **CPU scheduler** (`Schedules`, `Scheduler`). `Scheduler::run` picks non-preemptive priority scheduling for five or fewer processes and round robin otherwise. `compute_stats` derives turnaround, waiting and the averages.
- **Ready buffer** (`ReadyBuffer`). The bounded FIFO is a fixed array with head, tail and count indices. The semaphores only make callers wait, so they become the preconditions of `Push` and `Pop`.
- **Simulator** (`Simulator`). It holds:
  - the sentinel;
  - the pid-derived processes a producer synthesises;
  - the consumer's ready/blocked classification;
  - `try_unblock`;
  - the manual-mode episode of `start`. In that episode the lists are cleared and the manual pool is drained into the buffer with a sentinel. Intake follows, then scheduling with quantum 4, then the release of every ready pid, then unblocking.

The `Process` record (`Processes`) keeps the constructor's defaults: `start_time` and `finish_time` are -1, and `remaining_time` starts at `burst_time`.

Four modelling choices:

1. **Map iteration order.** `safety_check` walks an `unordered_map`, whose order is fixed but unspecified. It is modelled as a scan sequence that enumerates the keys. `SafetyCheck` accepts any such enumeration, and its verdict is proved independent of which one is used. `Bankers.Request` uses one fixed but unknown enumeration, `Common.KeyOrder`.
2. **Sort stability.** `std::sort` is not stable. So the policies accept any input sorted by their key, and `Scheduler.Run` uses an insertion sort, which yields one admissible order.
3. **Integer widths.** Integers are unbounded. The C++ `%` on a possibly negative pid is modelled by `Simulator.TruncRem`.
4. **Averages.** They are `double` in the source and `real` here.

A refused request does not leave the ledger unchanged, although the header says it does. "## Findings" below has the details.

## Model

| member | source | states |
|---|---|---|
| Processes.NewProcess | src/process.hpp:20-22 | pid, arrival, priority and claim are stored as passed; remaining time equals burst; start and finish stay at -1 |
| Processes.DefaultProcess | src/process.hpp:5-18 | a default process has pid 0, zero times and priority, an empty claim and unset (-1) start and finish |
| Vectors.Leq | src/bankers.cpp:9-13 | true exactly when the lengths agree and every component of the first is at most the second's |
| Vectors.Add | src/bankers.cpp:15-19 | the result has the first argument's length and is the componentwise sum |
| Vectors.Sub | src/bankers.cpp:21-25 | the result has the first argument's length and is the componentwise difference |
| Vectors.Zeros | src/bankers.cpp:34 | the fresh allocation of a new pid: one zero per resource type |
| Vectors.AddSubCancel | src/bankers.cpp:39-49 | adding the need (claim minus allocation) to the allocation gives back the claim, so a grant allocates exactly the claim |
| Vectors.LeqTransitive | src/bankers.cpp:9-13 | componentwise comparison is transitive |
| Common.KeyOrder | src/bankers.cpp:76-82 | some fixed enumeration of a key set: every key exactly once |
| Common.SelectAppend | src/simulator.cpp:102-112 | appending one decided process extends exactly the list its verdict selects, at the end, keeping order |
| Common.SelectPartition | src/simulator.cpp:100-114 | the granted and still-blocked lists together are a permutation of the original list, and their lengths add up |
| Common.SelectSubset | src/simulator.cpp:102-114 | whatever lands in either list came from the input list |
| ColumnSums.ColumnSumRemove | src/bankers.cpp:66 | erasing a pid's allocation lowers each resource's total allocation by exactly that pid's share |
| ColumnSums.ColumnSumUpdate | src/bankers.cpp:49-55 | overwriting one pid's allocation changes the total allocation by the new minus the old entry |
| ColumnSums.ColumnSumMonotone | src/bankers.cpp:92 | with non-negative allocations, the allocations of a subset of pids never total more than those of all pids |
| Bankers.NewLedger | src/bankers.cpp:4-7 | fails exactly for an empty available vector; otherwise empty maps and the invariant hold with the given vector as capacity |
| Bankers.WorkAfterAppend | src/bankers.cpp:90-94 | letting one more pid finish adds its allocation to the work vector |
| Bankers.ValidOrderAppend | src/bankers.cpp:90-94 | a not-yet-finished pid whose need fits the current work may be appended to a valid finish order |
| Bankers.Pass | src/bankers.cpp:82-97 | one pass over the scan keeps the work vector as wide as available; what the pass does is stated by Bankers.PassConsistent, Bankers.PassExtends and Bankers.PassStalls |
| Bankers.PassConsistent | src/bankers.cpp:82-97 | one pass keeps the finish order valid, with work equal to available plus the finished pids' allocations |
| Bankers.PassExtends | src/bankers.cpp:82-97 | a pass only appends to the finish order, and only pids it visited |
| Bankers.PassStalls | src/bankers.cpp:82-97 | a pass that finishes nobody leaves the work vector unchanged; every visited pid is then finished or has a need beyond the work |
| Bankers.Fixpoint | src/bankers.cpp:78-98 | passes repeat until no progress; at the end every pid is finished or blocked by its need, and the order stays valid |
| Bankers.SafetyCheck | src/bankers.cpp:70-105 | the finish order is valid, and the verdict is "safe" exactly when that order lists every allocated pid |
| Bankers.Tentative | src/bankers.cpp:44-49 | the tentative grant sets the pid's allocation and claim and lowers each available component by the need |
| Bankers.RequestWith | src/bankers.cpp:27-60 | the claim is recorded even on refusal, and other allocations never change; a grant allocates the whole claim, lowers available by the need and returns a safe sequence; a refusal leaves available unchanged and keeps only the pid's possibly new zero entry |
| Bankers.Request | src/bankers.cpp:27-60 | the request in the map's own iteration order: the claim is recorded and the pid gets an allocation entry; a grant allocates the whole claim and comes with a safe sequence; a refusal leaves available unchanged and keeps only the pid's possibly new zero entry |
| Bankers.AtomicRequestWith | src/bankers.hpp:11-12 | the request the header describes: the same verdict as the code's request; a refusal leaves the ledger exactly as it was; a grant sets the pid's allocation and claim and comes with a safe sequence |
| Bankers.ReleaseAll | src/bankers.cpp:62-68 | an unknown pid is a no-op; otherwise the allocation goes back to available and the pid leaves both maps |
| BankersProofs.WorkAfterColumn | src/bankers.cpp:90-94 | the work after a finish prefix is available plus the allocations of exactly the pids in it |
| BankersProofs.WorkAfterMonotone | src/bankers.cpp:90-94 | finishing more pids never lowers any component of the work vector |
| BankersProofs.WorkAfterBounded | src/bankers.cpp:72-92 | under conservation the work vector never exceeds the capacity |
| BankersProofs.SafetyCheckComplete | src/bankers.cpp:70-105 | if any safe sequence exists, the greedy check reports safe whatever the map order |
| BankersProofs.SafetyCheckDecidesSafety | src/bankers.cpp:70-105 | the check's verdict is "safe" exactly when the state has a safe sequence |
| BankersProofs.SafetyVerdictIndependentOfOrder | src/bankers.cpp:76-98 | two different map iteration orders give the same verdict |
| BankersProofs.RequestConserves | src/bankers.cpp:27-60 | a request with any claim, granted or refused, keeps available plus all allocations equal to the capacity |
| BankersProofs.RequestPreservesInv | src/bankers.cpp:27-60 | a request with a non-negative claim, granted or refused, also keeps allocations non-negative |
| BankersProofs.ReleaseConserves | src/bankers.cpp:62-68 | a release keeps available plus all allocations equal to the capacity |
| BankersProofs.ReleasePreservesInv | src/bankers.cpp:62-68 | a release keeps the whole ledger invariant |
| BankersProofs.ReleaseIdempotent | src/bankers.cpp:62-68 | releasing the same pid twice is the same as releasing it once |
| BankersProofs.ConservationAcrossCalls | src/bankers.cpp:27-68 | across any sequence of requests and releases whose claims are no wider than available, available plus all allocations equals the constructor's vector |
| BankersProofs.InvAcrossCalls | src/bankers.cpp:27-68 | across any such sequence whose claims are non-negative, allocations also stay non-negative |
| BankersProofs.RequestGrantedIffSafe | src/bankers.cpp:39-59 | a request is granted exactly when its need fits available and the tentative state is safe |
| BankersProofs.GrantedStateIsSafe | src/bankers.cpp:51-59 | after a grant, a safety check in any order still reports safe |
| BankersProofs.HopelessIsUnsafe | src/bankers.cpp:100-104 | a recorded pid whose need exceeds the capacity makes the state unsafe |
| BankersProofs.HopelessBlocksRequests | src/bankers.cpp:31-57 | while such a stale pid is recorded, every request of another pid is refused, and the stale entry survives |
| BankersProofs.OversizedClaimBecomesHopeless | src/bankers.cpp:31-42 | a new pid claiming more than the capacity of some resource is refused, yet leaves a stale hopeless entry behind |
| BankersProofs.AtomicRequestPreservesInv | src/bankers.hpp:11-12 | the header's request keeps the ledger invariant, granted or refused |
| BankersProofs.AtomicOversizedClaimLeavesNoTrace | src/bankers.hpp:11-12 | with the header's request, the oversized claim of a new pid is refused and leaves no entry in either map |
| BankersProofs.SoleClaimantGranted | src/bankers.cpp:42-59 | with no other pid recorded, a claim whose need fits available is granted |
| BankersProofs.ScenarioFirstClaimGranted | src/bankers.cpp:27-60 | on a fresh ledger with capacity [3,3,2], pid 1 claiming [1,0,0] is granted and appears in its safe sequence |
| BankersProofs.ScenarioFirstClaimAvailable | src/bankers.cpp:44-49 | that grant leaves available at [2,3,2] |
| BankersProofs.GrantedFreshAvailable | src/bankers.cpp:34-59 | granting a new pid lowers available by exactly its claim and lists the pid in the safe sequence |
| BankersProofs.ZeroAllocationNeed | src/bankers.cpp:34-39 | the need of a pid with no allocation is its whole claim |
| BankersProofs.NeedBeyondAvailableRefused | src/bankers.cpp:41-42 | a need that does not fit available is refused without a safety check |
| ReadyBuffer.NewRing | src/ready_buffer.cpp:4-14 | capacity 0 is rejected; otherwise the ring is empty and has the requested capacity |
| ReadyBuffer.EmptySlots | src/ready_buffer.cpp:10-11 | free slots plus queued items equal the capacity |
| ReadyBuffer.Size | src/ready_buffer.cpp:45-48 | the size is the number of queued items and never exceeds the capacity |
| ReadyBuffer.Push | src/ready_buffer.cpp:21-30 | with a free slot, the item joins the back of the queue; size grows by one; the ring invariant and capacity are kept |
| ReadyBuffer.Pop | src/ready_buffer.cpp:32-43 | with an item present, the oldest item is returned and removed; size drops by one; invariant and capacity are kept |
| ReadyBuffer.PushAll | src/simulator.cpp:152-153 | pushing a batch with room for all of it appends the batch, in order, to the queue |
| Schedules.Insert | src/scheduler.cpp:15-18 | inserting into a sorted list keeps it sorted and adds exactly the one element |
| Schedules.Sort | src/scheduler.cpp:62-64 | the result is a permutation of the input, ordered by the key |
| Schedules.PriorityKeySortsByArrival | src/scheduler.cpp:15-18 | a list sorted by arrival then priority is sorted by arrival |
| Schedules.AdmitEnd | src/scheduler.cpp:26-29 | admission stops at the first process arriving after the clock, having taken every earlier one |
| Schedules.AdmitFacts | src/scheduler.cpp:26-29 | admission moves processes from the sorted list to the ready pool without losing or inventing any |
| Schedules.AdmitLeavesLater | src/scheduler.cpp:26-29 | after admission every process not yet admitted arrives after the clock |
| Schedules.JumpAdmitsArrivalsAt | src/scheduler.cpp:31-34 | jumping the idle clock to the next arrival admits at least one process, all arriving at that instant |
| Schedules.AdmitOrJump | src/scheduler.cpp:25-34 | admission with an idle jump yields a non-empty pool; the clock never goes back; an unchanged clock admits only arrived processes, and a jump happens only on an empty pool |
| Schedules.MinFrom | src/scheduler.cpp:36-39 | the scan returns a process no other ready process beats, and the first such one |
| Schedules.FirstMin | src/scheduler.cpp:36-39 | the dispatch choice has the lowest priority number, ties broken by earliest arrival, and is the first such one in the pool |
| Schedules.RunSlice | src/scheduler.cpp:82-102 | a slice lasts min(quantum, remaining); the first start time is recorded; arrivals by the slice's end are queued before the preempted process; total remaining work shrinks |
| Schedules.TallyOf | src/scheduler.cpp:113-118 | the tables hold exactly the pids of the completed processes |
| Schedules.TallyOfLast | src/scheduler.cpp:113-118 | for the last completion of a pid, turnaround is finish minus arrival and waiting is turnaround minus burst |
| Schedules.Average | src/scheduler.cpp:124-127 | the average is 0 for no completions; otherwise it times the count gives the sum |
| Schedules.Averages | src/scheduler.cpp:111-127 | the two averages are the waiting and turnaround sums over the completions divided by their count, or 0 when there are none |
| Schedules.ComputeStats | src/scheduler.cpp:110-128 | the per-pid tables cover exactly the completed pids, with the turnaround and waiting formulas, and the averages match the sums |
| Scheduler.DispatchKeepsRule | src/scheduler.cpp:36-51 | dispatching the minimum keeps the rule that no earlier-admitted pending process beat any dispatched one |
| Scheduler.TimelineAppend | src/scheduler.cpp:44-50 | a slice starting at the last end, or at an idle jump to its own arrival, keeps the timeline consecutive and arrival-respecting |
| Scheduler.PriorityStepKeeps | src/scheduler.cpp:25-52 | one admission, dispatch and run-to-completion step of priority scheduling keeps every loop invariant |
| Scheduler.PriorityInvExit | src/scheduler.cpp:54-56 | when the loop ends, every process has run exactly once for its burst, and the statistics follow |
| Scheduler.PriorityLoop | src/scheduler.cpp:20-52 | the priority loop terminates with every process dispatched and its invariants holding |
| Scheduler.PriorityNonpreemptive | src/scheduler.cpp:12-57 | one slice per process, each as long as its burst; the dispatch rule holds; the slices run back to back from each arrival; the finish time is the last end; and the statistics follow the formulas |
| Scheduler.RoundRobinStepSubmitted | src/scheduler.cpp:82-102 | one pass moves the head out of the queue and back to its end or into the completed list, so completed, queued and unadmitted processes stay the input processes; the head it runs is an input process |
| Scheduler.RoundRobinStepCompleted | src/scheduler.cpp:97-102 | a pass whose head had at most one quantum left appends that head, with the slice's end as finish time, to the completed list; any other pass appends nothing |
| Scheduler.RoundRobinStepHeads | src/scheduler.cpp:82-88 | with unique pids, the head a pass runs has its pid's input remaining time minus what that pid ran before |
| Scheduler.RoundRobinStepKeeps | src/scheduler.cpp:71-103 | one round-robin step keeps the loop invariants: pid counts, per-pid slice totals, the records above, and the timeline |
| Scheduler.RoundRobinInvExit | src/scheduler.cpp:105-106 | when the round-robin loop ends, the chart and records are what round robin promises (see Scheduler.RoundRobin) |
| Scheduler.RoundRobin | src/scheduler.cpp:59-108 | each slice runs its head for min(quantum, remaining); every head is an input process; the completed records are the input processes, each once; the j-th completion is the head of the j-th slice that had at most one quantum left, finished at that slice's end; each pid's slices sum to its input remaining time; with unique pids each head has its input remaining time minus what its pid already ran; for non-negative remaining times the slices run back to back; the statistics follow the formulas |
| Scheduler.RoundRobinOutcomeReordered | src/scheduler.cpp:62-64 | round robin's promise about the sorted copy holds for the unsorted input |
| Schedules.FinishingSlices | src/scheduler.cpp:97-102 | lists slices, in chart order, each of whose head had at most one quantum left |
| Schedules.FinishingSlicesExact | src/scheduler.cpp:97-102 | every such slice is listed, in strictly increasing order |
| Schedules.SubmissionsPermutation | src/scheduler.cpp:62-64 | reordering the processes reorders their submitted fields |
| Scheduler.RemSumPermutation | src/scheduler.cpp:62-64 | reordering the processes changes neither a pid's total remaining time nor its count |
| Scheduler.RunByPriority | src/scheduler.cpp:6 | for any input, the priority branch yields one slice per process of its burst length; the slices are a permutation of the input that obeys the dispatch rule; the timeline holds for non-negative bursts; and the statistics follow the formulas |
| Scheduler.RunRoundRobin | src/scheduler.cpp:7 | for any input and positive quantum, the whole round-robin promise of Scheduler.RoundRobin, stated about the input itself |
| Scheduler.Run | src/scheduler.cpp:5-8 | five or fewer processes get the priority contract and more get the round-robin one; an empty input gives no slices and finish time 0 |
| Simulator.Sentinel | src/simulator.cpp:6-8 | the sentinel has pid -1, no claim and zero times |
| Simulator.TruncRem | src/simulator.cpp:54-61 | C++ `%` with a positive divisor: the result has the dividend's sign and magnitude below the divisor, and agrees with `%` for non-negative dividends |
| Simulator.Synthesize | src/simulator.cpp:52-63 | a produced process arrives at its loop index; for a non-negative pid, burst is in 1..7, priority in 1..5, and the claim is the pid's three consecutive residues mod 3 |
| Simulator.ClaimRotation | src/simulator.cpp:61 | the three claim components are 0, 1 and 2 in some rotation |
| Simulator.CounterPids | src/simulator.cpp:52 | the pids the shared counter hands one producer lie in the range handed out so far and strictly increase, whatever the interleaving |
| Simulator.CounterPidsOwner | src/simulator.cpp:52 | a counter value is in a producer's list exactly when that producer made that `fetch_add`, so no pid is lost or handed out twice |
| Simulator.SoloProducerPids | src/simulator.cpp:51-52 | a producer running alone gets consecutive pids |
| Simulator.TwoProducersInterleave | src/simulator.cpp:51-52 | two producers taking turns from pid 1 get 1, 3 and 2, 4: one producer's pids need not be consecutive |
| Simulator.ProducerBatch | src/simulator.cpp:50-63 | the i-th pid a producer was handed becomes its i-th process, arriving at i, with burst in 1..7 and priority in 1..5 for a non-negative pid |
| Simulator.NewSimulator | src/simulator.cpp:10-17 | construction fails exactly for a buffer size of 0 or less or an empty available; a negative size fails at the slot allocation, before the zero check; otherwise the buffer is empty and the ledger is fresh |
| Simulator.AddProcess | src/simulator.cpp:19-23 | the process is appended to the manual pool and nothing else changes |
| Simulator.EnumerateKeys | src/bankers.cpp:76-82 | produces some iteration order of the allocation map's keys, each key once |
| Simulator.Decide | src/simulator.cpp:83-94 | one ledger request per popped process; a grant records the full claim and leaves a safe state; a refusal leaves available unchanged |
| Simulator.FirstSentinel | src/simulator.cpp:78-81 | intake stops at the first pid -1 in the queue |
| Simulator.IntakeStop | src/simulator.cpp:77-81 | popping the sentinel ends intake without a ledger request |
| Simulator.IntakeStep | src/simulator.cpp:77-94 | a non-sentinel pop goes through one request and is appended to exactly one of ready or blocked |
| Simulator.Consume | src/simulator.cpp:75-96 | intake is the queue up to the first sentinel; the queue keeps what follows it; ready and blocked gain the granted and refused processes in pop order |
| Simulator.UnblockStep | src/simulator.cpp:102-112 | each blocked process is retried once, in list order, and moves to ready or stays blocked |
| Simulator.TryUnblock | src/simulator.cpp:98-115 | the old ready list stays a prefix, granted processes follow in blocked order, and refused ones remain blocked in their order |
| Simulator.ReleaseEach | src/simulator.cpp:202-203 | releasing every ready pid removes exactly those pids from both ledger maps |
| Simulator.ReleaseEachKeepsInv | src/simulator.cpp:202-203 | those releases keep the ledger's conservation invariant |
| Simulator.Load | src/simulator.cpp:129-153 | start clears both lists, drains the manual pool and pushes it, then the sentinel, behind whatever is queued |
| Simulator.LoadedQueue | src/simulator.cpp:152-153 | with the sentinel pushed last, intake stops there at the latest, and exactly there if no manual pid is -1 |
| Simulator.PromotedStayAllocated | src/simulator.cpp:205-206 | processes promoted by unblocking keep their ledger allocation |
| Simulator.LoadAndConsume | src/simulator.cpp:141-156 | the manual path of start up to the end of intake: the queue is consumed up to the sentinel and split into ready and blocked |
| Simulator.IntakeConclusions | src/simulator.cpp:148-156 | without pid -1 among the processes already queued and the manual ones, intake takes them all and empties the buffer; the invariant survives intake |
| Simulator.Schedule | src/simulator.cpp:179 | scheduling the ready list: at most five ready processes get one slice each; an empty list gives no slices and finish time 0; the finish time is the last slice's end; both tables cover the same pids |
| Simulator.Settle | src/simulator.cpp:202-206 | every ready pid is released before unblocking; promoted processes stay allocated; the ledger invariant is kept |
| Simulator.StartManual | src/simulator.cpp:127-211 | the whole manual episode: intake, scheduling of the admitted processes, release of them, and unblocking of the refused ones, with the ledger invariant kept |

## Left out

- Threads, `sem_t`, mutexes, `std::atomic` and `sleep_for` are left out because they only order or delay the same steps. Blocking becomes preconditions (`ReadyBuffer.Push`, `ReadyBuffer.Pop`), and `next_pid_` becomes a plain integer field.
- The threaded branch of `start` (src/simulator.cpp:157-169) is left out because it is an interleaving of producers and a consumer. `Simulator.ProducerBatch` models what one producer synthesises, but not its pushes. Which producer makes each `fetch_add` on `next_pid_` is the parameter `takers` of `Simulator.CounterPids`, not derived from thread timing.
- Console output is left out because it is I/O only: the Gantt chart and statistics printing, `display_state` and `print_blocked`.
- `src/main.cpp` is not part of this model; it is the interactive menu and stdin parsing.
- The semaphore destructor and the `sem_init` failure paths are left out because they are calls into the operating system.
- Floating-point rounding is left out: the averages are exact `real` quotients rather than `double`.
- 32-bit `int` overflow is not modelled (clock, sums, resource arithmetic), because the simulator's inputs are small. `size_t` buffer sizes are `nat`; the simulator's `int` buffer size is converted explicitly, with a negative one failing as the oversized vector allocation does.
- Bankers.RequestWith requires the claim to be no longer than `available`. A longer claim makes `sub` read past the allocation vector, which is undefined behaviour. Claims of other lengths are handled as written: a shorter claim fails `leq` and is refused.
- Bankers.Request fixes the map iteration order as the unspecified `Common.KeyOrder`. The properties are proved for every order through `Bankers.RequestWith`.
- Scheduler.Run requires a positive quantum when round robin is chosen. With a quantum of 0 or less, a process with positive remaining time never finishes and the source loops forever; the simulator always passes 4.
- Scheduler.PriorityNonpreemptive and Scheduler.RoundRobin state the timeline facts only for non-negative bursts or remaining times. These facts are: consecutive slices, start no earlier than arrival, and idle jumps only when nothing is ready. A negative burst moves the clock backwards in the source.
- Scheduler.RoundRobin ties each head's remaining time to the input only when pids are unique. With a repeated pid, the per-pid totals cannot tell two processes of that pid apart.
- Scheduler.RoundRobin does not state the first-in-first-out order of the queue over the whole chart. The order is stated for one pass by Schedules.RunSlice: the rest of the queue, then new arrivals, then the head if it has time left.
- Scheduler.Run orders equal sort keys by one insertion sort. `std::sort` may order ties differently, and the policy methods accept any sorted order.
- Schedules.ComputeStats states the tables for the last completion of each pid. With duplicate pids the source keeps the last write, and so does the model.
- Simulator.Schedule states only the shape of the result. The full scheduling contract is that of `Scheduler.Run`, which it calls.
- Simulator.StartManual requires that the manual pool plus the sentinel fit in the free slots of the buffer. Otherwise the source blocks forever in `push`, since the consumer runs only after all pushes.
- Simulator.StartManual requires a non-empty manual pool, because an empty pool selects the threaded branch.
- Simulator.Consume, Simulator.TryUnblock and Simulator.StartManual require every claim to be no longer than `available`, for the same reason as `Bankers.RequestWith`.
- Simulator.StartManual states that the ledger invariant is kept only when all claims are non-negative. A negative claim can make an allocation negative in the source.
- Releasing promoted processes at the next `start` is left out, because the source never does it. `start` clears the lists (src/simulator.cpp:131-132) without releasing, and `Simulator.PromotedStayAllocated` records that those allocations persist.

## Findings

| source | as written | input that shows it | evidently intended | confidence | as-written member | corrected member |
|---|---|---|---|---|---|---|
| src/bankers.cpp:31-42 | `max_need_[pid]` is overwritten and a zero allocation entry is inserted before the need check; neither the early refusal (line 42) nor the rollback (lines 53-56) undoes them | a ledger built with capacity [3, 3, 2]; a new pid claims [4, 0, 0]. It is refused, yet it is now recorded with allocation [0, 0, 0], and every later request of another pid is refused (BankersProofs.HopelessBlocksRequests) | a refused request leaves the state unchanged, as src/bankers.hpp:11-12 says | medium; not executed | BankersProofs.OversizedClaimBecomesHopeless | Bankers.AtomicRequestWith |

`Bankers.AtomicRequestWith` is proved to keep the ledger invariant (`BankersProofs.AtomicRequestPreservesInv`) and to refuse the same oversized claim without a trace (`BankersProofs.AtomicOversizedClaimLeavesNoTrace`). The simulator models the program as it runs, so `Simulator` goes on calling the request as written.

=== FILE: bankers.dfy ===
/** The resource ledger: Dijkstra's Banker's algorithm over per-pid claims
    and allocations, as `Bankers` in the original keeps it. */
module Bankers {
  import opened Common
  import opened Vectors
  import opened ColumnSums

  /** `available`, `allocation` and `maxNeed` of one ledger instance. */
  datatype Ledger = Ledger(available: seq<int>, allocation: Table, maxNeed: Table)

  /** Shapes that every reachable ledger has: a non-empty available vector,
      one allocation of full width per recorded claim, and claims no wider
      than the ledger (a wider claim would be read out of bounds by `sub`). */
  predicate WellFormed(L: Ledger)
  {
    && |L.available| > 0
    && L.allocation.Keys == L.maxNeed.Keys
    && (forall k | k in L.allocation :: |L.allocation[k]| == |L.available|)
    && (forall k | k in L.maxNeed :: |L.maxNeed[k]| <= |L.available|)
  }

  /** No pid holds a negative amount of any resource. */
  predicate AllocationNonNegative(L: Ledger)
  {
    forall k | k in L.allocation :: NonNegative(L.allocation[k])
  }

  /** Conservation: per resource type, `available` plus all allocations is `total`. */
  ghost predicate Conserved(L: Ledger, total: seq<int>)
  {
    && WellFormed(L)
    && |total| == |L.available|
    && forall j | 0 <= j < |total| :: L.available[j] + ColumnSum(L.allocation, j) == total[j]
  }

  /** The ledger invariant relative to the capacity it was built with. */
  ghost predicate Inv(L: Ledger, total: seq<int>)
  {
    Conserved(L, total) && AllocationNonNegative(L)
  }

  /** The constructor: an empty capacity vector is rejected. */
  function NewLedger(available: seq<int>): (r: Result<Ledger>)
    ensures r.Failure? <==> available == []
    ensures r.Success? ==> r.value.available == available
    ensures r.Success? ==> r.value.allocation == map[] && r.value.maxNeed == map[]
    ensures r.Success? ==> Inv(r.value, available)
  {
    if |available| == 0 then Failure(InvalidConfiguration("available vector must not be empty"))
    else Success(Ledger(available, map[], map[]))
  }

  /** `maxNeed[k] - allocation[k]`: what `k` may still ask for. */
  function NeedOf(L: Ledger, k: int): (r: seq<int>)
    requires WellFormed(L) && k in L.allocation
    ensures |r| == |L.maxNeed[k]|
  {
    Sub(L.maxNeed[k], L.allocation[k])
  }

  /** No pid occurs twice. */
  predicate Distinct(s: seq<int>)
  {
    forall i, j | 0 <= i < j < |s| :: s[i] != s[j]
  }

  /** Every pid of `s` holds an allocation. */
  predicate AllAllocated(L: Ledger, s: seq<int>)
  {
    forall i | 0 <= i < |s| :: s[i] in L.allocation
  }

  /** The safety check's work vector once the pids of `s` have finished:
      `available` plus their allocations. */
  function WorkAfter(L: Ledger, s: seq<int>): (r: seq<int>)
    requires WellFormed(L) && AllAllocated(L, s)
    ensures |r| == |L.available|
  {
    if s == [] then L.available
    else
      var last := s[|s| - 1];
      assert last in L.allocation;
      assert AllAllocated(L, s[..|s| - 1]);
      Add(WorkAfter(L, s[..|s| - 1]), L.allocation[last])
  }

  /** The need of the `i`-th pid of `s` is covered by `available` plus what
      the pids before it release. */
  predicate CoveredAt(L: Ledger, s: seq<int>, i: nat)
    requires WellFormed(L) && AllAllocated(L, s) && i < |s|
  {
    Leq(NeedOf(L, s[i]), WorkAfter(L, s[..i]))
  }

  /** `s` is a finish order: distinct allocated pids, each of which is covered. */
  predicate ValidOrder(L: Ledger, s: seq<int>)
    requires WellFormed(L)
  {
    && Distinct(s)
    && AllAllocated(L, s)
    && forall i: nat | i < |s| :: CoveredAt(L, s, i)
  }

  /** A safe sequence: a finish order that lists every allocated pid. */
  predicate IsSafeSequence(L: Ledger, s: seq<int>)
    requires WellFormed(L)
  {
    ValidOrder(L, s) && forall k | k in L.allocation :: k in s
  }

  /** The textbook notion of a safe state: some safe sequence exists. */
  ghost predicate IsSafeState(L: Ledger)
  {
    WellFormed(L) && exists s :: IsSafeSequence(L, s)
  }

  /** The state of the safety check between pids: the work vector and the
      pids marked finished, in the order they were marked. */
  datatype Progress = Progress(work: seq<int>, finished: seq<int>)

  /** The safety check's invariant: the finished pids form a finish order
      and the work vector is what they leave behind. */
  predicate Consistent(L: Ledger, p: Progress)
    requires WellFormed(L)
  {
    ValidOrder(L, p.finished) && p.work == WorkAfter(L, p.finished)
  }

  lemma WorkAfterAppend(L: Ledger, s: seq<int>, k: int)
    requires WellFormed(L) && AllAllocated(L, s) && k in L.allocation
    ensures AllAllocated(L, s + [k])
    ensures WorkAfter(L, s + [k]) == Add(WorkAfter(L, s), L.allocation[k])
  {
    assert (s + [k])[..|s|] == s;
  }

  /** Extending a finish order by one pid whose need the work covers. */
  lemma ValidOrderAppend(L: Ledger, s: seq<int>, k: int)
    requires WellFormed(L) && ValidOrder(L, s) && k in L.allocation && k !in s
    requires Leq(NeedOf(L, k), WorkAfter(L, s))
    ensures ValidOrder(L, s + [k])
  {
    var s' := s + [k];
    assert AllAllocated(L, s');
    forall i: nat | i < |s'|
      ensures CoveredAt(L, s', i)
    {
      if i < |s| {
        assert CoveredAt(L, s, i);
        assert s'[..i] == s[..i] && s'[i] == s[i];
      } else {
        assert s'[..i] == s && s'[i] == k;
      }
    }
  }

  /** One pass of the safety check over the pids in `scan`, in order: every
      unfinished pid whose need the work covers finishes and releases. */
  function Pass(L: Ledger, scan: seq<int>, p: Progress): (r: Progress)
    requires WellFormed(L) && AllAllocated(L, scan) && |p.work| == |L.available|
    ensures |r.work| == |L.available|
    decreases |scan|
  {
    if scan == [] then p
    else
      var k := scan[0];
      if k in p.finished then Pass(L, scan[1..], p)
      else if Leq(NeedOf(L, k), p.work) then
        Pass(L, scan[1..], Progress(Add(p.work, L.allocation[k]), p.finished + [k]))
      else Pass(L, scan[1..], p)
  }

  /** A pass keeps the safety check's invariant. */
  lemma {:induction false} PassConsistent(L: Ledger, scan: seq<int>, p: Progress)
    requires WellFormed(L) && AllAllocated(L, scan) && Consistent(L, p)
    ensures Consistent(L, Pass(L, scan, p))
    decreases |scan|
  {
    if scan != [] {
      var k := scan[0];
      assert AllAllocated(L, scan[1..]);
      if k in p.finished || !Leq(NeedOf(L, k), p.work) {
        PassConsistent(L, scan[1..], p);
      } else {
        WorkAfterAppend(L, p.finished, k);
        ValidOrderAppend(L, p.finished, k);
        PassConsistent(L, scan[1..], Progress(Add(p.work, L.allocation[k]), p.finished + [k]));
      }
    }
  }

  /** A pass only appends to the finished pids, and only pids of `scan`. */
  lemma {:induction false} PassExtends(L: Ledger, scan: seq<int>, p: Progress)
    requires WellFormed(L) && AllAllocated(L, scan) && |p.work| == |L.available|
    ensures var r := Pass(L, scan, p);
      && |p.finished| <= |r.finished| && r.finished[..|p.finished|] == p.finished
      && (forall i | |p.finished| <= i < |r.finished| :: r.finished[i] in scan)
    decreases |scan|
  {
    if scan != [] {
      var k := scan[0];
      assert AllAllocated(L, scan[1..]);
      if k in p.finished || !Leq(NeedOf(L, k), p.work) {
        PassExtends(L, scan[1..], p);
        var r := Pass(L, scan[1..], p);
        forall i | |p.finished| <= i < |r.finished|
          ensures r.finished[i] in scan
        {
          assert r.finished[i] in scan[1..];
        }
      } else {
        var p' := Progress(Add(p.work, L.allocation[k]), p.finished + [k]);
        PassExtends(L, scan[1..], p');
        var r := Pass(L, scan[1..], p');
        assert r.finished[..|p.finished|] == (r.finished[..|p'.finished|])[..|p.finished|];
        forall i | |p.finished| <= i < |r.finished|
          ensures r.finished[i] in scan
        {
          if i == |p.finished| {
            assert r.finished[i] == (r.finished[..|p'.finished|])[i] == k;
          } else {
            assert r.finished[i] in scan[1..];
          }
        }
      }
    }
  }

  /** A pass that appends nothing leaves the work alone, and then every
      unfinished pid of `scan` has a need the work does not cover. */
  lemma {:induction false} PassStalls(L: Ledger, scan: seq<int>, p: Progress)
    requires WellFormed(L) && AllAllocated(L, scan) && |p.work| == |L.available|
    ensures var r := Pass(L, scan, p);
      && |p.finished| <= |r.finished|
      && (|r.finished| == |p.finished| ==>
            r.work == p.work &&
            forall i | 0 <= i < |scan| :: scan[i] in p.finished || !Leq(NeedOf(L, scan[i]), p.work))
    decreases |scan|
  {
    if scan != [] {
      var k := scan[0];
      assert AllAllocated(L, scan[1..]);
      if k in p.finished || !Leq(NeedOf(L, k), p.work) {
        PassStalls(L, scan[1..], p);
        var r := Pass(L, scan[1..], p);
        if |r.finished| == |p.finished| {
          forall i | 0 <= i < |scan|
            ensures scan[i] in p.finished || !Leq(NeedOf(L, scan[i]), p.work)
          {
            if i > 0 {
              assert scan[i] == scan[1..][i - 1];
            }
          }
        }
      } else {
        PassStalls(L, scan[1..], Progress(Add(p.work, L.allocation[k]), p.finished + [k]));
      }
    }
  }

  /** The set of pids in a sequence. */
  function Elems(s: seq<int>): set<int>
  {
    set x | x in s
  }

  /** Passes repeated until one makes no progress; the result is closed:
      no pid of `scan` left unfinished has a need the final work covers. */
  function Fixpoint(L: Ledger, scan: seq<int>, p: Progress): (r: Progress)
    requires WellFormed(L) && AllAllocated(L, scan) && Consistent(L, p)
    requires forall i | 0 <= i < |p.finished| :: p.finished[i] in scan
    ensures Consistent(L, r)
    ensures forall i | 0 <= i < |r.finished| :: r.finished[i] in scan
    ensures forall i | 0 <= i < |scan| :: scan[i] in r.finished || !Leq(NeedOf(L, scan[i]), r.work)
    decreases Elems(scan) - Elems(p.finished)
  {
    var q := Pass(L, scan, p);
    PassConsistent(L, scan, p);
    PassExtends(L, scan, p);
    PassStalls(L, scan, p);
    if |q.finished| > |p.finished| then
      var k := q.finished[|p.finished|];
      assert k !in p.finished by {
        assert q.finished[..|p.finished|] == p.finished;
      }
      assert k in Elems(scan) - Elems(p.finished);
      assert k !in Elems(scan) - Elems(q.finished);
      Fixpoint(L, scan, q)
    else
      q
  }

  /** What the safety check reports: the verdict and the finish order. */
  datatype SafetyOutcome = SafetyOutcome(safe: bool, order: seq<int>)

  /** The safety check, scanning the allocated pids in the order `scan`. A
      positive verdict comes with a safe sequence; the order is a valid
      finish order even when the verdict is negative. */
  function SafetyCheck(L: Ledger, scan: seq<int>): (r: SafetyOutcome)
    requires WellFormed(L) && IsEnumeration(scan, L.allocation.Keys)
    ensures ValidOrder(L, r.order)
    ensures r.safe <==> IsSafeSequence(L, r.order)
  {
    var q := Fixpoint(L, scan, Progress(L.available, []));
    SafetyOutcome(forall k | k in L.allocation :: k in q.finished, q.finished)
  }

  /** What a pid holds now; an unseen pid holds the zero vector. */
  function CurrentAllocation(L: Ledger, pid: int): (r: seq<int>)
    requires WellFormed(L)
    ensures |r| == |L.available|
  {
    if pid in L.allocation then L.allocation[pid] else Zeros(|L.available|)
  }

  /** The recording part of a request, done whatever the verdict: the claim
      is recorded and the pid gets its current (possibly zero) allocation
      entry. */
  function Recorded(L: Ledger, pid: int, claim: seq<int>): (r: Ledger)
    requires WellFormed(L) && |claim| <= |L.available|
    ensures WellFormed(r)
  {
    Ledger(L.available, L.allocation[pid := CurrentAllocation(L, pid)], L.maxNeed[pid := claim])
  }

  /** What `request_resources` returns, with the ledger it leaves behind. */
  datatype RequestOutcome = RequestOutcome(ledger: Ledger, safeSequence: Option<seq<int>>)

  /** The need a request checks against `available`: the claim minus what
      the pid holds now. */
  function RequestNeed(L: Ledger, pid: int, claim: seq<int>): (r: seq<int>)
    requires WellFormed(L) && |claim| <= |L.available|
    ensures |r| == |claim|
  {
    Sub(claim, CurrentAllocation(L, pid))
  }

  /** The tentative grant: `need` moves from `available` to the pid. */
  function Tentative(L: Ledger, pid: int, claim: seq<int>): (t: Ledger)
    requires WellFormed(L) && |claim| == |L.available|
    ensures WellFormed(t) && |t.available| == |L.available|
    ensures t.allocation == L.allocation[pid := claim] && t.maxNeed == L.maxNeed[pid := claim]
    ensures forall j | 0 <= j < |claim| ::
              t.available[j] == L.available[j] - (claim[j] - CurrentAllocation(L, pid)[j])
  {
    var r := Recorded(L, pid, claim);
    var need := RequestNeed(L, pid, claim);
    AddSubCancel(r.allocation[pid], claim);
    Ledger(Sub(L.available, need), r.allocation[pid := Add(r.allocation[pid], need)], r.maxNeed)
  }

  /** `request_resources(pid, claim)`, with the safety check scanning the
      allocated pids in the order `scan`. */
  function RequestWith(L: Ledger, pid: int, claim: seq<int>, scan: seq<int>): (out: RequestOutcome)
    requires WellFormed(L) && |claim| <= |L.available|
    requires IsEnumeration(scan, L.allocation.Keys + {pid})
    ensures WellFormed(out.ledger) && |out.ledger.available| == |L.available|
    ensures out.ledger.maxNeed == L.maxNeed[pid := claim]
    ensures out.ledger.allocation.Keys == L.allocation.Keys + {pid}
    ensures forall k | k in L.allocation && k != pid :: out.ledger.allocation[k] == L.allocation[k]
    ensures out.safeSequence.Some? ==>
              && |claim| == |L.available|
              && out.ledger.allocation[pid] == claim
              && (forall j | 0 <= j < |claim| ::
                    out.ledger.available[j] == L.available[j] - (claim[j] - CurrentAllocation(L, pid)[j]))
              && IsSafeSequence(out.ledger, out.safeSequence.value)
    ensures out.safeSequence.None? ==>
              && out.ledger.available == L.available
              && out.ledger.allocation == L.allocation[pid := CurrentAllocation(L, pid)]
  {
    var r := Recorded(L, pid, claim);
    if !Leq(RequestNeed(L, pid, claim), L.available) then RequestOutcome(r, None)
    else
      var t := Tentative(L, pid, claim);
      var check := SafetyCheck(t, scan);
      if check.safe then RequestOutcome(t, Some(check.order)) else RequestOutcome(r, None)
  }

  /** A request as the header's contract describes it: the same verdict as
      `RequestWith`, but a refusal leaves the ledger exactly as it was, with
      no claim recorded and no allocation entry added. */
  function AtomicRequestWith(L: Ledger, pid: int, claim: seq<int>, scan: seq<int>): (out: RequestOutcome)
    requires WellFormed(L) && |claim| <= |L.available|
    requires IsEnumeration(scan, L.allocation.Keys + {pid})
    ensures WellFormed(out.ledger) && |out.ledger.available| == |L.available|
    ensures out.safeSequence == RequestWith(L, pid, claim, scan).safeSequence
    ensures out.safeSequence.None? ==> out.ledger == L
    ensures out.safeSequence.Some? ==>
              && out.ledger.allocation == L.allocation[pid := claim]
              && out.ledger.maxNeed == L.maxNeed[pid := claim]
              && IsSafeSequence(out.ledger, out.safeSequence.value)
  {
    var out := RequestWith(L, pid, claim, scan);
    if out.safeSequence.Some? then out else RequestOutcome(L, None)
  }

  /** `request_resources` with the hash map's own, unspecified, iteration order. */
  ghost function Request(L: Ledger, pid: int, claim: seq<int>): (out: RequestOutcome)
    requires WellFormed(L) && |claim| <= |L.available|
    ensures WellFormed(out.ledger) && |out.ledger.available| == |L.available|
    ensures out.ledger.maxNeed == L.maxNeed[pid := claim]
    ensures out.ledger.allocation.Keys == L.allocation.Keys + {pid}
    ensures out.safeSequence.Some? ==>
              && out.ledger.allocation[pid] == claim
              && IsSafeSequence(out.ledger, out.safeSequence.value)
    ensures out.safeSequence.None? ==>
              && out.ledger.available == L.available
              && out.ledger.allocation == L.allocation[pid := CurrentAllocation(L, pid)]
  {
    RequestWith(L, pid, claim, KeyOrder(L.allocation.Keys + {pid}))
  }

  /** `release_all(pid)`: an unknown pid is a no-op; otherwise the pid's
      allocation returns to `available` and the pid leaves both tables. */
  function ReleaseAll(L: Ledger, pid: int): (r: Ledger)
    requires WellFormed(L)
    ensures WellFormed(r) && |r.available| == |L.available|
    ensures pid !in L.allocation ==> r == L
    ensures pid in L.allocation ==>
              && (forall j | 0 <= j < |L.available| :: r.available[j] == L.available[j] + L.allocation[pid][j])
              && r.allocation == L.allocation - {pid}
              && r.maxNeed == L.maxNeed - {pid}
  {
    if pid !in L.allocation then L
    else Ledger(Add(L.available, L.allocation[pid]), L.allocation - {pid}, L.maxNeed - {pid})
  }
}

=== FILE: bankers_proofs.dfy ===
/** Properties of the ledger that relate several calls: conservation across
    any run of requests and releases, the safety check deciding exactly the
    textbook notion of safety whatever its scan order, and the lasting
    effect of a refused request's recorded claim. */
module BankersProofs {
  import opened Common
  import opened Vectors
  import opened ColumnSums
  import opened Bankers

  /** The work after a distinct finish prefix is `available` plus the
      column sums of the allocations of exactly those pids. */
  lemma {:induction false} WorkAfterColumn(L: Ledger, s: seq<int>, j: nat)
    requires WellFormed(L) && Distinct(s) && AllAllocated(L, s) && j < |L.available|
    ensures Wide(Restrict(L.allocation, Elems(s)), j)
    ensures WorkAfter(L, s)[j] == L.available[j] + ColumnSum(Restrict(L.allocation, Elems(s)), j)
    decreases |s|
  {
    var R := Restrict(L.allocation, Elems(s));
    if s == [] {
      assert R.Keys == {};
    } else {
      var s' := s[..|s| - 1];
      var x := s[|s| - 1];
      assert s == s' + [x];
      assert AllAllocated(L, s');
      WorkAfterColumn(L, s', j);
      var R' := Restrict(L.allocation, Elems(s'));
      assert x !in s';
      assert x in R;
      assert R - {x} == R';
      ColumnSumRemove(R, x, j);
    }
  }

  /** With non-negative allocations, the work only grows with the set of
      finished pids, whatever the order they finished in. */
  lemma WorkAfterMonotone(L: Ledger, a: seq<int>, b: seq<int>)
    requires WellFormed(L) && AllocationNonNegative(L)
    requires Distinct(a) && Distinct(b) && AllAllocated(L, a) && AllAllocated(L, b)
    requires forall i | 0 <= i < |a| :: a[i] in b
    ensures forall j | 0 <= j < |L.available| :: WorkAfter(L, a)[j] <= WorkAfter(L, b)[j]
  {
    forall j | 0 <= j < |L.available|
      ensures WorkAfter(L, a)[j] <= WorkAfter(L, b)[j]
    {
      WorkAfterColumn(L, a, j);
      WorkAfterColumn(L, b, j);
      var Ra := Restrict(L.allocation, Elems(a));
      var Rb := Restrict(L.allocation, Elems(b));
      assert SubTable(Ra, Rb);
      ColumnSumMonotone(Ra, Rb, j);
    }
  }

  /** Under the invariant, no work vector exceeds the total capacity. */
  lemma WorkAfterBounded(L: Ledger, total: seq<int>, s: seq<int>)
    requires Inv(L, total) && Distinct(s) && AllAllocated(L, s)
    ensures forall j | 0 <= j < |total| :: WorkAfter(L, s)[j] <= total[j]
  {
    forall j | 0 <= j < |total|
      ensures WorkAfter(L, s)[j] <= total[j]
    {
      WorkAfterColumn(L, s, j);
      ColumnSumMonotone(Restrict(L.allocation, Elems(s)), L.allocation, j);
    }
  }

  /** Completeness of the fixpoint iteration: if any safe sequence exists,
      the safety check succeeds, whichever order it scans the pids in. */
  lemma SafetyCheckComplete(L: Ledger, scan: seq<int>, s: seq<int>)
    requires WellFormed(L) && AllocationNonNegative(L) && IsEnumeration(scan, L.allocation.Keys)
    requires IsSafeSequence(L, s)
    ensures SafetyCheck(L, scan).safe
  {
    var q := Fixpoint(L, scan, Progress(L.available, []));
    var m := 0;
    while m < |s|
      invariant 0 <= m <= |s|
      invariant forall i | 0 <= i < m :: s[i] in q.finished
    {
      var k := s[m];
      assert CoveredAt(L, s, m);
      var prefix := s[..m];
      assert AllAllocated(L, prefix) && Distinct(prefix);
      WorkAfterMonotone(L, prefix, q.finished);
      LeqTransitive(NeedOf(L, k), WorkAfter(L, prefix), q.work);
      assert k in scan;
      m := m + 1;
    }
    assert forall k | k in L.allocation :: k in q.finished;
  }

  /** The safety check decides exactly whether the state is safe. */
  lemma SafetyCheckDecidesSafety(L: Ledger, scan: seq<int>)
    requires WellFormed(L) && AllocationNonNegative(L) && IsEnumeration(scan, L.allocation.Keys)
    ensures SafetyCheck(L, scan).safe <==> IsSafeState(L)
  {
    if IsSafeState(L) {
      var s :| IsSafeSequence(L, s);
      SafetyCheckComplete(L, scan, s);
    }
  }

  /** The verdict does not depend on the hash map's iteration order. */
  lemma SafetyVerdictIndependentOfOrder(L: Ledger, scan1: seq<int>, scan2: seq<int>)
    requires WellFormed(L) && AllocationNonNegative(L)
    requires IsEnumeration(scan1, L.allocation.Keys) && IsEnumeration(scan2, L.allocation.Keys)
    ensures SafetyCheck(L, scan1).safe == SafetyCheck(L, scan2).safe
  {
    SafetyCheckDecidesSafety(L, scan1);
    SafetyCheckDecidesSafety(L, scan2);
  }

  /** A request, granted or refused, keeps `available` plus all allocations
      equal to the capacity, whatever the claim holds. */
  lemma RequestConserves(L: Ledger, total: seq<int>, pid: int, claim: seq<int>, scan: seq<int>)
    requires Conserved(L, total) && |claim| <= |L.available|
    requires IsEnumeration(scan, L.allocation.Keys + {pid})
    ensures Conserved(RequestWith(L, pid, claim, scan).ledger, total)
  {
    var out := RequestWith(L, pid, claim, scan);
    var cur := CurrentAllocation(L, pid);
    var L' := out.ledger;
    if out.safeSequence.Some? {
      assert L'.allocation == L.allocation[pid := claim];
      forall j | 0 <= j < |total|
        ensures L'.available[j] + ColumnSum(L'.allocation, j) == total[j]
      {
        ColumnSumUpdate(L.allocation, pid, claim, j);
      }
    } else {
      forall j | 0 <= j < |total|
        ensures L'.available[j] + ColumnSum(L'.allocation, j) == total[j]
      {
        ColumnSumUpdate(L.allocation, pid, cur, j);
      }
    }
  }

  /** A request with a non-negative claim keeps the ledger invariant,
      whether granted or refused. */
  lemma RequestPreservesInv(L: Ledger, total: seq<int>, pid: int, claim: seq<int>, scan: seq<int>)
    requires Inv(L, total) && |claim| <= |L.available| && NonNegative(claim)
    requires IsEnumeration(scan, L.allocation.Keys + {pid})
    ensures Inv(RequestWith(L, pid, claim, scan).ledger, total)
  {
    RequestConserves(L, total, pid, claim, scan);
  }

  /** A release keeps `available` plus all allocations equal to the capacity. */
  lemma ReleaseConserves(L: Ledger, total: seq<int>, pid: int)
    requires Conserved(L, total)
    ensures Conserved(ReleaseAll(L, pid), total)
  {
    if pid in L.allocation {
      forall j | 0 <= j < |total|
        ensures ReleaseAll(L, pid).available[j] + ColumnSum(L.allocation - {pid}, j) == total[j]
      {
        ColumnSumRemove(L.allocation, pid, j);
      }
    }
  }

  /** A release keeps the ledger invariant. */
  lemma ReleasePreservesInv(L: Ledger, total: seq<int>, pid: int)
    requires Inv(L, total)
    ensures Inv(ReleaseAll(L, pid), total)
  {
    ReleaseConserves(L, total, pid);
  }

  /** Releasing twice is releasing once. */
  lemma ReleaseIdempotent(L: Ledger, pid: int)
    requires WellFormed(L)
    ensures ReleaseAll(ReleaseAll(L, pid), pid) == ReleaseAll(L, pid)
  {
  }

  /** One call on the ledger. */
  datatype LedgerCall = RequestCall(pid: int, claim: seq<int>) | ReleaseCall(pid: int)

  /** Every claim in `calls` is no wider than `n`, as `request_resources`
      demands of its vector argument. */
  predicate CallsFit(calls: seq<LedgerCall>, n: nat)
  {
    forall i | 0 <= i < |calls| :: calls[i].RequestCall? ==> |calls[i].claim| <= n
  }

  /** Every claim in `calls` is non-negative. */
  predicate NonNegativeCalls(calls: seq<LedgerCall>)
  {
    forall i | 0 <= i < |calls| :: calls[i].RequestCall? ==> NonNegative(calls[i].claim)
  }

  /** The ledger after a run of calls, each request scanning in the hash
      map's unspecified order. */
  ghost function Apply(L: Ledger, calls: seq<LedgerCall>): (r: Ledger)
    requires WellFormed(L) && CallsFit(calls, |L.available|)
    ensures WellFormed(r) && |r.available| == |L.available|
    decreases |calls|
  {
    if calls == [] then L
    else
      var L' := match calls[0]
        case RequestCall(pid, claim) => Request(L, pid, claim).ledger
        case ReleaseCall(pid) => ReleaseAll(L, pid);
      Apply(L', calls[1..])
  }

  /** Conservation over any run of requests and releases: `available` plus
      all allocations stays equal to the constructor's vector. */
  lemma {:induction false} ConservationAcrossCalls(L: Ledger, total: seq<int>, calls: seq<LedgerCall>)
    requires Conserved(L, total) && CallsFit(calls, |L.available|)
    ensures Conserved(Apply(L, calls), total)
    decreases |calls|
  {
    if calls != [] {
      var L' := match calls[0]
        case RequestCall(pid, claim) => Request(L, pid, claim).ledger
        case ReleaseCall(pid) => ReleaseAll(L, pid);
      match calls[0] {
        case RequestCall(pid, claim) =>
          RequestConserves(L, total, pid, claim, KeyOrder(L.allocation.Keys + {pid}));
        case ReleaseCall(pid) =>
          ReleaseConserves(L, total, pid);
      }
      assert CallsFit(calls[1..], |L'.available|);
      ConservationAcrossCalls(L', total, calls[1..]);
    }
  }

  /** Over a run whose claims are non-negative, allocations also stay
      non-negative, so the whole ledger invariant holds throughout. */
  lemma {:induction false} InvAcrossCalls(L: Ledger, total: seq<int>, calls: seq<LedgerCall>)
    requires Inv(L, total) && CallsFit(calls, |L.available|) && NonNegativeCalls(calls)
    ensures Inv(Apply(L, calls), total)
    decreases |calls|
  {
    if calls != [] {
      var L' := match calls[0]
        case RequestCall(pid, claim) => Request(L, pid, claim).ledger
        case ReleaseCall(pid) => ReleaseAll(L, pid);
      match calls[0] {
        case RequestCall(pid, claim) =>
          RequestPreservesInv(L, total, pid, claim, KeyOrder(L.allocation.Keys + {pid}));
        case ReleaseCall(pid) =>
          ReleasePreservesInv(L, total, pid);
      }
      assert CallsFit(calls[1..], |L'.available|) && NonNegativeCalls(calls[1..]);
      InvAcrossCalls(L', total, calls[1..]);
    }
  }

  /** A request is granted exactly when the need fits in `available` and
      the tentative grant leaves a safe state (Banker's admission rule). */
  lemma RequestGrantedIffSafe(L: Ledger, total: seq<int>, pid: int, claim: seq<int>, scan: seq<int>)
    requires Inv(L, total) && |claim| == |L.available| && NonNegative(claim)
    requires IsEnumeration(scan, L.allocation.Keys + {pid})
    ensures RequestWith(L, pid, claim, scan).safeSequence.Some? <==>
              Leq(RequestNeed(L, pid, claim), L.available) && IsSafeState(Tentative(L, pid, claim))
  {
    if Leq(RequestNeed(L, pid, claim), L.available) {
      var t := Tentative(L, pid, claim);
      assert AllocationNonNegative(t);
      SafetyCheckDecidesSafety(t, scan);
    }
  }

  /** A granted state is immediately safe again, in any scan order. */
  lemma GrantedStateIsSafe(L: Ledger, total: seq<int>, pid: int, claim: seq<int>, scan: seq<int>, rescan: seq<int>)
    requires Inv(L, total) && |claim| <= |L.available| && NonNegative(claim)
    requires IsEnumeration(scan, L.allocation.Keys + {pid})
    requires RequestWith(L, pid, claim, scan).safeSequence.Some?
    requires IsEnumeration(rescan, L.allocation.Keys + {pid})
    ensures SafetyCheck(RequestWith(L, pid, claim, scan).ledger, rescan).safe
  {
    var out := RequestWith(L, pid, claim, scan);
    RequestPreservesInv(L, total, pid, claim, scan);
    SafetyCheckComplete(out.ledger, rescan, out.safeSequence.value);
  }

  /** `q` can never finish: its remaining need exceeds the whole capacity
      (or has the wrong width). */
  predicate Hopeless(L: Ledger, q: int, total: seq<int>)
  {
    WellFormed(L) && q in L.allocation && !Leq(NeedOf(L, q), total)
  }

  /** A ledger holding a hopeless pid is never in a safe state. */
  lemma HopelessIsUnsafe(L: Ledger, total: seq<int>, q: int)
    requires Inv(L, total) && Hopeless(L, q, total)
    ensures !IsSafeState(L)
  {
    if s :| IsSafeSequence(L, s) {
      var m :| 0 <= m < |s| && s[m] == q;
      assert CoveredAt(L, s, m);
      var prefix := s[..m];
      assert AllAllocated(L, prefix) && Distinct(prefix);
      WorkAfterBounded(L, total, prefix);
    }
  }

  /** A hopeless pid makes every later request of another pid fail, and
      stays hopeless: refused requests leave its entries in place. */
  lemma HopelessBlocksRequests(L: Ledger, total: seq<int>, q: int, pid: int, claim: seq<int>, scan: seq<int>)
    requires Inv(L, total) && Hopeless(L, q, total) && pid != q
    requires |claim| <= |L.available| && NonNegative(claim)
    requires IsEnumeration(scan, L.allocation.Keys + {pid})
    ensures RequestWith(L, pid, claim, scan).safeSequence.None?
    ensures Hopeless(RequestWith(L, pid, claim, scan).ledger, q, total)
  {
    var out := RequestWith(L, pid, claim, scan);
    RequestPreservesInv(L, total, pid, claim, scan);
    assert NeedOf(out.ledger, q) == NeedOf(L, q);
    if out.safeSequence.Some? {
      HopelessIsUnsafe(out.ledger, total, q);
    }
  }

  /** A new pid whose claim exceeds the total capacity in some resource is
      refused, yet its claim and a zero allocation are recorded, which makes
      it hopeless. */
  lemma OversizedClaimBecomesHopeless(L: Ledger, total: seq<int>, pid: int, claim: seq<int>, scan: seq<int>, j: nat)
    requires Inv(L, total) && pid !in L.allocation
    requires |claim| == |L.available| && NonNegative(claim)
    requires j < |claim| && claim[j] > total[j]
    requires IsEnumeration(scan, L.allocation.Keys + {pid})
    ensures RequestWith(L, pid, claim, scan).safeSequence.None?
    ensures Hopeless(RequestWith(L, pid, claim, scan).ledger, pid, total)
  {
    ColumnSumMonotone(map[], L.allocation, j);
    assert RequestNeed(L, pid, claim)[j] == claim[j];
  }

  /** The header's atomic request keeps the ledger invariant too. */
  lemma AtomicRequestPreservesInv(L: Ledger, total: seq<int>, pid: int, claim: seq<int>, scan: seq<int>)
    requires Inv(L, total) && |claim| <= |L.available| && NonNegative(claim)
    requires IsEnumeration(scan, L.allocation.Keys + {pid})
    ensures Inv(AtomicRequestWith(L, pid, claim, scan).ledger, total)
  {
    RequestPreservesInv(L, total, pid, claim, scan);
  }

  /** With the header's atomic request, the oversized claim of
      `OversizedClaimBecomesHopeless` is refused without a trace: the pid
      is not in the ledger afterwards, so it blocks nobody. */
  lemma AtomicOversizedClaimLeavesNoTrace(L: Ledger, total: seq<int>, pid: int, claim: seq<int>, scan: seq<int>, j: nat)
    requires Inv(L, total) && pid !in L.allocation
    requires |claim| == |L.available| && NonNegative(claim)
    requires j < |claim| && claim[j] > total[j]
    requires IsEnumeration(scan, L.allocation.Keys + {pid})
    ensures AtomicRequestWith(L, pid, claim, scan).safeSequence.None?
    ensures pid !in AtomicRequestWith(L, pid, claim, scan).ledger.allocation
    ensures pid !in AtomicRequestWith(L, pid, claim, scan).ledger.maxNeed
  {
    OversizedClaimBecomesHopeless(L, total, pid, claim, scan, j);
  }

  /** A pid that is the only claimant is granted whenever its need fits:
      once it holds its whole claim it can always finish. */
  lemma SoleClaimantGranted(L: Ledger, total: seq<int>, pid: int, claim: seq<int>)
    requires Inv(L, total) && L.allocation.Keys <= {pid}
    requires |claim| == |L.available| && NonNegative(claim)
    requires Leq(RequestNeed(L, pid, claim), L.available)
    ensures Request(L, pid, claim).safeSequence.Some?
  {
    var t := Tentative(L, pid, claim);
    assert t.allocation.Keys == {pid};
    assert Leq(NeedOf(t, pid), t.available);
    assert CoveredAt(t, [pid], 0);
    assert IsSafeSequence(t, [pid]);
    RequestGrantedIffSafe(L, total, pid, claim, KeyOrder(L.allocation.Keys + {pid}));
  }

  /** Capacity [3,3,2]: a fresh pid 1 claiming [1,0,0] is granted and
      appears in the safe sequence. */
  lemma ScenarioFirstClaimGranted(capacity: seq<int>, claim: seq<int>)
    requires capacity == [3, 3, 2] && claim == [1, 0, 0]
    ensures NewLedger(capacity).Success?
    ensures var out := Request(NewLedger(capacity).value, 1, claim);
            out.safeSequence.Some? && 1 in out.safeSequence.value
  {
    var L := NewLedger(capacity).value;
    ZeroAllocationNeed(L, 1, claim);
    SoleClaimantGranted(L, capacity, 1, claim);
    GrantedFreshAvailable(L, 1, claim, Request(L, 1, claim));
  }

  /** The same grant leaves [2,3,2] available. */
  lemma ScenarioFirstClaimAvailable(capacity: seq<int>, claim: seq<int>)
    requires capacity == [3, 3, 2] && claim == [1, 0, 0]
    ensures NewLedger(capacity).Success?
    ensures Request(NewLedger(capacity).value, 1, claim).ledger.available == [2, 3, 2]
  {
    ScenarioFirstClaimGranted(capacity, claim);
    var L := NewLedger(capacity).value;
    var out := Request(L, 1, claim);
    GrantedFreshAvailable(L, 1, claim, out);
    assert out.ledger.available == [2, 3, 2];
  }

  /** A granted request by a pid holding nothing takes the whole claim out
      of `available`, and the pid is on the safe sequence. */
  lemma GrantedFreshAvailable(L: Ledger, pid: int, claim: seq<int>, out: RequestOutcome)
    requires WellFormed(L) && |claim| <= |L.available| && pid !in L.allocation
    requires out == Request(L, pid, claim) && out.safeSequence.Some?
    ensures |out.ledger.available| == |L.available| == |claim|
    ensures forall j | 0 <= j < |claim| :: out.ledger.available[j] == L.available[j] - claim[j]
    ensures pid in out.safeSequence.value
  {
    assert pid in out.ledger.allocation;
    forall j | 0 <= j < |claim|
      ensures out.ledger.available[j] == L.available[j] - claim[j]
    {
      assert CurrentAllocation(L, pid)[j] == 0;
    }
  }

  /** A pid holding nothing needs its whole claim. */
  lemma ZeroAllocationNeed(L: Ledger, pid: int, claim: seq<int>)
    requires WellFormed(L) && |claim| <= |L.available|
    requires pid !in L.allocation
    ensures RequestNeed(L, pid, claim) == claim
  {
  }

  /** A request whose need exceeds `available` is refused by the need check,
      before any safety check. */
  lemma NeedBeyondAvailableRefused(L: Ledger, pid: int, claim: seq<int>)
    requires WellFormed(L) && |claim| <= |L.available|
    requires !Leq(RequestNeed(L, pid, claim), L.available)
    ensures Request(L, pid, claim).safeSequence.None?
  {
  }
}

=== FILE: column_sums.dfy ===
/** Sums over the per-pid vectors of a ledger table, one resource type
    (column) at a time. These give meaning to "available plus everything
    allocated" without fixing an order on the pids. */
module ColumnSums {
  import opened Common

  /** A ledger table: pid to resource vector. */
  type Table = map<int, seq<int>>

  /** Every vector of `m` has a component `j`. */
  predicate Wide(m: Table, j: nat)
  {
    forall k | k in m :: j < |m[k]|
  }

  /** Every vector of `m` is non-negative in component `j`. */
  predicate ColumnNonNegative(m: Table, j: nat)
    requires Wide(m, j)
  {
    forall k | k in m :: m[k][j] >= 0
  }

  /** `small` is `big` restricted to some of its keys. */
  predicate SubTable(small: Table, big: Table)
  {
    forall k | k in small :: k in big && small[k] == big[k]
  }

  /** `m` restricted to the keys in `s`. */
  function Restrict(m: Table, s: set<int>): (r: Table)
    ensures SubTable(r, m)
    ensures r.Keys == m.Keys * s
  {
    map k | k in m && k in s :: m[k]
  }

  /** Some key of a non-empty table, fixed but unspecified. */
  ghost function Pick(m: Table): (k: int)
    requires m.Keys != {}
    ensures k in m
  {
    HasElement(m.Keys);
    var k :| k in m.Keys; k
  }

  /** The sum of component `j` over all vectors of `m`. */
  ghost function ColumnSum(m: Table, j: nat): int
    requires Wide(m, j)
    decreases m.Keys
  {
    if m.Keys == {} then 0
    else
      var k := Pick(m);
      m[k][j] + ColumnSum(m - {k}, j)
  }

  /** The sum does not depend on which key is taken out first. */
  lemma {:induction false} ColumnSumRemove(m: Table, k: int, j: nat)
    requires Wide(m, j) && k in m
    ensures ColumnSum(m, j) == m[k][j] + ColumnSum(m - {k}, j)
    decreases m.Keys
  {
    var p := Pick(m);
    if p != k {
      ColumnSumRemove(m - {p}, k, j);
      ColumnSumRemove(m - {k}, p, j);
      assert m - {p} - {k} == m - {k} - {p};
    }
  }

  /** Writing `v` at key `k` replaces the old contribution of `k`, if any, by `v[j]`. */
  lemma ColumnSumUpdate(m: Table, k: int, v: seq<int>, j: nat)
    requires Wide(m, j) && j < |v|
    ensures ColumnSum(m[k := v], j) == ColumnSum(m, j) - (if k in m then m[k][j] else 0) + v[j]
  {
    ColumnSumRemove(m[k := v], k, j);
    assert m[k := v] - {k} == m - {k};
    if k in m {
      ColumnSumRemove(m, k, j);
    } else {
      assert m - {k} == m;
    }
  }

  /** With non-negative entries, a sub-table never sums to more than the table. */
  lemma {:induction false} ColumnSumMonotone(small: Table, big: Table, j: nat)
    requires Wide(big, j) && ColumnNonNegative(big, j) && SubTable(small, big)
    ensures Wide(small, j)
    ensures ColumnSum(small, j) <= ColumnSum(big, j)
    decreases big.Keys
  {
    forall k | k in small.Keys ensures k in big.Keys {
      assert k in small;
    }
    if small.Keys == big.Keys {
      assert forall k | k in small :: small[k] == big[k];
      assert small == big;
    } else {
      if forall k | k in big.Keys :: k in small.Keys {
        assert false;
      }
      var k :| k in big.Keys && k !in small.Keys;
      ColumnSumRemove(big, k, j);
      ColumnSumMonotone(small, big - {k}, j);
    }
  }
}

=== FILE: common.dfy ===
/** Failure-carrying values and sequence helpers shared by every component
    of the simulator model. */
module Common {

  /** A value that may be absent, as `std::optional` is in the original. */
  datatype Option<+T> = None | Some(value: T)

  /** The only error the core raises: a component built with an unusable size. */
  datatype ConfigError = InvalidConfiguration(reason: string)

  /** The outcome of a constructor that may throw `std::invalid_argument`. */
  datatype Result<+T> = Success(value: T) | Failure(error: ConfigError)

  /** `xs` lists every element of `s` exactly once, in some order. */
  predicate IsEnumeration(xs: seq<int>, s: set<int>)
  {
    && (forall i, j | 0 <= i < j < |xs| :: xs[i] != xs[j])
    && (forall i | 0 <= i < |xs| :: xs[i] in s)
    && (forall k | k in s :: k in xs)
  }

  /** Some fixed but unspecified listing of a set of ints: the model of the
      iteration order of a hash map with key set `s`. */
  ghost function KeyOrder(s: set<int>): (xs: seq<int>)
    ensures IsEnumeration(xs, s)
    decreases s
  {
    if s == {} then []
    else
      HasElement(s);
      var k :| k in s;
      [k] + KeyOrder(s - {k})
  }

  /** A non-empty set has a member. */
  lemma HasElement(s: set<int>)
    requires s != {}
    ensures exists k :: k in s
  {
    if forall k :: k !in s {
      assert false;
    }
  }

  // ---------------------------------------------------------------------
  // Order-preserving split by verdict
  // ---------------------------------------------------------------------

  /** The elements of `xs` whose verdict is `want`, in their original order. */
  function Select<T>(xs: seq<T>, v: seq<bool>, want: bool): seq<T>
    requires |v| == |xs|
  {
    if xs == [] then []
    else if v[0] == want then [xs[0]] + Select(xs[1..], v[1..], want)
    else Select(xs[1..], v[1..], want)
  }

  /** Deciding one more element extends exactly the selection it went to. */
  lemma {:induction false} SelectAppend<T>(xs: seq<T>, v: seq<bool>, want: bool, p: T, g: bool, xs': seq<T>, v': seq<bool>)
    requires |v| == |xs| && xs' == xs + [p] && v' == v + [g]
    ensures Select(xs', v', want) == Select(xs, v, want) + (if g == want then [p] else [])
    decreases |xs|
  {
    if xs == [] {
      assert xs'[1..] == [] && v'[1..] == [];
    } else {
      assert xs'[0] == xs[0] && v'[0] == v[0];
      assert xs'[1..] == xs[1..] + [p] && v'[1..] == v[1..] + [g];
      SelectAppend(xs[1..], v[1..], want, p, g, xs'[1..], v'[1..]);
    }
  }

  /** Splitting by verdict loses and duplicates nothing: the two parts
      together are a permutation of the whole. */
  lemma {:induction false} SelectPartition<T>(xs: seq<T>, v: seq<bool>)
    requires |v| == |xs|
    ensures multiset(Select(xs, v, true)) + multiset(Select(xs, v, false)) == multiset(xs)
    ensures |Select(xs, v, true)| + |Select(xs, v, false)| == |xs|
  {
    if xs != [] {
      var x, rest, w := xs[0], xs[1..], v[1..];
      SelectPartition(rest, w);
      assert xs == [x] + rest;
      var t, f := Select(rest, w, true), Select(rest, w, false);
      if v[0] {
        assert Select(xs, v, true) == [x] + t && Select(xs, v, false) == f;
        assert multiset([x] + t) == multiset{x} + multiset(t);
      } else {
        assert Select(xs, v, true) == t && Select(xs, v, false) == [x] + f;
        assert multiset([x] + f) == multiset{x} + multiset(f);
      }
    }
  }

  /** An element of a selection is an element of the whole. */
  lemma SelectSubset<T>(xs: seq<T>, v: seq<bool>, want: bool, p: T)
    requires |v| == |xs| && p in Select(xs, v, want)
    ensures p in xs
  {
    SelectPartition(xs, v);
    assert p in multiset(Select(xs, v, want));
  }

  /** Taking one occurrence of `a[0]` out of both sides of a multiset
      equality leaves them equal. */
  lemma MultisetRemoveOne<T>(a: seq<T>, b: seq<T>, k: nat)
    requires multiset(a) == multiset(b) && a != [] && k < |b| && b[k] == a[0]
    ensures multiset(a[1..]) == multiset(b[..k] + b[k + 1..])
  {
    assert a == [a[0]] + a[1..];
    assert b == b[..k] + [b[k]] + b[k + 1..];
    var rest := b[..k] + b[k + 1..];
    calc {
      multiset(a[1..]) + multiset{a[0]};
      multiset(a);
      multiset(b);
      multiset(b[..k]) + multiset{b[k]} + multiset(b[k + 1..]);
      multiset(rest) + multiset{a[0]};
    }
    assert multiset(a[1..]) == multiset(a[1..]) + multiset{a[0]} - multiset{a[0]};
    assert multiset(rest) == multiset(rest) + multiset{a[0]} - multiset{a[0]};
  }
}

=== FILE: process.dfy ===
/** The process record that flows through buffer, ledger and scheduler. */
module Processes {

  /** Value of `startTime`/`finishTime` before the scheduler assigns them. */
  const Unset: int := -1

  /** One simulated process. Lower `priority` numbers are more urgent. */
  datatype Process = Process(
    pid: int,
    arrivalTime: int,
    burstTime: int,
    remainingTime: int,
    priority: int,
    maxNeed: seq<int>,
    startTime: int,
    finishTime: int)

  /** The five-argument constructor: the remaining time starts at the burst
      time and both timestamps start unset. */
  function NewProcess(id: int, at: int, bt: int, pr: int, need: seq<int>): (p: Process)
    ensures p.pid == id && p.arrivalTime == at && p.priority == pr && p.maxNeed == need
    ensures p.burstTime == bt && p.remainingTime == p.burstTime
    ensures p.startTime == Unset && p.finishTime == Unset
  {
    Process(id, at, bt, bt, pr, need, Unset, Unset)
  }

  /** The default constructor: every number zero except the unset
      timestamps, and an empty claim. */
  function DefaultProcess(): (p: Process)
    ensures p.pid == 0 && p.arrivalTime == 0 && p.burstTime == 0 && p.remainingTime == 0
    ensures p.priority == 0 && p.maxNeed == []
    ensures p.startTime == Unset && p.finishTime == Unset
  {
    Process(0, 0, 0, 0, 0, [], Unset, Unset)
  }
}

=== FILE: ready_buffer.dfy ===
/** The bounded ready buffer: a fixed array used as a ring with head, tail
    and count indices. The two counting semaphores of the original only make
    callers wait; here they become the preconditions of `Push` and `Pop`. */
module ReadyBuffer {
  import opened Common

  /** `slots` is the contents of the fixed array, as a value: `Push` and `Pop`
      return a new ring rather than writing in place. `head` is the pop
      index and `tail` the push index. */
  datatype Ring<T> = Ring(slots: seq<T>, head: nat, tail: nat, count: nat)

  /** The number of slots, fixed at construction. */
  function Capacity<T>(r: Ring<T>): nat
  {
    |r.slots|
  }

  /** The representation invariant: indices inside the array, occupancy
      within capacity, and the tail `count` slots after the head. */
  predicate Valid<T>(r: Ring<T>)
  {
    && |r.slots| > 0
    && r.head < |r.slots| && r.tail < |r.slots|
    && r.count <= |r.slots|
    && r.tail == (r.head + r.count) % |r.slots|
  }

  /** The queued items, oldest first. */
  function Contents<T>(r: Ring<T>): (xs: seq<T>)
    requires Valid(r)
    ensures |xs| == r.count
  {
    seq(r.count, k requires 0 <= k < r.count => r.slots[(r.head + k) % |r.slots|])
  }

  /** The constructor: capacity 0 is rejected; otherwise every slot holds `blank`. */
  function NewRing<T>(capacity: nat, blank: T): (r: Result<Ring<T>>)
    ensures r.Failure? <==> capacity == 0
    ensures r.Success? ==> Valid(r.value) && Capacity(r.value) == capacity && Contents(r.value) == []
  {
    if capacity == 0 then Failure(InvalidConfiguration("capacity must be > 0"))
    else Success(Ring(seq(capacity, _ => blank), 0, 0, 0))
  }

  /** The value of the `empty_` semaphore: free slots. */
  function EmptySlots<T>(r: Ring<T>): (n: nat)
    requires Valid(r)
    ensures n + |Contents(r)| == Capacity(r)
  {
    |r.slots| - r.count
  }

  /** The value of the `full_` semaphore, and what `size()` returns: occupied slots. */
  function Size<T>(r: Ring<T>): (n: nat)
    requires Valid(r)
    ensures n == |Contents(r)| && n <= Capacity(r)
  {
    r.count
  }

  lemma ModWrap(x: int, n: int)
    requires 0 < n && 0 <= x < 2 * n
    ensures x % n == if x < n then x else x - n
  {
    if x >= n {
      assert x == n + (x - n);
      assert (x - n) % n == x - n;
    }
  }

  /** Slots at distinct offsets below the capacity are distinct. */
  lemma OffsetsDistinct(h: nat, a: nat, b: nat, n: nat)
    requires h < n && a < b < n
    ensures (h + a) % n != (h + b) % n
  {
    ModWrap(h + a, n);
    ModWrap(h + b, n);
  }

  /** Advancing the head by one and then offsetting by `k` is offsetting by `k + 1`. */
  lemma AdvanceThenOffset(h: nat, k: nat, n: nat)
    requires h < n && k < n
    ensures ((h + 1) % n + k) % n == (h + k + 1) % n
  {
    ModWrap(h + 1, n);
    if h + 1 == n {
      ModWrap(k, n);
      ModWrap(h + k + 1, n);
    }
  }

  /** `push`, once a slot is free: the item joins the back of the queue. */
  function Push<T>(r: Ring<T>, x: T): (r': Ring<T>)
    requires Valid(r) && EmptySlots(r) > 0
    ensures Valid(r') && Capacity(r') == Capacity(r)
    ensures Contents(r') == Contents(r) + [x]
    ensures Size(r') == Size(r) + 1
  {
    var n := |r.slots|;
    var r' := Ring(r.slots[r.tail := x], r.head, (r.tail + 1) % n, r.count + 1);
    ModWrap(r.head + r.count, n);
    ModWrap(r.tail + 1, n);
    ModWrap(r.head + r.count + 1, n);
    forall k | 0 <= k < r.count
      ensures Contents(r')[k] == Contents(r)[k]
    {
      OffsetsDistinct(r.head, k, r.count, n);
    }
    r'
  }

  /** What `pop` returns: the item and the ring without it. */
  datatype Popped<T> = Popped(item: T, rest: Ring<T>)

  /** `pop`, once an item is present: the oldest item leaves the queue. */
  function Pop<T>(r: Ring<T>): (p: Popped<T>)
    requires Valid(r) && Size(r) > 0
    ensures Valid(p.rest) && Capacity(p.rest) == Capacity(r)
    ensures p.item == Contents(r)[0]
    ensures Contents(p.rest) == Contents(r)[1..]
    ensures Size(p.rest) == Size(r) - 1
  {
    var n := |r.slots|;
    var rest := Ring(r.slots, (r.head + 1) % n, r.tail, r.count - 1);
    ModWrap(r.head + 1, n);
    ModWrap(r.head, n);
    AdvanceThenOffset(r.head, r.count - 1, n);
    assert Valid(rest);
    forall k | 0 <= k < r.count - 1
      ensures Contents(rest)[k] == Contents(r)[k + 1]
    {
      AdvanceThenOffset(r.head, k, n);
    }
    Popped(r.slots[r.head], rest)
  }

  /** Pushing several items in order, with room for all of them: they join
      the back of the queue in that order. */
  function PushAll<T>(r: Ring<T>, xs: seq<T>): (r': Ring<T>)
    requires Valid(r) && Size(r) + |xs| <= Capacity(r)
    ensures Valid(r') && Capacity(r') == Capacity(r)
    ensures Contents(r') == Contents(r) + xs
    decreases |xs|
  {
    if xs == [] then r
    else
      var r1 := Push(r, xs[0]);
      assert Contents(r1) + xs[1..] == Contents(r) + xs;
      PushAll(r1, xs[1..])
  }
}

=== FILE: scheduler.dfy ===
/** The CPU scheduler: non-preemptive priority for at most five processes,
    round-robin otherwise, each a loop over an input sorted by arrival. */
module Scheduler {
  import opened Processes
  import opened Schedules
  import Common

  /** Dispatching `pool[k]`, a first minimal ready process, at `start` keeps
      the dispatch rule, both among dispatched processes and towards the
      ones still pending. */
  lemma DispatchKeepsRule(sorted: seq<Process>, n: nat, pool: seq<Process>, k: nat,
                          g: seq<Slice>, picked: seq<Process>, start: int, end: int,
                          g': seq<Slice>, picked': seq<Process>, rest: seq<Process>)
    requires k < |pool| && LaterThan(sorted, n, start)
    requires forall x | 0 <= x < |pool| :: !DispatchBefore(pool[x], pool[k])
    requires DispatchRule(g, picked)
    requires PendingRule(sorted, n, pool, g, picked)
    requires g' == g + [Slice(pool[k].pid, start, end)] && picked' == picked + [pool[k]]
    requires rest == pool[..k] + pool[k + 1..]
    ensures DispatchRule(g', picked') && PendingRule(sorted, n, rest, g', picked')
  {
    SplitAt(pool, k);
    assert Pending(pool[k], pool, sorted, n);
    forall j, q | 0 <= j < |g'| && Pending(q, rest, sorted, n) && q.arrivalTime <= g'[j].start
      ensures !DispatchBefore(q, picked'[j])
    {
      assert Pending(q, pool, sorted, n);
      if j == |g| {
        assert q in pool;
        var x :| 0 <= x < |pool| && pool[x] == q;
      }
    }
  }

  /** Appending a slice leaves the end of every earlier slice where it was. */
  lemma AppendKeepsPrevEnd(g: seq<Slice>, s: Slice)
    ensures forall j | 0 <= j <= |g| :: PrevEnd(g + [s], j) == PrevEnd(g, j)
  {
  }

  lemma AppendSequential(g: seq<Slice>, s: Slice)
    requires Sequential(g) && LastEnd(g) <= s.start <= s.end
    ensures Sequential(g + [s])
  {
    AppendKeepsPrevEnd(g, s);
    var g' := g + [s];
    forall j | 0 <= j < |g'|
      ensures PrevEnd(g', j) <= g'[j].start <= g'[j].end
    {
      if j < |g| {
        assert g'[j] == g[j];
      }
    }
  }

  lemma AppendStartsAfterArrival(g: seq<Slice>, picked: seq<Process>, p: Process, s: Slice)
    requires |g| == |picked| && StartsAfterArrival(g, picked) && p.arrivalTime <= s.start
    ensures StartsAfterArrival(g + [s], picked + [p])
  {
    var g', picked' := g + [s], picked + [p];
    forall j | 0 <= j < |g'|
      ensures picked'[j].arrivalTime <= g'[j].start
    {
      if j < |g| {
        assert g'[j] == g[j] && picked'[j] == picked[j];
      }
    }
  }

  lemma AppendResumesAtArrival(g: seq<Slice>, picked: seq<Process>, p: Process, s: Slice)
    requires |g| == |picked| && ResumesAtArrival(g, picked)
    requires LastEnd(g) < s.start ==> p.arrivalTime == s.start
    ensures ResumesAtArrival(g + [s], picked + [p])
  {
    AppendKeepsPrevEnd(g, s);
    var g', picked' := g + [s], picked + [p];
    forall j | 0 <= j < |g'| && IdleBefore(g', j)
      ensures g'[j].start == picked'[j].arrivalTime
    {
      if j < |g| {
        assert g'[j] == g[j] && picked'[j] == picked[j];
        assert IdleBefore(g, j);
      }
    }
  }

  lemma AppendIdlesOnlyWhenEmpty(g: seq<Slice>, picked: seq<Process>, p: Process, s: Slice)
    requires |g| == |picked| && IdlesOnlyWhenEmpty(g, picked)
    requires LastEnd(g) < s.start ==> p.arrivalTime >= s.start
    requires forall j | 0 <= j < |g| && IdleBefore(g, j) :: p.arrivalTime >= g[j].start
    ensures IdlesOnlyWhenEmpty(g + [s], picked + [p])
  {
    AppendKeepsPrevEnd(g, s);
    var g', picked' := g + [s], picked + [p];
    forall j, m | 0 <= j <= m < |g'| && IdleBefore(g', j)
      ensures picked'[m].arrivalTime >= g'[j].start
    {
      if j < |g| {
        assert g'[j] == g[j];
        assert IdleBefore(g, j);
        if m < |g| {
          assert picked'[m] == picked[m];
        }
      }
    }
  }

  /** Appending a slice that starts at the final clock `t`, or after it at
      the arrival of its process, keeps the timeline provided that process
      had not arrived during any earlier idle gap. */
  lemma TimelineAppend(g: seq<Slice>, picked: seq<Process>, p: Process, start: int, end: int)
    requires Timeline(g, picked) && LastEnd(g) <= start <= end
    requires p.arrivalTime <= start
    requires LastEnd(g) < start ==> p.arrivalTime == start
    requires forall j | 0 <= j < |g| && IdleBefore(g, j) :: p.arrivalTime >= g[j].start
    ensures Timeline(g + [Slice(p.pid, start, end)], picked + [p])
  {
    var s := Slice(p.pid, start, end);
    AppendSequential(g, s);
    AppendStartsAfterArrival(g, picked, p, s);
    AppendResumesAtArrival(g, picked, p, s);
    AppendIdlesOnlyWhenEmpty(g, picked, p, s);
  }

  /** Dispatching `pool[k]` at `start` for a non-negative burst keeps the
      timeline, given the clock before it was `t` and either nothing idled
      (`start == t`, everything in the pool arrived by `t`) or the clock
      jumped to an arrival at which the whole pool arrived. */
  lemma DispatchKeepsTimeline(sorted: seq<Process>, n: nat, pool: seq<Process>, k: nat,
                              g: seq<Slice>, picked: seq<Process>, t: int, start: int, end: int,
                              g': seq<Slice>, picked': seq<Process>, rest: seq<Process>)
    requires k < |pool| && LaterThan(sorted, n, start)
    requires t == LastEnd(g) && start <= end
    requires Timeline(g, picked)
    requires PendingIdle(sorted, n, pool, g)
    requires (start == t && Arrived(pool, t)) || (t < start && forall q | q in pool :: q.arrivalTime == start)
    requires g' == g + [Slice(pool[k].pid, start, end)] && picked' == picked + [pool[k]]
    requires rest == pool[..k] + pool[k + 1..]
    ensures Timeline(g', picked') && Arrived(rest, end)
    ensures PendingIdle(sorted, n, rest, g')
  {
    SplitAt(pool, k);
    assert pool[k] in pool;
    assert Pending(pool[k], pool, sorted, n);
    TimelineAppend(g, picked, pool[k], start, end);
    AppendKeepsPrevEnd(g, Slice(pool[k].pid, start, end));
    forall j, q | 0 <= j < |g'| && IdleBefore(g', j) && Pending(q, rest, sorted, n)
      ensures q.arrivalTime >= g'[j].start
    {
      assert Pending(q, pool, sorted, n);
      if j < |g| {
        assert IdleBefore(g, j);
      }
    }
  }

  /** Everything in the ready list came from the input or the list before. */
  lemma NonNegativeAdmitted(sorted: seq<Process>, i: nat, ready: seq<Process>, n: nat, pool: seq<Process>)
    requires i <= |sorted| && n <= |sorted| && NonNegativeBursts(sorted) && NonNegativeBursts(ready)
    requires multiset(pool) + multiset(sorted[n..]) == multiset(ready) + multiset(sorted[i..])
    ensures NonNegativeBursts(pool)
  {
    forall q | q in pool
      ensures q.burstTime >= 0
    {
      assert q in multiset(ready) + multiset(sorted[i..]);
      if q !in ready {
        assert q in sorted[i..];
      }
    }
  }

  /** Slice `j` ran `picked[j]` to completion, giving `done[j]`. */
  predicate RanToCompletion(g: seq<Slice>, picked: seq<Process>, done: seq<Process>)
  {
    && |g| == |picked| == |done|
    && forall j | 0 <= j < |g| ::
         && g[j].pid == picked[j].pid
         && g[j].end == g[j].start + picked[j].burstTime
         && done[j] == RunToCompletion(picked[j], g[j].start)
  }

  lemma AppendRanToCompletion(g: seq<Slice>, picked: seq<Process>, done: seq<Process>, p: Process, start: int,
                              g': seq<Slice>, picked': seq<Process>, done': seq<Process>)
    requires RanToCompletion(g, picked, done)
    requires g' == g + [Slice(p.pid, start, start + p.burstTime)] && picked' == picked + [p]
    requires done' == done + [RunToCompletion(p, start)]
    ensures RanToCompletion(g', picked', done')
  {
    forall j | 0 <= j < |g'|
      ensures g'[j].pid == picked'[j].pid
      ensures g'[j].end == g'[j].start + picked'[j].burstTime
      ensures done'[j] == RunToCompletion(picked'[j], g'[j].start)
    {
      if j < |g| {
        assert g'[j] == g[j] && picked'[j] == picked[j] && done'[j] == done[j];
      }
    }
  }

  /** Admitting and then dispatching `pool[k]` keeps every process
      accounted for exactly once: dispatched, ready or unadmitted. */
  lemma DispatchKeepsMultiset(sorted: seq<Process>, picked: seq<Process>, ready: seq<Process>, unadmitted: seq<Process>,
                              pool: seq<Process>, left: seq<Process>, k: nat, picked': seq<Process>, rest: seq<Process>)
    requires k < |pool|
    requires multiset(picked) + multiset(ready) + multiset(unadmitted) == multiset(sorted)
    requires multiset(pool) + multiset(left) == multiset(ready) + multiset(unadmitted)
    requires picked' == picked + [pool[k]] && rest == pool[..k] + pool[k + 1..]
    ensures multiset(picked') + multiset(rest) + multiset(left) == multiset(sorted)
  {
    assert pool == pool[..k] + [pool[k]] + pool[k + 1..];
    assert multiset(pool) == multiset(pool[..k]) + multiset{pool[k]} + multiset(pool[k + 1..]);
    calc {
      multiset(picked') + multiset(rest) + multiset(left);
      multiset(picked) + multiset{pool[k]} + (multiset(pool[..k]) + multiset(pool[k + 1..])) + multiset(left);
      multiset(picked) + (multiset(pool) + multiset(left));
      multiset(picked) + (multiset(ready) + multiset(unadmitted));
    }
  }

  /** No process still pending (ready or unadmitted) that had arrived
      when slice `j` started beats the process of slice `j`. */
  ghost predicate PendingRule(sorted: seq<Process>, i: nat, ready: seq<Process>, g: seq<Slice>, picked: seq<Process>)
    requires |g| == |picked|
  {
    forall j, q | 0 <= j < |g| && Pending(q, ready, sorted, i) && q.arrivalTime <= g[j].start ::
      !DispatchBefore(q, picked[j])
  }

  /** No process still pending had arrived before an idle gap ended. */
  ghost predicate PendingIdle(sorted: seq<Process>, i: nat, ready: seq<Process>, g: seq<Slice>)
  {
    forall j, q | 0 <= j < |g| && IdleBefore(g, j) && Pending(q, ready, sorted, i) ::
      q.arrivalTime >= g[j].start
  }

  /** The loop invariant of the priority policy: every input process is
      dispatched, ready or unadmitted; each dispatched one ran to completion
      by the dispatch rule; and, for non-negative bursts, the timeline. */
  ghost predicate PriorityInv(sorted: seq<Process>, nonneg: bool, t: int, i: nat, ready: seq<Process>,
                        gantt: seq<Slice>, picked: seq<Process>, done: seq<Process>)
  {
    && i <= |sorted|
    && multiset(picked) + multiset(ready) + multiset(sorted[i..]) == multiset(sorted)
    && RanToCompletion(gantt, picked, done)
    && t == LastEnd(gantt)
    && DispatchRule(gantt, picked)
    && PendingRule(sorted, i, ready, gantt, picked)
    && (nonneg ==> && NonNegativeBursts(ready) && Arrived(ready, t)
                   && Timeline(gantt, picked) && PendingIdle(sorted, i, ready, gantt))
  }

  /** One pass of the priority loop keeps the dispatch rule. */
  lemma PriorityStepKeepsRule(sorted: seq<Process>, t: int, i: nat, ready: seq<Process>,
                              gantt: seq<Slice>, picked: seq<Process>, r: (Admission, int), k: nat,
                              t': int, i': nat, ready': seq<Process>, gantt': seq<Slice>, picked': seq<Process>)
    requires SortedBy(ByArrival, sorted) && i <= |sorted| && (i < |sorted| || |ready| > 0)
    requires DispatchRule(gantt, picked) && PendingRule(sorted, i, ready, gantt, picked)
    requires r == AdmitOrJump(sorted, i, t, ready) && k == FirstMin(r.0.pool)
    requires i' == r.0.next && ready' == r.0.pool[..k] + r.0.pool[k + 1..]
    requires gantt' == gantt + [Slice(r.0.pool[k].pid, r.1, t')] && picked' == picked + [r.0.pool[k]]
    ensures DispatchRule(gantt', picked') && PendingRule(sorted, i', ready', gantt', picked')
  {
    assert LaterThan(sorted, i', r.1);
    forall j, q | 0 <= j < |gantt| && Pending(q, r.0.pool, sorted, i') && q.arrivalTime <= gantt[j].start
      ensures !DispatchBefore(q, picked[j])
    {
      assert Pending(q, ready, sorted, i);
    }
    DispatchKeepsRule(sorted, i', r.0.pool, k, gantt, picked, r.1, t', gantt', picked', ready');
  }

  /** For non-negative bursts, one pass of the priority loop keeps the
      timeline. */
  lemma PriorityStepKeepsTimeline(sorted: seq<Process>, t: int, i: nat, ready: seq<Process>,
                                  gantt: seq<Slice>, picked: seq<Process>, r: (Admission, int), k: nat,
                                  t': int, i': nat, ready': seq<Process>, gantt': seq<Slice>, picked': seq<Process>)
    requires SortedBy(ByArrival, sorted) && i <= |sorted| && (i < |sorted| || |ready| > 0)
    requires NonNegativeBursts(sorted) && NonNegativeBursts(ready) && Arrived(ready, t)
    requires t == LastEnd(gantt) && Timeline(gantt, picked) && PendingIdle(sorted, i, ready, gantt)
    requires r == AdmitOrJump(sorted, i, t, ready) && k == FirstMin(r.0.pool)
    requires t' == r.1 + r.0.pool[k].burstTime
    requires i' == r.0.next && ready' == r.0.pool[..k] + r.0.pool[k + 1..]
    requires gantt' == gantt + [Slice(r.0.pool[k].pid, r.1, t')] && picked' == picked + [r.0.pool[k]]
    ensures NonNegativeBursts(ready') && Arrived(ready', t')
    ensures Timeline(gantt', picked') && PendingIdle(sorted, i', ready', gantt')
  {
    assert LaterThan(sorted, i', r.1);
    NonNegativeAdmitted(sorted, i, ready, i', r.0.pool);
    SplitAt(r.0.pool, k);
    forall j, q | 0 <= j < |gantt| && IdleBefore(gantt, j) && Pending(q, r.0.pool, sorted, i')
      ensures q.arrivalTime >= gantt[j].start
    {
      assert Pending(q, ready, sorted, i);
    }
    if r.1 == t {
      forall q | q in r.0.pool
        ensures q.arrivalTime <= t
      {
        if q in ready {
          assert q.arrivalTime <= t;
        }
      }
    }
    DispatchKeepsTimeline(sorted, i', r.0.pool, k, gantt, picked, t, r.1, t', gantt', picked', ready');
  }

  /** One pass of the priority loop keeps its invariant. */
  lemma PriorityStepKeeps(sorted: seq<Process>, nonneg: bool,
                          t: int, i: nat, ready: seq<Process>, gantt: seq<Slice>, picked: seq<Process>, done: seq<Process>,
                          r: (Admission, int), k: nat,
                          t': int, i': nat, ready': seq<Process>, gantt': seq<Slice>, picked': seq<Process>, done': seq<Process>)
    requires SortedBy(ByArrival, sorted) && nonneg == NonNegativeBursts(sorted)
    requires PriorityInv(sorted, nonneg, t, i, ready, gantt, picked, done)
    requires i < |sorted| || |ready| > 0
    requires r == AdmitOrJump(sorted, i, t, ready) && k == FirstMin(r.0.pool)
    requires t' == r.1 + r.0.pool[k].burstTime
    requires i' == r.0.next && ready' == r.0.pool[..k] + r.0.pool[k + 1..]
    requires gantt' == gantt + [Slice(r.0.pool[k].pid, r.1, t')] && picked' == picked + [r.0.pool[k]]
    requires done' == done + [RunToCompletion(r.0.pool[k], r.1)]
    ensures PriorityInv(sorted, nonneg, t', i', ready', gantt', picked', done')
  {
    DispatchKeepsMultiset(sorted, picked, ready, sorted[i..], r.0.pool, sorted[i'..], k, picked', ready');
    AppendRanToCompletion(gantt, picked, done, r.0.pool[k], r.1, gantt', picked', done');
    PriorityStepKeepsRule(sorted, t, i, ready, gantt, picked, r, k, t', i', ready', gantt', picked');
    if nonneg {
      PriorityStepKeepsTimeline(sorted, t, i, ready, gantt, picked, r, k, t', i', ready', gantt', picked');
    }
  }

  /** The priority loop starts with nothing dispatched at time 0. */
  lemma PriorityInvInit(sorted: seq<Process>, nonneg: bool, t: int, i: nat, ready: seq<Process>,
                        gantt: seq<Slice>, picked: seq<Process>, done: seq<Process>)
    requires t == 0 && i == 0 && ready == [] && gantt == [] && picked == [] && done == []
    ensures PriorityInv(sorted, nonneg, t, i, ready, gantt, picked, done)
  {
    assert sorted[i..] == sorted;
  }

  /** When the priority loop stops, every process has been dispatched once,
      and the statistics follow from the completed runs. */
  lemma PriorityInvExit(sorted: seq<Process>, nonneg: bool, t: int, i: nat, ready: seq<Process>,
                        gantt: seq<Slice>, picked: seq<Process>, done: seq<Process>, out: ScheduleResult)
    requires nonneg == NonNegativeBursts(sorted)
    requires PriorityInv(sorted, nonneg, t, i, ready, gantt, picked, done)
    requires i == |sorted| && ready == []
    requires out == ComputeStats(done, gantt, t)
    ensures |out.gantt| == |picked| == |done| == |sorted|
    ensures multiset(picked) == multiset(sorted)
    ensures forall j | 0 <= j < |out.gantt| ::
              && out.gantt[j].pid == picked[j].pid
              && out.gantt[j].end == out.gantt[j].start + picked[j].burstTime
              && done[j] == RunToCompletion(picked[j], out.gantt[j].start)
    ensures DispatchRule(out.gantt, picked)
    ensures NonNegativeBursts(sorted) ==> Timeline(out.gantt, picked)
    ensures out.finishTime == LastEnd(out.gantt)
    ensures out.waiting.Keys == Pids(done) && out.turnaround.Keys == Pids(done)
    ensures forall j | 0 <= j < |done| && LastOf(done, j) ::
              && out.turnaround[done[j].pid] == out.gantt[j].end - picked[j].arrivalTime
              && out.waiting[done[j].pid] == out.gantt[j].start - picked[j].arrivalTime
    ensures (out.avgWaiting, out.avgTurnaround) == Averages(done)
  {
    assert sorted[i..] == [];
    assert multiset(picked) == multiset(sorted);
    assert |picked| == |multiset(picked)|;
    CompletionStats(gantt, picked, done, t, out);
  }

  /** Under run-to-completion the recorded turnaround of a slice's process
      is its end minus the arrival, and its waiting time the start minus
      the arrival. */
  lemma CompletionStats(gantt: seq<Slice>, picked: seq<Process>, done: seq<Process>, t: int, out: ScheduleResult)
    requires RanToCompletion(gantt, picked, done) && out == ComputeStats(done, gantt, t)
    ensures forall j | 0 <= j < |done| && LastOf(done, j) ::
              && out.turnaround[done[j].pid] == out.gantt[j].end - picked[j].arrivalTime
              && out.waiting[done[j].pid] == out.gantt[j].start - picked[j].arrivalTime
  {
  }

  /** Non-preemptive priority over an input already sorted by arrival and
      then priority (in any order `std::sort` may leave among ties).
      `picked` lists the dispatched processes and `done` the completed ones,
      both in slice order. */
  method PriorityNonpreemptive(sorted: seq<Process>) returns (out: ScheduleResult, picked: seq<Process>, done: seq<Process>)
    requires SortedBy(ByArrivalThenPriority, sorted)
    ensures |out.gantt| == |picked| == |done| == |sorted|
    ensures multiset(picked) == multiset(sorted)
    ensures forall j | 0 <= j < |out.gantt| ::
              && out.gantt[j].pid == picked[j].pid
              && out.gantt[j].end == out.gantt[j].start + picked[j].burstTime
              && done[j] == RunToCompletion(picked[j], out.gantt[j].start)
    ensures DispatchRule(out.gantt, picked)
    ensures NonNegativeBursts(sorted) ==> Timeline(out.gantt, picked)
    ensures out.finishTime == LastEnd(out.gantt)
    ensures out.waiting.Keys == Pids(done) && out.turnaround.Keys == Pids(done)
    ensures forall j | 0 <= j < |done| && LastOf(done, j) ::
              && out.turnaround[done[j].pid] == out.gantt[j].end - picked[j].arrivalTime
              && out.waiting[done[j].pid] == out.gantt[j].start - picked[j].arrivalTime
    ensures (out.avgWaiting, out.avgTurnaround) == Averages(done)
  {
    var t, gantt;
    t, gantt, picked, done := PriorityLoop(sorted);
    out := ComputeStats(done, gantt, t);
    PriorityInvExit(sorted, NonNegativeBursts(sorted), t, |sorted|, [], gantt, picked, done, out);
  }

  /** The dispatch loop of the priority policy, run until every process
      has been admitted and dispatched. */
  method PriorityLoop(sorted: seq<Process>) returns (t: int, gantt: seq<Slice>, picked: seq<Process>, done: seq<Process>)
    requires SortedBy(ByArrivalThenPriority, sorted)
    ensures PriorityInv(sorted, NonNegativeBursts(sorted), t, |sorted|, [], gantt, picked, done)
  {
    PriorityKeySortsByArrival(sorted);
    ghost var nonneg := NonNegativeBursts(sorted);
    t := 0;
    var i := 0;
    var ready: seq<Process> := [];
    gantt := [];
    picked, done := [], [];
    PriorityInvInit(sorted, nonneg, t, i, ready, gantt, picked, done);
    while i < |sorted| || |ready| > 0
      invariant PriorityInv(sorted, nonneg, t, i, ready, gantt, picked, done)
      decreases 2 * (|sorted| - i) + |ready|
    {
      ghost var t0, i0, ready0, gantt0, picked0, done0 := t, i, ready, gantt, picked, done;
      var r := AdmitOrJump(sorted, i, t, ready);
      var k := FirstMin(r.0.pool);
      var p := r.0.pool[k];
      var start := r.1;
      i, ready := r.0.next, r.0.pool[..k] + r.0.pool[k + 1..];
      t := start + p.burstTime;
      gantt := gantt + [Slice(p.pid, start, t)];
      picked := picked + [p];
      done := done + [RunToCompletion(p, start)];
      PriorityStepKeeps(sorted, nonneg, t0, i0, ready0, gantt0, picked0, done0, r, k,
                        t, i, ready, gantt, picked, done);
    }
  }

  // ---------------------------------------------------------------------
  // Round-robin
  // ---------------------------------------------------------------------

  /** Slice `j` ran `picked[j]`, the queue head, for at most one quantum. */
  predicate RoundRobinSlices(g: seq<Slice>, picked: seq<Process>, quantum: int)
  {
    && |g| == |picked|
    && forall j | 0 <= j < |g| ::
         && g[j].pid == picked[j].pid
         && g[j].end == g[j].start + Min(quantum, picked[j].remainingTime)
  }

  /** Completed processes have no time left. */
  predicate Finished(done: seq<Process>)
  {
    forall j | 0 <= j < |done| :: done[j].remainingTime <= 0
  }

  /** Every pid of the input is completed, queued or unadmitted as often as
      it occurs in the input. */
  ghost predicate PidTotals(sorted: seq<Process>, i: nat, queue: seq<Process>, done: seq<Process>)
    requires i <= |sorted|
  {
    forall pid :: CountPid(done, pid) + CountPid(queue, pid) + CountPid(sorted[i..], pid) == CountPid(sorted, pid)
  }

  /** The time each pid has run plus the time it still needs is its input
      remaining time. */
  ghost predicate SliceTotals(sorted: seq<Process>, i: nat, queue: seq<Process>, g: seq<Slice>)
    requires i <= |sorted|
  {
    forall pid :: SliceTime(g, pid) + RemSum(queue, pid) + RemSum(sorted[i..], pid) == RemSum(sorted, pid)
  }

  /** The completed, queued and unadmitted processes are, as submitted,
      the input processes. */
  ghost predicate SubmittedTotals(sorted: seq<Process>, i: nat, queue: seq<Process>, done: seq<Process>)
    requires i <= |sorted|
  {
    Bag(done) + Bag(queue) + Bag(sorted[i..]) == Bag(sorted)
  }

  /** The submissions of `s`, in any order. */
  ghost function Bag(s: seq<Process>): multiset<Process>
  {
    multiset(Submissions(s))
  }

  /** The bag of a concatenation. */
  lemma BagConcat(a: seq<Process>, b: seq<Process>)
    ensures Bag(a + b) == Bag(a) + Bag(b)
  {
    SubmissionsConcat(a, b);
  }

  /** What the round-robin records keep of the input: the processes are
      the input's, every slice ran an input process, completions follow the
      finishing slices, and with unique pids each head's remaining time is
      what its pid had not yet run. */
  ghost predicate RoundRobinRecords(sorted: seq<Process>, quantum: int, i: nat, queue: seq<Process>,
                                    gantt: seq<Slice>, picked: seq<Process>, done: seq<Process>)
    requires i <= |sorted| && |gantt| == |picked|
  {
    && SubmittedTotals(sorted, i, queue, done)
    && (forall k | 0 <= k < |picked| :: Submitted(picked[k]) in Submissions(sorted))
    && CompletedAt(gantt, picked, done, quantum)
    && (UniquePids(sorted) ==> HeadsRemaining(sorted, gantt, picked))
  }

  /** The loop invariant of round-robin. */
  ghost predicate RoundRobinInv(sorted: seq<Process>, quantum: int, nonneg: bool, t: int, i: nat, queue: seq<Process>,
                                gantt: seq<Slice>, picked: seq<Process>, done: seq<Process>)
  {
    && i <= |sorted|
    && |done| + |queue| + (|sorted| - i) == |sorted|
    && PidTotals(sorted, i, queue, done)
    && RoundRobinSlices(gantt, picked, quantum)
    && Finished(done)
    && t == LastEnd(gantt)
    && SliceTotals(sorted, i, queue, gantt)
    && RoundRobinRecords(sorted, quantum, i, queue, gantt, picked, done)
    && (nonneg ==> && NonNegativeRemaining(queue) && Arrived(queue, t)
                   && Timeline(gantt, picked) && PendingIdle(sorted, i, queue, gantt))
  }

  /** A slice that finishes its process retires it into `done`; otherwise
      the process went back to the queue. */
  function Retire(done: seq<Process>, o: SliceOutcome): seq<Process>
  {
    if o.ran.remainingTime > 0 then done else done + [o.ran.(finishTime := o.clock)]
  }

  /** One round-robin pass keeps every pid accounted for: the head of the
      admitted queue either goes to the back of the queue or retires. */
  lemma RoundRobinStepCounts(sorted: seq<Process>, i: nat, queue: seq<Process>, done: seq<Process>,
                             n: nat, pool: seq<Process>, back: seq<Process>, retired: seq<Process>,
                             i': nat, queue': seq<Process>, done': seq<Process>)
    requires i <= n <= i' <= |sorted| && |pool| > 0 && pool == queue + sorted[i..n]
    requires |back| + |retired| == 1
    requires forall x | x in back + retired :: x.pid == pool[0].pid
    requires queue' == pool[1..] + sorted[n..i'] + back && done' == done + retired
    requires |done| + |queue| + (|sorted| - i) == |sorted| && PidTotals(sorted, i, queue, done)
    ensures |done'| + |queue'| + (|sorted| - i') == |sorted| && PidTotals(sorted, i', queue', done')
  {
    assert sorted[i..] == sorted[i..n] + sorted[n..];
    assert sorted[n..] == sorted[n..i'] + sorted[i'..];
    assert pool == [pool[0]] + pool[1..];
    var x := (back + retired)[0];
    assert x in back + retired;
    forall pid
      ensures CountPid(done', pid) + CountPid(queue', pid) + CountPid(sorted[i'..], pid) == CountPid(sorted, pid)
    {
      RemSumConcat(queue, sorted[i..n], pid);
      RemSumConcat([pool[0]], pool[1..], pid);
      RemSumConcat(sorted[i..n], sorted[n..], pid);
      RemSumConcat(sorted[n..i'], sorted[i'..], pid);
      RemSumConcat(pool[1..] + sorted[n..i'], back, pid);
      RemSumConcat(pool[1..], sorted[n..i'], pid);
      RemSumConcat(done, retired, pid);
      assert CountPid(back, pid) + CountPid(retired, pid) == CountPid([pool[0]], pid) by {
        if back == [] {
          assert retired == [x];
        } else {
          assert back == [x] && retired == [];
        }
      }
      assert CountPid(done, pid) + CountPid(queue, pid) + CountPid(sorted[i..], pid) == CountPid(sorted, pid);
    }
  }

  /** One round-robin pass moves exactly the slice length from the head's
      remaining time to its run time. */
  lemma RoundRobinStepTotals(sorted: seq<Process>, i: nat, queue: seq<Process>, gantt: seq<Slice>,
                             n: nat, pool: seq<Process>, s: Slice, back: seq<Process>,
                             i': nat, queue': seq<Process>, gantt': seq<Slice>)
    requires i <= n <= i' <= |sorted| && |pool| > 0 && pool == queue + sorted[i..n]
    requires s.pid == pool[0].pid
    requires back == [] ==> s.end - s.start == pool[0].remainingTime
    requires back != [] ==> back == [back[0]] && back[0].pid == pool[0].pid
                            && back[0].remainingTime == pool[0].remainingTime - (s.end - s.start)
    requires queue' == pool[1..] + sorted[n..i'] + back && gantt' == gantt + [s]
    requires SliceTotals(sorted, i, queue, gantt)
    ensures SliceTotals(sorted, i', queue', gantt')
  {
    assert sorted[i..] == sorted[i..n] + sorted[n..];
    assert sorted[n..] == sorted[n..i'] + sorted[i'..];
    assert pool == [pool[0]] + pool[1..];
    forall pid
      ensures SliceTime(gantt', pid) + RemSum(queue', pid) + RemSum(sorted[i'..], pid) == RemSum(sorted, pid)
    {
      SliceTimeAppend(gantt, s, pid);
      RemSumConcat(queue, sorted[i..n], pid);
      RemSumConcat([pool[0]], pool[1..], pid);
      RemSumConcat(sorted[i..n], sorted[n..], pid);
      RemSumConcat(sorted[n..i'], sorted[i'..], pid);
      RemSumConcat(pool[1..] + sorted[n..i'], back, pid);
      RemSumConcat(pool[1..], sorted[n..i'], pid);
      assert SliceTime(gantt, pid) + RemSum(queue, pid) + RemSum(sorted[i..], pid) == RemSum(sorted, pid);
    }
  }

  /** One round-robin pass keeps the timeline when remaining times are
      non-negative. */
  lemma RoundRobinStepTimeline(sorted: seq<Process>, n: nat, pool: seq<Process>, t: int,
                               gantt: seq<Slice>, picked: seq<Process>, start: int, end: int, back: seq<Process>,
                               i': nat, queue': seq<Process>, gantt': seq<Slice>, picked': seq<Process>)
    requires n <= i' <= |sorted| && |pool| > 0 && LaterThan(sorted, n, start)
    requires t == LastEnd(gantt) && start <= end && Timeline(gantt, picked)
    requires PendingIdle(sorted, n, pool, gantt)
    requires (start == t && Arrived(pool, t)) || (t < start && forall q | q in pool :: q.arrivalTime == start)
    requires NonNegativeRemaining(sorted) && NonNegativeRemaining(pool)
    requires forall k | n <= k < i' :: sorted[k].arrivalTime <= end
    requires forall x | x in back :: x.arrivalTime == pool[0].arrivalTime && x.remainingTime >= 0
    requires queue' == pool[1..] + sorted[n..i'] + back
    requires gantt' == gantt + [Slice(pool[0].pid, start, end)] && picked' == picked + [pool[0]]
    ensures NonNegativeRemaining(queue') && Arrived(queue', end)
    ensures Timeline(gantt', picked') && PendingIdle(sorted, i', queue', gantt')
  {
    assert pool[..0] + pool[1..] == pool[1..];
    DispatchKeepsTimeline(sorted, n, pool, 0, gantt, picked, t, start, end, gantt', picked', pool[1..]);
    assert sorted[n..] == sorted[n..i'] + sorted[i'..];
    forall q | q in queue'
      ensures q.remainingTime >= 0 && q.arrivalTime <= end
    {
      if q in pool[1..] {
        assert q in pool;
      } else if q in sorted[n..i'] {
        var x :| 0 <= x < |sorted[n..i']| && sorted[n..i'][x] == q;
        assert sorted[n + x] == q;
        assert q in sorted;
      } else {
        assert q in back;
        assert pool[0] in pool;
      }
    }
    assert picked'[|gantt|] == pool[0];
    forall j, q | 0 <= j < |gantt'| && IdleBefore(gantt', j) && Pending(q, queue', sorted, i')
      ensures q.arrivalTime >= gantt'[j].start
    {
      if q in back {
        assert picked'[|gantt|].arrivalTime >= gantt'[j].start;
      } else {
        assert Pending(q, pool[1..], sorted, n);
      }
    }
  }

  /** What admission (or the jump) hands the round-robin pass: a non-empty
      queue of non-negative processes, all pending before, and either no
      clock move with everything arrived or a jump to the common arrival. */
  lemma RoundRobinAdmitted(sorted: seq<Process>, i: nat, t: int, queue: seq<Process>, gantt: seq<Slice>,
                           r: (Admission, int))
    requires SortedBy(ByArrival, sorted) && i <= |sorted| && (i < |sorted| || |queue| > 0)
    requires NonNegativeRemaining(sorted) && NonNegativeRemaining(queue) && Arrived(queue, t)
    requires PendingIdle(sorted, i, queue, gantt)
    requires r == AdmitOrJump(sorted, i, t, queue)
    ensures NonNegativeRemaining(r.0.pool) && PendingIdle(sorted, r.0.next, r.0.pool, gantt)
    ensures (r.1 == t && Arrived(r.0.pool, t)) || (t < r.1 && forall q | q in r.0.pool :: q.arrivalTime == r.1)
  {
    forall q | q in r.0.pool
      ensures q.remainingTime >= 0
      ensures r.1 == t ==> q.arrivalTime <= t
    {
      if q !in queue {
        assert q in sorted[i..r.0.next];
        assert q in sorted;
      }
    }
    forall j, q | 0 <= j < |gantt| && IdleBefore(gantt, j) && Pending(q, r.0.pool, sorted, r.0.next)
      ensures q.arrivalTime >= gantt[j].start
    {
      assert Pending(q, queue, sorted, i);
    }
  }

  /** Appending a slice of at most one quantum for the queue head, and
      retiring it only once it has no time left, keeps the chart's shape. */
  lemma AppendRoundRobinSlice(gantt: seq<Slice>, picked: seq<Process>, done: seq<Process>, quantum: int,
                              s: Slice, p: Process, retired: seq<Process>,
                              gantt': seq<Slice>, picked': seq<Process>, done': seq<Process>)
    requires RoundRobinSlices(gantt, picked, quantum) && Finished(done)
    requires s.pid == p.pid && s.end == s.start + Min(quantum, p.remainingTime)
    requires forall x | x in retired :: x.remainingTime <= 0
    requires gantt' == gantt + [s] && picked' == picked + [p] && done' == done + retired
    ensures RoundRobinSlices(gantt', picked', quantum) && Finished(done')
  {
    forall j | 0 <= j < |gantt'|
      ensures gantt'[j].pid == picked'[j].pid
      ensures gantt'[j].end == gantt'[j].start + Min(quantum, picked'[j].remainingTime)
    {
      if j < |gantt| {
        assert gantt'[j] == gantt[j] && picked'[j] == picked[j];
      }
    }
    forall j | 0 <= j < |done'|
      ensures done'[j].remainingTime <= 0
    {
      if j < |done| {
        assert done'[j] == done[j];
      } else {
        assert done'[j] in retired;
      }
    }
  }

  /** The admitted queue minus its head, then the processes admitted during
      the slice, then the head again if it has time left. */
  lemma RoundRobinQueueShape(sorted: seq<Process>, quantum: int, t: int, i: nat, queue: seq<Process>,
                             r: (Admission, int), o: SliceOutcome)
    requires SortedBy(ByArrival, sorted) && quantum > 0 && i <= |sorted| && (i < |sorted| || |queue| > 0)
    requires r == AdmitOrJump(sorted, i, t, queue) && o == RunSlice(sorted, quantum, r.0.next, r.1, r.0.pool)
    ensures o.queue == r.0.pool[1..] + sorted[r.0.next..o.next] + (if o.ran.remainingTime > 0 then [o.ran] else [])
    ensures r.0.pool == queue + sorted[i..r.0.next] && r.0.next <= o.next <= |sorted|
  {
  }

  /** What one round-robin pass does, with the admitted queue `pool`
      (everything up to index `n` admitted) and the slice outcome `o`. */
  ghost predicate PassShape(sorted: seq<Process>, quantum: int, i: nat, queue: seq<Process>,
                            pool: seq<Process>, n: nat, o: SliceOutcome)
  {
    && i <= n <= o.next <= |sorted| && |pool| > 0 && pool == queue + sorted[i..n]
    && o.slice.pid == pool[0].pid && o.slice.end == o.clock
    && o.slice.end == o.slice.start + Min(quantum, pool[0].remainingTime)
    && o.ran.pid == pool[0].pid && Submitted(o.ran) == Submitted(pool[0])
    && o.ran.remainingTime == pool[0].remainingTime - Min(quantum, pool[0].remainingTime)
    && (o.ran.remainingTime > 0 <==> pool[0].remainingTime > quantum)
    && o.queue == pool[1..] + sorted[n..o.next] + (if o.ran.remainingTime > 0 then [o.ran] else [])
  }

  /** Admission followed by one slice has the shape of a pass. */
  lemma RoundRobinPassShape(sorted: seq<Process>, quantum: int, t: int, i: nat, queue: seq<Process>,
                            r: (Admission, int), o: SliceOutcome)
    requires SortedBy(ByArrival, sorted) && quantum > 0 && i <= |sorted| && (i < |sorted| || |queue| > 0)
    requires r == AdmitOrJump(sorted, i, t, queue) && o == RunSlice(sorted, quantum, r.0.next, r.1, r.0.pool)
    ensures PassShape(sorted, quantum, i, queue, r.0.pool, r.0.next, o)
  {
    RoundRobinQueueShape(sorted, quantum, t, i, queue, r, o);
  }

  /** One round-robin pass keeps the counts, the slice shapes and the clock. */
  lemma RoundRobinStepBasic(sorted: seq<Process>, quantum: int,
                            i: nat, queue: seq<Process>, gantt: seq<Slice>, picked: seq<Process>, done: seq<Process>,
                            pool: seq<Process>, n: nat, o: SliceOutcome,
                            i': nat, queue': seq<Process>, gantt': seq<Slice>, picked': seq<Process>, done': seq<Process>)
    requires quantum > 0 && PassShape(sorted, quantum, i, queue, pool, n, o)
    requires |done| + |queue| + (|sorted| - i) == |sorted| && PidTotals(sorted, i, queue, done)
    requires RoundRobinSlices(gantt, picked, quantum) && Finished(done)
    requires i' == o.next && queue' == o.queue
    requires gantt' == gantt + [o.slice] && picked' == picked + [pool[0]] && done' == Retire(done, o)
    ensures |done'| + |queue'| + (|sorted| - i') == |sorted| && PidTotals(sorted, i', queue', done')
    ensures RoundRobinSlices(gantt', picked', quantum) && Finished(done') && o.clock == LastEnd(gantt')
  {
    var back: seq<Process> := if o.ran.remainingTime > 0 then [o.ran] else [];
    var retired: seq<Process> := if o.ran.remainingTime > 0 then [] else [o.ran.(finishTime := o.clock)];
    RoundRobinStepCounts(sorted, i, queue, done, n, pool, back, retired, i', queue', done');
    AppendRoundRobinSlice(gantt, picked, done, quantum, o.slice, pool[0], retired, gantt', picked', done');
  }

  /** For non-negative remaining times, one round-robin pass keeps the
      timeline. */
  lemma RoundRobinStepNonNegative(sorted: seq<Process>, quantum: int,
                                  t: int, i: nat, queue: seq<Process>, gantt: seq<Slice>, picked: seq<Process>,
                                  r: (Admission, int), o: SliceOutcome,
                                  t': int, i': nat, queue': seq<Process>, gantt': seq<Slice>, picked': seq<Process>)
    requires SortedBy(ByArrival, sorted) && quantum > 0 && i <= |sorted| && (i < |sorted| || |queue| > 0)
    requires NonNegativeRemaining(sorted) && NonNegativeRemaining(queue) && Arrived(queue, t)
    requires t == LastEnd(gantt) && Timeline(gantt, picked) && PendingIdle(sorted, i, queue, gantt)
    requires r == AdmitOrJump(sorted, i, t, queue) && o == RunSlice(sorted, quantum, r.0.next, r.1, r.0.pool)
    requires t' == o.clock && i' == o.next && queue' == o.queue
    requires gantt' == gantt + [o.slice] && picked' == picked + [r.0.pool[0]]
    ensures NonNegativeRemaining(queue') && Arrived(queue', t')
    ensures Timeline(gantt', picked') && PendingIdle(sorted, i', queue', gantt')
  {
    RoundRobinQueueShape(sorted, quantum, t, i, queue, r, o);
    RoundRobinAdmitted(sorted, i, t, queue, gantt, r);
    var pool, n := r.0.pool, r.0.next;
    var back: seq<Process> := if o.ran.remainingTime > 0 then [o.ran] else [];
    assert pool[0] in pool;
    RoundRobinStepTimeline(sorted, n, pool, t, gantt, picked, r.1, t', back, i', queue', gantt', picked');
  }

  /** The unadmitted input, cut into the part admitted before the slice,
      the part admitted after it, and the rest. */
  lemma BagSplit(sorted: seq<Process>, i: nat, n: nat, i': nat)
    requires i <= n <= i' <= |sorted|
    ensures Bag(sorted[i..]) == Bag(sorted[i..n]) + Bag(sorted[n..i']) + Bag(sorted[i'..])
  {
    assert sorted[i..] == sorted[i..n] + sorted[n..i'] + sorted[i'..];
    BagConcat(sorted[i..n] + sorted[n..i'], sorted[i'..]);
    BagConcat(sorted[i..n], sorted[n..i']);
  }

  /** The admitted queue is its head and the rest. */
  lemma BagHead(queue: seq<Process>, admitted: seq<Process>, pool: seq<Process>)
    requires |pool| > 0 && pool == queue + admitted
    ensures multiset{Submitted(pool[0])} + Bag(pool[1..]) == Bag(queue) + Bag(admitted)
  {
    assert pool == [pool[0]] + pool[1..];
    BagConcat(queue, admitted);
    BagConcat([pool[0]], pool[1..]);
    assert Bag([pool[0]]) == multiset{Submitted(pool[0])};
  }

  /** The head goes to exactly one of the back of the queue and the
      completed records. */
  lemma BagMoved(back: seq<Process>, retired: seq<Process>, p: Process)
    requires |back| + |retired| == 1
    requires forall x | x in back + retired :: Submitted(x) == Submitted(p)
    ensures Bag(back) + Bag(retired) == multiset{Submitted(p)}
  {
    var x := (back + retired)[0];
    assert x in back + retired;
    if back == [] {
      assert retired == [x];
    } else {
      assert back == [x] && retired == [];
    }
  }

  /** The bookkeeping of one pass, on bags: the head leaves the admitted
      queue and comes back, to the queue or to the completed records. */
  lemma BagShuffle(done: multiset<Process>, retired: multiset<Process>, rest: multiset<Process>,
                   later: multiset<Process>, back: multiset<Process>, after: multiset<Process>,
                   head: multiset<Process>, queue: multiset<Process>, admitted: multiset<Process>,
                   unadmitted: multiset<Process>, total: multiset<Process>)
    requires back + retired == head && head + rest == queue + admitted
    requires unadmitted == admitted + later + after && done + queue + unadmitted == total
    ensures (done + retired) + (rest + later + back) + after == total
  {
    forall x
      ensures ((done + retired) + (rest + later + back) + after)[x] == total[x]
    {
      assert (back + retired)[x] == head[x] && (head + rest)[x] == (queue + admitted)[x];
      assert unadmitted[x] == (admitted + later + after)[x] && (done + queue + unadmitted)[x] == total[x];
    }
  }

  /** The admitted head is an input process. */
  lemma HeadSubmitted(sorted: seq<Process>, i: nat, queue: seq<Process>, done: seq<Process>, n: nat, pool: seq<Process>)
    requires i <= n <= |sorted| && |pool| > 0 && pool == queue + sorted[i..n]
    requires SubmittedTotals(sorted, i, queue, done)
    ensures Submitted(pool[0]) in Submissions(sorted)
  {
    BagSplit(sorted, i, n, n);
    BagHead(queue, sorted[i..n], pool);
    assert Submitted(pool[0]) in Bag(sorted);
  }

  /** One round-robin pass moves the head's submission from the queue to
      the back of the queue or to the completed records, and the head it
      ran is an input process. */
  lemma RoundRobinStepSubmitted(sorted: seq<Process>, i: nat, queue: seq<Process>, done: seq<Process>, picked: seq<Process>,
                                n: nat, pool: seq<Process>, back: seq<Process>, retired: seq<Process>,
                                i': nat, queue': seq<Process>, done': seq<Process>, picked': seq<Process>)
    requires i <= n <= i' <= |sorted| && |pool| > 0 && pool == queue + sorted[i..n]
    requires |back| + |retired| == 1
    requires forall x | x in back + retired :: Submitted(x) == Submitted(pool[0])
    requires queue' == pool[1..] + sorted[n..i'] + back && done' == done + retired && picked' == picked + [pool[0]]
    requires SubmittedTotals(sorted, i, queue, done)
    requires forall k | 0 <= k < |picked| :: Submitted(picked[k]) in Submissions(sorted)
    ensures SubmittedTotals(sorted, i', queue', done')
    ensures forall k | 0 <= k < |picked'| :: Submitted(picked'[k]) in Submissions(sorted)
  {
    BagSplit(sorted, i, n, i');
    BagHead(queue, sorted[i..n], pool);
    BagMoved(back, retired, pool[0]);
    BagConcat(pool[1..] + sorted[n..i'], back);
    BagConcat(pool[1..], sorted[n..i']);
    BagConcat(done, retired);
    BagShuffle(Bag(done), Bag(retired), Bag(pool[1..]), Bag(sorted[n..i']), Bag(back), Bag(sorted[i'..]),
               multiset{Submitted(pool[0])}, Bag(queue), Bag(sorted[i..n]), Bag(sorted[i..]), Bag(sorted));
    HeadSubmitted(sorted, i, queue, done, n, pool);
  }

  /** One round-robin pass that finishes its head appends the head, with
      the slice's end as finish time, to the completed records. */
  lemma RoundRobinStepCompleted(gantt: seq<Slice>, picked: seq<Process>, done: seq<Process>, quantum: int,
                                s: Slice, p: Process, retired: seq<Process>,
                                gantt': seq<Slice>, picked': seq<Process>, done': seq<Process>)
    requires |gantt| == |picked| && CompletedAt(gantt, picked, done, quantum)
    requires p.remainingTime <= quantum ==>
               |retired| == 1 && Submitted(retired[0]) == Submitted(p) && retired[0].finishTime == s.end
    requires p.remainingTime > quantum ==> retired == []
    requires gantt' == gantt + [s] && picked' == picked + [p] && done' == done + retired
    ensures CompletedAt(gantt', picked', done', quantum)
  {
    FinishingSlicesAppend(picked, p, quantum);
    var ks, ks' := FinishingSlices(picked, quantum), FinishingSlices(picked', quantum);
    forall j | 0 <= j < |done'|
      ensures Submitted(done'[j]) == Submitted(picked'[ks'[j]])
      ensures done'[j].finishTime == gantt'[ks'[j]].end
    {
      if j < |done| {
        assert ks'[j] == ks[j] && done'[j] == done[j];
      } else {
        assert ks'[j] == |picked| && done'[j] == retired[0];
      }
    }
  }

  /** With unique pids, the head a round-robin pass runs has its pid's
      input remaining time less what that pid ran before: it is the only
      process of its pid still in play. */
  lemma RoundRobinStepHeads(sorted: seq<Process>, i: nat, queue: seq<Process>, done: seq<Process>,
                            gantt: seq<Slice>, picked: seq<Process>, n: nat, pool: seq<Process>, s: Slice,
                            gantt': seq<Slice>, picked': seq<Process>)
    requires i <= n <= |sorted| && |pool| > 0 && pool == queue + sorted[i..n] && |gantt| == |picked|
    requires UniquePids(sorted) && PidTotals(sorted, i, queue, done) && SliceTotals(sorted, i, queue, gantt)
    requires HeadsRemaining(sorted, gantt, picked)
    requires gantt' == gantt + [s] && picked' == picked + [pool[0]]
    ensures HeadsRemaining(sorted, gantt', picked')
  {
    var pid := pool[0].pid;
    assert sorted[i..] == sorted[i..n] + sorted[n..];
    assert pool == [pool[0]] + pool[1..];
    RemSumConcat(queue, sorted[i..n], pid);
    RemSumConcat(sorted[i..n], sorted[n..], pid);
    RemSumConcat([pool[0]], pool[1..], pid);
    assert CountPid(done, pid) + CountPid(queue, pid) + CountPid(sorted[i..], pid) == CountPid(sorted, pid) <= 1;
    CountZeroRemSum(pool[1..], pid);
    CountZeroRemSum(sorted[n..], pid);
    assert SliceTime(gantt, pid) + RemSum(queue, pid) + RemSum(sorted[i..], pid) == RemSum(sorted, pid);
    assert gantt'[..|picked|] == gantt;
    forall k | 0 <= k < |picked'|
      ensures picked'[k].remainingTime == RemSum(sorted, picked'[k].pid) - SliceTime(gantt'[..k], picked'[k].pid)
    {
      if k < |picked| {
        assert gantt'[..k] == gantt[..k] && picked'[k] == picked[k];
      }
    }
  }

  /** One round-robin pass keeps the per-pid time totals and the records. */
  lemma RoundRobinStepRecords(sorted: seq<Process>, quantum: int,
                              i: nat, queue: seq<Process>, gantt: seq<Slice>, picked: seq<Process>, done: seq<Process>,
                              pool: seq<Process>, n: nat, o: SliceOutcome,
                              i': nat, queue': seq<Process>, gantt': seq<Slice>, picked': seq<Process>, done': seq<Process>)
    requires quantum > 0 && PassShape(sorted, quantum, i, queue, pool, n, o)
    requires |gantt| == |picked| && PidTotals(sorted, i, queue, done) && SliceTotals(sorted, i, queue, gantt)
    requires RoundRobinRecords(sorted, quantum, i, queue, gantt, picked, done)
    requires i' == o.next && queue' == o.queue
    requires gantt' == gantt + [o.slice] && picked' == picked + [pool[0]] && done' == Retire(done, o)
    ensures SliceTotals(sorted, i', queue', gantt')
    ensures RoundRobinRecords(sorted, quantum, i', queue', gantt', picked', done')
  {
    var back: seq<Process> := if o.ran.remainingTime > 0 then [o.ran] else [];
    var retired: seq<Process> := if o.ran.remainingTime > 0 then [] else [o.ran.(finishTime := o.clock)];
    RoundRobinStepTotals(sorted, i, queue, gantt, n, pool, o.slice, back, i', queue', gantt');
    RoundRobinStepSubmitted(sorted, i, queue, done, picked, n, pool, back, retired, i', queue', done', picked');
    RoundRobinStepCompleted(gantt, picked, done, quantum, o.slice, pool[0], retired, gantt', picked', done');
    if UniquePids(sorted) {
      RoundRobinStepHeads(sorted, i, queue, done, gantt, picked, n, pool, o.slice, gantt', picked');
    }
  }

  /** One round-robin pass keeps its invariant. */
  lemma RoundRobinStepKeeps(sorted: seq<Process>, quantum: int, nonneg: bool,
                            t: int, i: nat, queue: seq<Process>, gantt: seq<Slice>, picked: seq<Process>, done: seq<Process>,
                            r: (Admission, int), o: SliceOutcome,
                            t': int, i': nat, queue': seq<Process>, gantt': seq<Slice>, picked': seq<Process>, done': seq<Process>)
    requires SortedBy(ByArrival, sorted) && quantum > 0 && nonneg == NonNegativeRemaining(sorted)
    requires RoundRobinInv(sorted, quantum, nonneg, t, i, queue, gantt, picked, done)
    requires i < |sorted| || |queue| > 0
    requires r == AdmitOrJump(sorted, i, t, queue) && o == RunSlice(sorted, quantum, r.0.next, r.1, r.0.pool)
    requires t' == o.clock && i' == o.next && queue' == o.queue
    requires gantt' == gantt + [o.slice] && picked' == picked + [r.0.pool[0]] && done' == Retire(done, o)
    ensures RoundRobinInv(sorted, quantum, nonneg, t', i', queue', gantt', picked', done')
  {
    RoundRobinPassShape(sorted, quantum, t, i, queue, r, o);
    RoundRobinStepBasic(sorted, quantum, i, queue, gantt, picked, done, r.0.pool, r.0.next, o, i', queue', gantt', picked', done');
    RoundRobinStepRecords(sorted, quantum, i, queue, gantt, picked, done, r.0.pool, r.0.next, o, i', queue', gantt', picked', done');
    if nonneg {
      RoundRobinStepNonNegative(sorted, quantum, t, i, queue, gantt, picked, r, o, t', i', queue', gantt', picked');
    }
  }

  /** The round-robin loop starts with nothing run at time 0. */
  lemma RoundRobinInvInit(sorted: seq<Process>, quantum: int, nonneg: bool, t: int, i: nat, queue: seq<Process>,
                          gantt: seq<Slice>, picked: seq<Process>, done: seq<Process>)
    requires t == 0 && i == 0 && queue == [] && gantt == [] && picked == [] && done == []
    ensures RoundRobinInv(sorted, quantum, nonneg, t, i, queue, gantt, picked, done)
  {
    assert sorted[i..] == sorted;
  }

  /** Each slice runs the head it picked for one quantum, or for the
      head's remaining time if that is less; the clock ends where the
      chart does. */
  predicate RoundRobinChart(out: ScheduleResult, picked: seq<Process>, quantum: int)
  {
    && |out.gantt| == |picked|
    && out.finishTime == LastEnd(out.gantt)
    && forall j | 0 <= j < |out.gantt| ::
         && out.gantt[j].pid == picked[j].pid
         && out.gantt[j].end == out.gantt[j].start + Min(quantum, picked[j].remainingTime)
  }

  /** Every head is an input process, and the completed records are the
      input processes, each once, with no time left. */
  ghost predicate InputRecords(procs: seq<Process>, picked: seq<Process>, done: seq<Process>)
  {
    && |done| == |procs|
    && (forall j | 0 <= j < |picked| :: Submitted(picked[j]) in Submissions(procs))
    && Bag(done) == Bag(procs)
    && (forall pid :: CountPid(done, pid) == CountPid(procs, pid))
    && Finished(done)
  }

  /** Each pid runs for exactly its input remaining time; with unique pids
      each head has what its pid had not yet run; and with non-negative
      remaining times the chart is a timeline. */
  ghost predicate InputTimes(procs: seq<Process>, gantt: seq<Slice>, picked: seq<Process>)
    requires |gantt| == |picked|
  {
    && (forall pid :: SliceTime(gantt, pid) == RemSum(procs, pid))
    && (UniquePids(procs) ==> HeadsRemaining(procs, gantt, picked))
    && (NonNegativeRemaining(procs) ==> Timeline(gantt, picked))
  }

  /** The per-pid tables and the averages of the completed records. */
  predicate Reported(out: ScheduleResult, done: seq<Process>)
  {
    && out.waiting.Keys == Pids(done) && out.turnaround.Keys == Pids(done)
    && (forall j | 0 <= j < |done| && LastOf(done, j) ::
          && out.turnaround[done[j].pid] == done[j].finishTime - done[j].arrivalTime
          && out.waiting[done[j].pid] == out.turnaround[done[j].pid] - done[j].burstTime)
    && (out.avgWaiting, out.avgTurnaround) == Averages(done)
  }

  /** What round-robin promises for the input `procs`, with `picked` the
      queue head each slice ran (as it was before the slice) and `done` the
      completed records in completion order: the j-th completion is the
      head of the j-th finishing slice, finished at that slice's end. */
  ghost predicate RoundRobinOutcome(procs: seq<Process>, quantum: int, out: ScheduleResult,
                                    picked: seq<Process>, done: seq<Process>)
  {
    && RoundRobinChart(out, picked, quantum)
    && CompletedAt(out.gantt, picked, done, quantum)
    && InputRecords(procs, picked, done)
    && InputTimes(procs, out.gantt, picked)
    && Reported(out, done)
  }

  /** When the round-robin loop stops, every input process has completed
      and the records and chart are what round-robin promises. */
  lemma RoundRobinInvExit(sorted: seq<Process>, quantum: int, nonneg: bool, t: int, i: nat, queue: seq<Process>,
                          gantt: seq<Slice>, picked: seq<Process>, done: seq<Process>, out: ScheduleResult)
    requires nonneg == NonNegativeRemaining(sorted)
    requires RoundRobinInv(sorted, quantum, nonneg, t, i, queue, gantt, picked, done)
    requires i == |sorted| && queue == []
    requires out == ComputeStats(done, gantt, t)
    ensures RoundRobinOutcome(sorted, quantum, out, picked, done)
  {
    assert sorted[i..] == [];
    assert Bag(done) + Bag(queue) + Bag(sorted[i..]) == Bag(sorted);
    forall pid
      ensures CountPid(done, pid) == CountPid(sorted, pid)
      ensures SliceTime(gantt, pid) == RemSum(sorted, pid)
    {
      assert CountPid(done, pid) + CountPid(queue, pid) + CountPid(sorted[i..], pid) == CountPid(sorted, pid);
      assert SliceTime(gantt, pid) + RemSum(queue, pid) + RemSum(sorted[i..], pid) == RemSum(sorted, pid);
    }
  }

  /** Round-robin over an arrival-sorted input with a positive quantum.
      `picked` lists the queue head each slice ran, as it was before the
      slice, and `done` the completed processes in completion order.

      One pass of the loop here is the original's jump pass (nothing
      queued: the clock moves to the next arrival) fused with the dispatch
      pass that always follows it. */
  method RoundRobin(sorted: seq<Process>, quantum: int) returns (out: ScheduleResult, picked: seq<Process>, done: seq<Process>)
    requires SortedBy(ByArrival, sorted) && quantum > 0
    ensures RoundRobinOutcome(sorted, quantum, out, picked, done)
  {
    ghost var nonneg := NonNegativeRemaining(sorted);
    var t := 0;
    var i: nat := 0;
    var queue: seq<Process> := [];
    var gantt: seq<Slice> := [];
    picked, done := [], [];
    RoundRobinInvInit(sorted, quantum, nonneg, t, i, queue, gantt, picked, done);
    while i < |sorted| || |queue| > 0
      invariant RoundRobinInv(sorted, quantum, nonneg, t, i, queue, gantt, picked, done)
      decreases Work(queue) + Work(sorted[i..])
    {
      ghost var t0, i0, queue0, gantt0, picked0, done0 := t, i, queue, gantt, picked, done;
      var r := AdmitOrJump(sorted, i, t, queue);
      AdmitKeepsWork(sorted, i, queue, r.0.next, r.0.pool);
      var o := RunSlice(sorted, quantum, r.0.next, r.1, r.0.pool);
      gantt := gantt + [o.slice];
      picked := picked + [r.0.pool[0]];
      done := Retire(done, o);
      t, i, queue := o.clock, o.next, o.queue;
      RoundRobinStepKeeps(sorted, quantum, nonneg, t0, i0, queue0, gantt0, picked0, done0, r, o,
                          t, i, queue, gantt, picked, done);
    }
    out := ComputeStats(done, gantt, t);
    RoundRobinInvExit(sorted, quantum, nonneg, t, i, queue, gantt, picked, done, out);
  }

  /** Admission only moves processes from the input to the queue. */
  lemma AdmitKeepsWork(sorted: seq<Process>, i: nat, queue: seq<Process>, n: nat, pool: seq<Process>)
    requires i <= n <= |sorted| && pool == queue + sorted[i..n]
    ensures Work(pool) + Work(sorted[n..]) == Work(queue) + Work(sorted[i..])
  {
    assert sorted[i..] == sorted[i..n] + sorted[n..];
    WorkConcat(queue, sorted[i..n]);
    WorkConcat(sorted[i..n], sorted[n..]);
  }

  // ---------------------------------------------------------------------
  // Policy choice
  // ---------------------------------------------------------------------

  /** Per-pid counts and remaining-time sums do not depend on order. */
  lemma {:induction false} RemSumPermutation(a: seq<Process>, b: seq<Process>, pid: int)
    requires multiset(a) == multiset(b)
    ensures RemSum(a, pid) == RemSum(b, pid) && CountPid(a, pid) == CountPid(b, pid)
    decreases |a|
  {
    if a == [] {
      assert |b| == |multiset(b)| == 0;
    } else {
      assert a[0] in multiset(b);
      var k :| 0 <= k < |b| && b[k] == a[0];
      Common.MultisetRemoveOne(a, b, k);
      RemSumPermutation(a[1..], b[..k] + b[k + 1..], pid);
      RemSumPick(b, k, pid);
      RemSumPick(a, 0, pid);
      assert a[..0] + a[1..] == a[1..];
    }
  }

  /** Sums and counts split into one element and the rest. */
  lemma RemSumPick(b: seq<Process>, k: nat, pid: int)
    requires k < |b|
    ensures RemSum(b, pid) == RemSum([b[k]], pid) + RemSum(b[..k] + b[k + 1..], pid)
    ensures CountPid(b, pid) == CountPid([b[k]], pid) + CountPid(b[..k] + b[k + 1..], pid)
  {
    assert b == b[..k] + [b[k]] + b[k + 1..];
    RemSumConcat(b[..k] + [b[k]], b[k + 1..], pid);
    RemSumConcat(b[..k], [b[k]], pid);
    RemSumConcat(b[..k], b[k + 1..], pid);
  }

  /** `Scheduler::run`: at most `PriorityLimit` processes are scheduled
      non-preemptively by priority, more by round-robin with `quantum`
      (which must then be positive for the loop to end). Each policy sorts
      its own copy of the input first. */
  method Run(procs: seq<Process>, quantum: int) returns (out: ScheduleResult, picked: seq<Process>, done: seq<Process>)
    requires |procs| <= PriorityLimit || quantum > 0
    ensures |done| == |procs| && |out.gantt| == |picked|
    ensures out.finishTime == LastEnd(out.gantt)
    ensures procs == [] ==> out.gantt == [] && out.finishTime == 0
    ensures |procs| <= PriorityLimit ==>
              && |out.gantt| == |procs|
              && multiset(picked) == multiset(procs)
              && DispatchRule(out.gantt, picked)
              && (forall j | 0 <= j < |out.gantt| ::
                    && out.gantt[j].pid == picked[j].pid
                    && out.gantt[j].end == out.gantt[j].start + picked[j].burstTime
                    && done[j] == RunToCompletion(picked[j], out.gantt[j].start))
              && (NonNegativeBursts(procs) ==> Timeline(out.gantt, picked))
    ensures |procs| > PriorityLimit ==> RoundRobinOutcome(procs, quantum, out, picked, done)
    ensures out.waiting.Keys == Pids(done) && out.turnaround.Keys == Pids(done)
    ensures forall j | 0 <= j < |done| && LastOf(done, j) ::
              && out.turnaround[done[j].pid] == done[j].finishTime - done[j].arrivalTime
              && out.waiting[done[j].pid] == out.turnaround[done[j].pid] - done[j].burstTime
    ensures (out.avgWaiting, out.avgTurnaround) == Averages(done)
  {
    if |procs| <= PriorityLimit {
      out, picked, done := RunByPriority(procs);
    } else {
      out, picked, done := RunRoundRobin(procs, quantum);
    }
  }

  /** The priority branch of `Scheduler::run`: sort by arrival and then
      priority, and dispatch. */
  method RunByPriority(procs: seq<Process>) returns (out: ScheduleResult, picked: seq<Process>, done: seq<Process>)
    ensures |out.gantt| == |picked| == |done| == |procs|
    ensures out.finishTime == LastEnd(out.gantt)
    ensures multiset(picked) == multiset(procs)
    ensures DispatchRule(out.gantt, picked)
    ensures forall j | 0 <= j < |out.gantt| ::
              && out.gantt[j].pid == picked[j].pid
              && out.gantt[j].end == out.gantt[j].start + picked[j].burstTime
              && done[j] == RunToCompletion(picked[j], out.gantt[j].start)
    ensures NonNegativeBursts(procs) ==> Timeline(out.gantt, picked)
    ensures out.waiting.Keys == Pids(done) && out.turnaround.Keys == Pids(done)
    ensures forall j | 0 <= j < |done| && LastOf(done, j) ::
              && out.turnaround[done[j].pid] == done[j].finishTime - done[j].arrivalTime
              && out.waiting[done[j].pid] == out.turnaround[done[j].pid] - done[j].burstTime
    ensures (out.avgWaiting, out.avgTurnaround) == Averages(done)
  {
    var sorted := Sort(ByArrivalThenPriority, procs);
    ReorderedMembers(sorted, procs);
    out, picked, done := PriorityNonpreemptive(sorted);
    PriorityStatsOfRecords(out, picked, done);
  }

  /** A reordering has the same length and the same members. */
  lemma ReorderedMembers(a: seq<Process>, b: seq<Process>)
    requires multiset(a) == multiset(b)
    ensures |a| == |b| && forall p | p in a :: p in b
  {
    assert |a| == |multiset(b)| == |b|;
    forall p | p in a ensures p in b {
      assert p in multiset(a);
    }
  }

  /** The priority statistics, read off the completed records. */
  lemma PriorityStatsOfRecords(out: ScheduleResult, picked: seq<Process>, done: seq<Process>)
    requires |out.gantt| == |picked| == |done|
    requires forall j | 0 <= j < |out.gantt| :: done[j] == RunToCompletion(picked[j], out.gantt[j].start)
    requires forall j | 0 <= j < |out.gantt| :: out.gantt[j].end == out.gantt[j].start + picked[j].burstTime
    requires out.waiting.Keys == Pids(done) && out.turnaround.Keys == Pids(done)
    requires forall j | 0 <= j < |done| && LastOf(done, j) ::
               && out.turnaround[done[j].pid] == out.gantt[j].end - picked[j].arrivalTime
               && out.waiting[done[j].pid] == out.gantt[j].start - picked[j].arrivalTime
    ensures forall j | 0 <= j < |done| && LastOf(done, j) ::
              && out.turnaround[done[j].pid] == done[j].finishTime - done[j].arrivalTime
              && out.waiting[done[j].pid] == out.turnaround[done[j].pid] - done[j].burstTime
  {
    forall j | 0 <= j < |done| && LastOf(done, j)
      ensures out.turnaround[done[j].pid] == done[j].finishTime - done[j].arrivalTime
      ensures out.waiting[done[j].pid] == out.turnaround[done[j].pid] - done[j].burstTime
    {
      assert done[j] == RunToCompletion(picked[j], out.gantt[j].start);
    }
  }

  /** Reordering keeps the per-pid counts and remaining-time sums. */
  lemma ReorderedTotals(sorted: seq<Process>, procs: seq<Process>)
    requires multiset(sorted) == multiset(procs)
    ensures forall pid :: CountPid(sorted, pid) == CountPid(procs, pid) && RemSum(sorted, pid) == RemSum(procs, pid)
  {
    forall pid
      ensures CountPid(sorted, pid) == CountPid(procs, pid) && RemSum(sorted, pid) == RemSum(procs, pid)
    {
      RemSumPermutation(sorted, procs, pid);
    }
  }

  /** The records of a run over the sorted copy are the records of the
      input it was sorted from. */
  lemma ReorderedRecords(sorted: seq<Process>, procs: seq<Process>, picked: seq<Process>, done: seq<Process>)
    requires multiset(sorted) == multiset(procs)
    requires InputRecords(sorted, picked, done)
    ensures InputRecords(procs, picked, done)
  {
    ReorderedMembers(sorted, procs);
    ReorderedTotals(sorted, procs);
    SubmissionsPermutation(sorted, procs);
    forall j | 0 <= j < |picked|
      ensures Submitted(picked[j]) in Submissions(procs)
    {
      assert Submitted(picked[j]) in Bag(sorted);
    }
  }

  /** The time totals of a run over the sorted copy are those of the input
      it was sorted from. */
  lemma ReorderedTimes(sorted: seq<Process>, procs: seq<Process>, gantt: seq<Slice>, picked: seq<Process>)
    requires multiset(sorted) == multiset(procs) && |gantt| == |picked|
    requires InputTimes(sorted, gantt, picked)
    ensures InputTimes(procs, gantt, picked)
  {
    ReorderedMembers(sorted, procs);
    ReorderedTotals(sorted, procs);
  }

  /** Round-robin's promise carries over from the sorted copy to the
      input it was sorted from. */
  lemma RoundRobinOutcomeReordered(sorted: seq<Process>, procs: seq<Process>, quantum: int, out: ScheduleResult,
                                   picked: seq<Process>, done: seq<Process>)
    requires multiset(sorted) == multiset(procs)
    requires RoundRobinOutcome(sorted, quantum, out, picked, done)
    ensures RoundRobinOutcome(procs, quantum, out, picked, done)
  {
    ReorderedRecords(sorted, procs, picked, done);
    ReorderedTimes(sorted, procs, out.gantt, picked);
  }

  /** The round-robin branch of `Scheduler::run`: sort by arrival and run
      slices of `quantum`. */
  method RunRoundRobin(procs: seq<Process>, quantum: int) returns (out: ScheduleResult, picked: seq<Process>, done: seq<Process>)
    requires quantum > 0
    ensures RoundRobinOutcome(procs, quantum, out, picked, done)
  {
    var sorted := Sort(ByArrival, procs);
    out, picked, done := RoundRobin(sorted, quantum);
    RoundRobinOutcomeReordered(sorted, procs, quantum, out, picked, done);
  }
}

=== FILE: schedules.dfy ===
/** The pieces the CPU scheduler is built from: the Gantt chart and result
    records, the two sort orders, admission of arrived processes, the
    priority dispatch choice, one round-robin slice, and the statistics. */
module Schedules {
  import opened Processes
  import Common

  /** One contiguous run of `pid` on the CPU, from `start` to `end`. */
  datatype Slice = Slice(pid: int, start: int, end: int)

  /** Everything a schedule reports. The averages are `double`s in the
      original; here they are exact quotients of integer sums. */
  datatype ScheduleResult = ScheduleResult(
    gantt: seq<Slice>,
    waiting: map<int, int>,
    turnaround: map<int, int>,
    avgWaiting: real,
    avgTurnaround: real,
    finishTime: int)

  /** Inputs of at most this many processes are scheduled by priority. */
  const PriorityLimit: nat := 5

  /** The quantum the simulator passes to the scheduler. */
  const DefaultQuantum: int := 4

  // ---------------------------------------------------------------------
  // Sorting
  // ---------------------------------------------------------------------

  /** The two comparators the policies sort their input with. */
  datatype SortKey = ByArrival | ByArrivalThenPriority

  /** Strict "goes first" of a sort key. */
  predicate Less(key: SortKey, a: Process, b: Process)
  {
    match key
    case ByArrival => a.arrivalTime < b.arrivalTime
    case ByArrivalThenPriority =>
      if a.arrivalTime != b.arrivalTime then a.arrivalTime < b.arrivalTime
      else a.priority < b.priority
  }

  /** No element goes strictly before an element to its left. Elements the
      key cannot tell apart may stand in any order, as after `std::sort`. */
  predicate SortedBy(key: SortKey, s: seq<Process>)
  {
    forall i, j | 0 <= i < j < |s| :: !Less(key, s[j], s[i])
  }

  lemma LessTransitive(key: SortKey, a: Process, b: Process, c: Process)
    requires Less(key, a, b) && Less(key, b, c)
    ensures Less(key, a, c)
  {
  }

  /** `b` goes strictly after no element of `s`. */
  predicate LowerBound(key: SortKey, b: Process, s: seq<Process>)
  {
    forall k | 0 <= k < |s| :: !Less(key, s[k], b)
  }

  /** Insert `x` after every element that does not go strictly after it. */
  function Insert(key: SortKey, x: Process, s: seq<Process>): (r: seq<Process>)
    requires SortedBy(key, s)
    ensures multiset(r) == multiset(s) + multiset{x}
    ensures SortedBy(key, r)
    decreases |s|, 0
  {
    if s == [] then [x]
    else if !Less(key, x, s[0]) then
      assert s == [s[0]] + s[1..];
      assert LowerBound(key, s[0], s[1..]);
      InsertKeepsLowerBound(key, x, s[1..], s[0]);
      SortedCons(key, s[0], Insert(key, x, s[1..]));
      [s[0]] + Insert(key, x, s[1..])
    else
      assert LowerBound(key, x, s) by {
        forall k | 0 <= k < |s|
          ensures !Less(key, s[k], x)
        {
          if Less(key, s[k], x) {
            LessTransitive(key, s[k], x, s[0]);
          }
        }
      }
      SortedCons(key, x, s);
      [x] + s
  }

  /** A lower bound of a sorted sequence can go in front of it. */
  lemma SortedCons(key: SortKey, b: Process, r: seq<Process>)
    requires SortedBy(key, r) && LowerBound(key, b, r)
    ensures SortedBy(key, [b] + r)
  {
    var br := [b] + r;
    forall i, j | 0 <= i < j < |br|
      ensures !Less(key, br[j], br[i])
    {
      assert br[j] == r[j - 1];
      if i > 0 {
        assert br[i] == r[i - 1];
      }
    }
  }

  /** A lower bound of `s` that `x` does not go before stays a lower bound
      once `x` is inserted. */
  lemma InsertKeepsLowerBound(key: SortKey, x: Process, s: seq<Process>, b: Process)
    requires SortedBy(key, s) && LowerBound(key, b, s) && !Less(key, x, b)
    ensures LowerBound(key, b, Insert(key, x, s))
    decreases |s|, 1
  {
    var r := Insert(key, x, s);
    forall k | 0 <= k < |r|
      ensures !Less(key, r[k], b)
    {
      assert r[k] in multiset(r);
      if r[k] != x {
        assert r[k] in multiset(s);
        var j :| 0 <= j < |s| && s[j] == r[k];
      }
    }
  }

  /** Insertion sort: one of the orders `std::sort` may produce. */
  function Sort(key: SortKey, s: seq<Process>): (r: seq<Process>)
    ensures multiset(r) == multiset(s)
    ensures SortedBy(key, r)
  {
    if s == [] then []
    else
      assert s == s[..|s| - 1] + [s[|s| - 1]];
      Insert(key, s[|s| - 1], Sort(key, s[..|s| - 1]))
  }

  // ---------------------------------------------------------------------
  // Admission
  // ---------------------------------------------------------------------

  /** Where admission stopped in the sorted input, and the grown pool. */
  datatype Admission = Admission(next: nat, pool: seq<Process>)

  /** How far the inner admission `while` gets: the first index at or after
      `i` whose process has not arrived by `t`. */
  function AdmitEnd(sorted: seq<Process>, i: nat, t: int): (n: nat)
    requires i <= |sorted|
    ensures i <= n <= |sorted|
    ensures forall k | i <= k < n :: sorted[k].arrivalTime <= t
    ensures n == |sorted| || sorted[n].arrivalTime > t
    decreases |sorted| - i
  {
    if i < |sorted| && sorted[i].arrivalTime <= t then AdmitEnd(sorted, i + 1, t) else i
  }

  /** The inner `while` that moves every process arrived by `t`, in sorted
      order, from `sorted[i..]` to the back of `pool`. */
  function Admit(sorted: seq<Process>, i: nat, t: int, pool: seq<Process>): Admission
    requires i <= |sorted|
  {
    var n := AdmitEnd(sorted, i, t);
    Admission(n, pool + sorted[i..n])
  }

  /** Everything the admission at `t` leaves in place: the same processes
      are still waiting or unadmitted, and the ones admitted have arrived by
      `t` while the ones left have not. */
  lemma AdmitFacts(sorted: seq<Process>, i: nat, t: int, pool: seq<Process>)
    requires i <= |sorted|
    ensures var a := Admit(sorted, i, t, pool);
      && i <= a.next <= |sorted|
      && |a.pool| == |pool| + (a.next - i)
      && (a.next == i ==> a.pool == pool)
      && (forall q :: Pending(q, a.pool, sorted, a.next) <==> Pending(q, pool, sorted, i))
      && (forall q | q in a.pool :: q in pool || q.arrivalTime <= t)
      && (a.next < |sorted| ==> sorted[a.next].arrivalTime > t)
      && multiset(a.pool) + multiset(sorted[a.next..]) == multiset(pool) + multiset(sorted[i..])
  {
    var a := Admit(sorted, i, t, pool);
    assert sorted[i..] == sorted[i..a.next] + sorted[a.next..];
    forall q | q in a.pool
      ensures q in pool || q.arrivalTime <= t
    {
      if q !in pool {
        var k :| 0 <= k < |sorted[i..a.next]| && sorted[i..a.next][k] == q;
        assert sorted[i + k] == q;
      }
    }
  }

  /** Not yet dispatched: waiting in `ready`, or not yet admitted. */
  predicate Pending(q: Process, ready: seq<Process>, sorted: seq<Process>, i: nat)
  {
    q in ready || (i <= |sorted| && q in sorted[i..])
  }

  /** In an arrival-sorted input, nothing from index `i` on arrives before
      `sorted[i]`. */
  lemma SortedTail(sorted: seq<Process>, i: nat)
    requires SortedBy(ByArrival, sorted) && i < |sorted|
    ensures forall q | q in sorted[i..] :: q.arrivalTime >= sorted[i].arrivalTime
  {
    forall q | q in sorted[i..]
      ensures q.arrivalTime >= sorted[i].arrivalTime
    {
      var k :| 0 <= k < |sorted[i..]| && sorted[i..][k] == q;
      if k > 0 {
        assert !Less(ByArrival, sorted[i + k], sorted[i]);
      }
    }
  }

  /** Everything left unadmitted arrives after `t`. */
  predicate LaterThan(sorted: seq<Process>, n: nat, t: int)
  {
    n <= |sorted| && forall q | q in sorted[n..] :: q.arrivalTime > t
  }

  /** Admission at `t` over an arrival-sorted input stops at a process that
      has not arrived, and so does everything after it. */
  lemma AdmitLeavesLater(sorted: seq<Process>, i: nat, t: int, pool: seq<Process>)
    requires SortedBy(ByArrival, sorted) && i <= |sorted|
    ensures LaterThan(sorted, Admit(sorted, i, t, pool).next, t)
  {
    AdmitFacts(sorted, i, t, pool);
    var n := Admit(sorted, i, t, pool).next;
    if n < |sorted| {
      SortedTail(sorted, n);
    }
  }

  /** After the clock jumps to the next arrival, everything admitted
      arrived exactly then. */
  lemma JumpAdmitsArrivalsAt(sorted: seq<Process>, n: nat, t: int)
    requires SortedBy(ByArrival, sorted) && n < |sorted| && t == sorted[n].arrivalTime
    ensures |Admit(sorted, n, t, []).pool| > 0
    ensures forall q | q in Admit(sorted, n, t, []).pool :: q.arrivalTime == t
  {
    AdmitFacts(sorted, n, t, []);
    SortedTail(sorted, n);
    var a := Admit(sorted, n, t, []);
    assert a.pool == sorted[n..a.next];
    forall q | q in a.pool
      ensures q.arrivalTime == t
    {
      assert q in sorted[n..];
    }
  }

  /** The admission pass at the top of both policies' loops, fused with the
      jump pass that follows it when nothing is ready (the clock moves to
      the next arrival and admission runs again). The result is the
      admission and the clock at which the next process is dispatched. */
  function AdmitOrJump(sorted: seq<Process>, i: nat, t: int, ready: seq<Process>): (r: (Admission, int))
    requires SortedBy(ByArrival, sorted) && i <= |sorted| && (i < |sorted| || |ready| > 0)
    ensures i <= r.0.next <= |sorted|
    ensures |r.0.pool| == |ready| + (r.0.next - i) > 0
    ensures t <= r.1 && LaterThan(sorted, r.0.next, r.1)
    ensures forall q :: Pending(q, r.0.pool, sorted, r.0.next) <==> Pending(q, ready, sorted, i)
    ensures multiset(r.0.pool) + multiset(sorted[r.0.next..]) == multiset(ready) + multiset(sorted[i..])
    ensures r.0.pool == ready + sorted[i..r.0.next]
    ensures r.1 == t ==> forall q | q in r.0.pool :: q in ready || q.arrivalTime <= t
    ensures t < r.1 ==> ready == [] && forall q | q in r.0.pool :: q.arrivalTime == r.1
  {
    AdmitFacts(sorted, i, t, ready);
    AdmitLeavesLater(sorted, i, t, ready);
    var a := Admit(sorted, i, t, ready);
    if |a.pool| > 0 then
      (a, t)
    else
      var start := sorted[a.next].arrivalTime;
      AdmitFacts(sorted, a.next, start, a.pool);
      AdmitLeavesLater(sorted, a.next, start, a.pool);
      JumpAdmitsArrivalsAt(sorted, a.next, start);
      (Admit(sorted, a.next, start, a.pool), start)
  }

  /** The priority sort key refines the round-robin one. */
  lemma PriorityKeySortsByArrival(s: seq<Process>)
    requires SortedBy(ByArrivalThenPriority, s)
    ensures SortedBy(ByArrival, s)
  {
    forall i, j | 0 <= i < j < |s|
      ensures !Less(ByArrival, s[j], s[i])
    {
      assert !Less(ByArrivalThenPriority, s[j], s[i]);
    }
  }

  lemma SplitAt<X>(s: seq<X>, k: nat)
    requires k < |s|
    ensures s == s[..k] + [s[k]] + s[k + 1..]
    ensures forall x | x in s[..k] + s[k + 1..] :: x in s
    ensures forall x | x in s :: x == s[k] || x in s[..k] + s[k + 1..]
  {
    forall x | x in s
      ensures x == s[k] || x in s[..k] + s[k + 1..]
    {
      var j :| 0 <= j < |s| && s[j] == x;
      if j < k {
        assert (s[..k] + s[k + 1..])[j] == x;
      } else if j > k {
        assert (s[..k] + s[k + 1..])[j - 1] == x;
      }
    }
  }

  // ---------------------------------------------------------------------
  // Shapes of a schedule
  // ---------------------------------------------------------------------

  /** Every process of `s` has arrived by `t`. */
  predicate Arrived(s: seq<Process>, t: int)
  {
    forall p | p in s :: p.arrivalTime <= t
  }

  predicate NonNegativeBursts(s: seq<Process>)
  {
    forall p | p in s :: p.burstTime >= 0
  }

  predicate NonNegativeRemaining(s: seq<Process>)
  {
    forall p | p in s :: p.remainingTime >= 0
  }

  /** The end of the slice before slice `j`; the clock starts at 0. */
  function PrevEnd(g: seq<Slice>, j: nat): int
    requires j <= |g|
  {
    if j == 0 then 0 else g[j - 1].end
  }

  /** The final clock of a chart: the end of its last slice, 0 if empty. */
  function LastEnd(g: seq<Slice>): int
  {
    PrevEnd(g, |g|)
  }

  /** The CPU is idle right before slice `j`. */
  predicate IdleBefore(g: seq<Slice>, j: nat)
    requires j < |g|
  {
    PrevEnd(g, j) < g[j].start
  }

  /** Slices follow each other without overlap and none is negative. */
  predicate Sequential(g: seq<Slice>)
  {
    forall j | 0 <= j < |g| :: PrevEnd(g, j) <= g[j].start <= g[j].end
  }

  /** Each slice starts no earlier than its process arrived. */
  predicate StartsAfterArrival(g: seq<Slice>, picked: seq<Process>)
    requires |g| == |picked|
  {
    forall j | 0 <= j < |g| :: picked[j].arrivalTime <= g[j].start
  }

  /** After an idle gap the CPU resumes exactly at the arrival of the
      process it dispatches. */
  predicate ResumesAtArrival(g: seq<Slice>, picked: seq<Process>)
    requires |g| == |picked|
  {
    forall j | 0 <= j < |g| && IdleBefore(g, j) :: g[j].start == picked[j].arrivalTime
  }

  /** The CPU idles only while no dispatched-later process has arrived. */
  predicate IdlesOnlyWhenEmpty(g: seq<Slice>, picked: seq<Process>)
    requires |g| == |picked|
  {
    forall j, m | 0 <= j <= m < |g| && IdleBefore(g, j) :: picked[m].arrivalTime >= g[j].start
  }

  /** The clock never runs backwards, no process runs before it arrives, and
      the CPU idles only when nothing is ready. */
  predicate Timeline(g: seq<Slice>, picked: seq<Process>)
  {
    && |g| == |picked|
    && Sequential(g)
    && StartsAfterArrival(g, picked)
    && ResumesAtArrival(g, picked)
    && IdlesOnlyWhenEmpty(g, picked)
  }

  /** No process that had arrived when slice `j` started, and was dispatched
      later, beats the process of slice `j` on (priority, arrival). */
  predicate DispatchRule(g: seq<Slice>, picked: seq<Process>)
  {
    && |g| == |picked|
    && forall j, m | 0 <= j < m < |g| && picked[m].arrivalTime <= g[j].start ::
         !DispatchBefore(picked[m], picked[j])
  }

  // ---------------------------------------------------------------------
  // Non-preemptive priority
  // ---------------------------------------------------------------------

  /** The comparator of the dispatch choice: lower priority number first,
      then earlier arrival. */
  predicate DispatchBefore(a: Process, b: Process)
  {
    if a.priority != b.priority then a.priority < b.priority
    else a.arrivalTime < b.arrivalTime
  }

  /** `std::min_element` from index `k` on, with `best` the minimum so far:
      the result is minimal, and strictly better than everything before it. */
  function MinFrom(ready: seq<Process>, k: nat, best: nat): (m: nat)
    requires best < k <= |ready|
    requires forall j | 0 <= j < k :: !DispatchBefore(ready[j], ready[best])
    requires forall j | 0 <= j < best :: DispatchBefore(ready[best], ready[j])
    ensures m < |ready|
    ensures forall j | 0 <= j < |ready| :: !DispatchBefore(ready[j], ready[m])
    ensures forall j | 0 <= j < m :: DispatchBefore(ready[m], ready[j])
    decreases |ready| - k
  {
    if k == |ready| then best
    else
      MinStep(ready, k, best);
      MinFrom(ready, k + 1, if DispatchBefore(ready[k], ready[best]) then k else best)
  }

  /** `DispatchBefore` is a strict weak order: transitive, and so is its
      complement. */
  lemma DispatchOrder(a: Process, b: Process, c: Process)
    ensures DispatchBefore(a, b) && DispatchBefore(b, c) ==> DispatchBefore(a, c)
    ensures DispatchBefore(a, c) ==> DispatchBefore(a, b) || DispatchBefore(b, c)
  {
  }

  /** One step of `std::min_element` keeps the "minimal so far, strictly
      better than everything earlier" invariant. */
  lemma MinStep(ready: seq<Process>, k: nat, best: nat)
    requires best < k < |ready|
    requires forall j | 0 <= j < k :: !DispatchBefore(ready[j], ready[best])
    requires forall j | 0 <= j < best :: DispatchBefore(ready[best], ready[j])
    ensures var b := if DispatchBefore(ready[k], ready[best]) then k else best;
      && (forall j | 0 <= j < k + 1 :: !DispatchBefore(ready[j], ready[b]))
      && (forall j | 0 <= j < b :: DispatchBefore(ready[b], ready[j]))
  {
    if DispatchBefore(ready[k], ready[best]) {
      forall j | 0 <= j < k
        ensures !DispatchBefore(ready[j], ready[k]) && DispatchBefore(ready[k], ready[j])
      {
        DispatchOrder(ready[j], ready[k], ready[best]);
        DispatchOrder(ready[k], ready[j], ready[best]);
      }
    }
  }

  /** Index of the first ready process that no other ready process beats. */
  function FirstMin(ready: seq<Process>): (m: nat)
    requires |ready| > 0
    ensures m < |ready|
    ensures forall j | 0 <= j < |ready| :: !DispatchBefore(ready[j], ready[m])
    ensures forall j | 0 <= j < m :: DispatchBefore(ready[m], ready[j])
  {
    MinFrom(ready, 1, 0)
  }

  /** A dispatched process after running to completion from time `t`. */
  function RunToCompletion(p: Process, t: int): Process
  {
    p.(startTime := if p.startTime == Unset then t else p.startTime,
       remainingTime := 0,
       finishTime := t + p.burstTime)
  }

  // ---------------------------------------------------------------------
  // Round-robin
  // ---------------------------------------------------------------------

  /** `std::min` on the run length. */
  function Min(a: int, b: int): int
  {
    if b < a then b else a
  }

  /** Termination weight of a queued process: its positive remaining time,
      plus one for the pass that retires it. */
  function Cost(p: Process): nat
  {
    (if p.remainingTime > 0 then p.remainingTime else 0) + 1
  }

  function Work(s: seq<Process>): nat
  {
    if s == [] then 0 else Cost(s[0]) + Work(s[1..])
  }

  lemma {:induction false} WorkConcat(a: seq<Process>, b: seq<Process>)
    ensures Work(a + b) == Work(a) + Work(b)
  {
    if a == [] {
      assert a + b == b;
    } else {
      assert (a + b)[0] == a[0];
      assert (a + b)[1..] == a[1..] + b;
      WorkConcat(a[1..], b);
    }
  }

  /** One round-robin dispatch from a non-empty queue at clock `t`. */
  datatype SliceOutcome = SliceOutcome(slice: Slice, ran: Process, next: nat, clock: int, queue: seq<Process>)

  /** Run the queue head for at most `quantum`, admit everything arrived by
      the end of the slice, and only then requeue the head if it still has
      time left. */
  function RunSlice(sorted: seq<Process>, quantum: int, i: nat, t: int, queue: seq<Process>): (o: SliceOutcome)
    requires quantum > 0 && i <= |sorted| && |queue| > 0
    ensures o.slice == Slice(queue[0].pid, t, o.clock)
    ensures o.clock == t + Min(quantum, queue[0].remainingTime)
    ensures o.ran.remainingTime == queue[0].remainingTime - Min(quantum, queue[0].remainingTime)
    ensures o.ran == queue[0].(startTime := o.ran.startTime, remainingTime := o.ran.remainingTime)
    ensures o.ran.startTime == (if queue[0].startTime == Unset then t else queue[0].startTime)
    ensures i <= o.next <= |sorted|
    ensures forall k | i <= k < o.next :: sorted[k].arrivalTime <= o.clock
    ensures o.next == |sorted| || sorted[o.next].arrivalTime > o.clock
    ensures o.queue == queue[1..] + sorted[i..o.next] + (if o.ran.remainingTime > 0 then [o.ran] else [])
    ensures Work(o.queue) + Work(sorted[o.next..]) < Work(queue) + Work(sorted[i..])
  {
    var p := queue[0];
    var run := Min(quantum, p.remainingTime);
    var ran := p.(startTime := if p.startTime == Unset then t else p.startTime,
                  remainingTime := p.remainingTime - run);
    var a := Admit(sorted, i, t + run, queue[1..]);
    var q' := if ran.remainingTime > 0 then a.pool + [ran] else a.pool;
    assert Work(queue) == Cost(p) + Work(queue[1..]);
    assert sorted[i..] == sorted[i..a.next] + sorted[a.next..];
    WorkConcat(sorted[i..a.next], sorted[a.next..]);
    WorkConcat(queue[1..], sorted[i..a.next]);
    WorkConcat(a.pool, [ran]);
    SliceOutcome(Slice(p.pid, t, t + run), ran, a.next, t + run, q')
  }

  /** Total remaining time of the processes with `pid` in `s`. */
  function RemSum(s: seq<Process>, pid: int): int
  {
    if s == [] then 0 else (if s[0].pid == pid then s[0].remainingTime else 0) + RemSum(s[1..], pid)
  }

  /** How many processes in `s` carry `pid`. */
  function CountPid(s: seq<Process>, pid: int): nat
  {
    if s == [] then 0 else (if s[0].pid == pid then 1 else 0) + CountPid(s[1..], pid)
  }

  lemma {:induction false} RemSumConcat(a: seq<Process>, b: seq<Process>, pid: int)
    ensures RemSum(a + b, pid) == RemSum(a, pid) + RemSum(b, pid)
    ensures CountPid(a + b, pid) == CountPid(a, pid) + CountPid(b, pid)
  {
    if a == [] {
      assert a + b == b;
    } else {
      assert (a + b)[0] == a[0];
      assert (a + b)[1..] == a[1..] + b;
      RemSumConcat(a[1..], b, pid);
    }
  }

  /** Total time the chart gives to `pid`. */
  function SliceTime(g: seq<Slice>, pid: int): int
  {
    if g == [] then 0
    else SliceTime(g[..|g| - 1], pid) + (if g[|g| - 1].pid == pid then g[|g| - 1].end - g[|g| - 1].start else 0)
  }

  lemma SliceTimeAppend(g: seq<Slice>, s: Slice, pid: int)
    ensures SliceTime(g + [s], pid) == SliceTime(g, pid) + (if s.pid == pid then s.end - s.start else 0)
  {
    assert (g + [s])[..|g|] == g;
  }

  /** No pid occurs twice in `s`. */
  ghost predicate UniquePids(s: seq<Process>)
  {
    forall pid :: CountPid(s, pid) <= 1
  }

  /** A pid that does not occur has nothing left to run. */
  lemma {:induction false} CountZeroRemSum(s: seq<Process>, pid: int)
    requires CountPid(s, pid) == 0
    ensures RemSum(s, pid) == 0
    decreases |s|
  {
    if s != [] {
      CountZeroRemSum(s[1..], pid);
    }
  }

  /** A process as the five-argument constructor built it from its given
      fields: what scheduling leaves alone. Scheduling changes only the
      start, remaining and finish times. */
  function Submitted(p: Process): Process
  {
    NewProcess(p.pid, p.arrivalTime, p.burstTime, p.priority, p.maxNeed)
  }

  /** `Submitted` of each process of `s`, in order. */
  function Submissions(s: seq<Process>): (r: seq<Process>)
    ensures |r| == |s| && forall k | 0 <= k < |s| :: r[k] == Submitted(s[k])
  {
    seq(|s|, k requires 0 <= k < |s| => Submitted(s[k]))
  }

  lemma SubmissionsConcat(a: seq<Process>, b: seq<Process>)
    ensures Submissions(a + b) == Submissions(a) + Submissions(b)
  {
  }

  /** Reordering the processes reorders their submissions. */
  lemma {:induction false} SubmissionsPermutation(a: seq<Process>, b: seq<Process>)
    requires multiset(a) == multiset(b)
    ensures multiset(Submissions(a)) == multiset(Submissions(b))
    decreases |a|
  {
    if a == [] {
      assert |b| == |multiset(b)| == 0;
    } else {
      assert a[0] in multiset(b);
      var k :| 0 <= k < |b| && b[k] == a[0];
      Common.MultisetRemoveOne(a, b, k);
      SubmissionsPermutation(a[1..], b[..k] + b[k + 1..]);
      assert a == [a[0]] + a[1..];
      assert b == b[..k] + [b[k]] + b[k + 1..];
      SubmissionsConcat([a[0]], a[1..]);
      SubmissionsConcat(b[..k] + [b[k]], b[k + 1..]);
      SubmissionsConcat(b[..k], [b[k]]);
      SubmissionsConcat(b[..k], b[k + 1..]);
    }
  }

  /** The round-robin slices that finish their process, in chart order:
      those whose head had at most one quantum left. */
  function FinishingSlices(picked: seq<Process>, quantum: int): (ks: seq<nat>)
    ensures forall j | 0 <= j < |ks| :: ks[j] < |picked| && picked[ks[j]].remainingTime <= quantum
    decreases |picked|
  {
    if picked == [] then []
    else
      var n := |picked| - 1;
      var ks := FinishingSlices(picked[..n], quantum);
      assert forall j | 0 <= j < |ks| :: picked[..n][ks[j]] == picked[ks[j]];
      ks + (if picked[n].remainingTime <= quantum then [n] else [])
  }

  /** Every finishing slice is listed, once, in increasing order. */
  lemma {:induction false} FinishingSlicesExact(picked: seq<Process>, quantum: int)
    ensures var ks := FinishingSlices(picked, quantum);
      && (forall j, m | 0 <= j < m < |ks| :: ks[j] < ks[m])
      && (forall k | 0 <= k < |picked| && picked[k].remainingTime <= quantum :: k in ks)
    decreases |picked|
  {
    if picked != [] {
      var n := |picked| - 1;
      FinishingSlicesExact(picked[..n], quantum);
      assert picked == picked[..n] + [picked[n]];
      FinishingSlicesAppend(picked[..n], picked[n], quantum);
      forall k | 0 <= k < n && picked[k].remainingTime <= quantum
        ensures k in FinishingSlices(picked, quantum)
      {
        assert picked[..n][k] == picked[k];
      }
    }
  }

  lemma FinishingSlicesAppend(picked: seq<Process>, p: Process, quantum: int)
    ensures FinishingSlices(picked + [p], quantum) ==
            FinishingSlices(picked, quantum) + (if p.remainingTime <= quantum then [|picked|] else [])
  {
    assert (picked + [p])[..|picked|] == picked;
  }

  /** The j-th completed record is the process of the j-th finishing slice,
      with that slice's end as its finish time. */
  predicate CompletedAt(gantt: seq<Slice>, picked: seq<Process>, done: seq<Process>, quantum: int)
    requires |gantt| == |picked|
  {
    var ks := FinishingSlices(picked, quantum);
    && |done| == |ks|
    && forall j | 0 <= j < |done| ::
         && Submitted(done[j]) == Submitted(picked[ks[j]])
         && done[j].finishTime == gantt[ks[j]].end
  }

  /** With unique pids, the head each slice ran had its pid's input
      remaining time less what that pid ran in the earlier slices. */
  ghost predicate HeadsRemaining(sorted: seq<Process>, gantt: seq<Slice>, picked: seq<Process>)
    requires |gantt| == |picked|
  {
    forall k | 0 <= k < |picked| ::
      picked[k].remainingTime == RemSum(sorted, picked[k].pid) - SliceTime(gantt[..k], picked[k].pid)
  }

  // ---------------------------------------------------------------------
  // Statistics
  // ---------------------------------------------------------------------

  function Turnaround(p: Process): int
  {
    p.finishTime - p.arrivalTime
  }

  function Waiting(p: Process): int
  {
    Turnaround(p) - p.burstTime
  }

  function SumTurnaround(done: seq<Process>): int
  {
    if done == [] then 0 else Turnaround(done[0]) + SumTurnaround(done[1..])
  }

  function SumWaiting(done: seq<Process>): int
  {
    if done == [] then 0 else Waiting(done[0]) + SumWaiting(done[1..])
  }

  function Pids(s: seq<Process>): set<int>
  {
    set p | p in s :: p.pid
  }

  /** `done[j]` is the last completed entry carrying its pid, so its values
      are the ones left in the maps. */
  predicate LastOf(done: seq<Process>, j: nat)
  {
    j < |done| && forall m | j < m < |done| :: done[m].pid != done[j].pid
  }

  datatype Tally = Tally(waiting: map<int, int>, turnaround: map<int, int>)

  /** The per-pid maps, written in completion order so that a later entry
      of the same pid overwrites an earlier one. */
  function TallyOf(done: seq<Process>): (s: Tally)
    ensures s.waiting.Keys == Pids(done) && s.turnaround.Keys == Pids(done)
  {
    if done == [] then Tally(map[], map[])
    else
      var n := |done| - 1;
      var s := TallyOf(done[..n]);
      var p := done[n];
      assert done == done[..n] + [p];
      PidsAppend(done[..n], p);
      Tally(s.waiting[p.pid := Waiting(p)], s.turnaround[p.pid := Turnaround(p)])
  }

  /** The maps hold, for each pid, the values of its last completed entry:
      earlier entries of the same pid are overwritten. */
  lemma {:induction false} TallyOfLast(done: seq<Process>, j: nat)
    requires LastOf(done, j)
    ensures done[j].pid in TallyOf(done).turnaround && done[j].pid in TallyOf(done).waiting
    ensures TallyOf(done).turnaround[done[j].pid] == Turnaround(done[j])
    ensures TallyOf(done).waiting[done[j].pid] == Turnaround(done[j]) - done[j].burstTime
    decreases |done|
  {
    var n := |done| - 1;
    var prev := done[..n];
    if j < n {
      assert done[n].pid != done[j].pid;
      assert LastOf(prev, j) && prev[j] == done[j];
      TallyOfLast(prev, j);
    }
  }

  lemma PidsAppend(xs: seq<Process>, p: Process)
    ensures Pids(xs + [p]) == Pids(xs) + {p.pid}
  {
    assert forall q | q in xs + [p] :: q in xs || q == p;
  }

  /** Average of an integer total over `count` entries, 0 when there are none. */
  function Average(total: int, count: nat): (r: real)
    ensures count == 0 ==> r == 0.0
    ensures count > 0 ==> r * (count as real) == total as real
  {
    if count == 0 then 0.0 else (total as real) / (count as real)
  }

  /** Mean waiting and mean turnaround over the completed entries; both stay
      at their default 0 when nothing completed. */
  function Averages(done: seq<Process>): (r: (real, real))
    ensures |done| == 0 ==> r == (0.0, 0.0)
    ensures |done| > 0 ==> r.0 * (|done| as real) == SumWaiting(done) as real
    ensures |done| > 0 ==> r.1 * (|done| as real) == SumTurnaround(done) as real
  {
    (Average(SumWaiting(done), |done|), Average(SumTurnaround(done), |done|))
  }

  /** `compute_stats` on top of a finished chart and clock. */
  function ComputeStats(done: seq<Process>, gantt: seq<Slice>, finishTime: int): (out: ScheduleResult)
    ensures out.gantt == gantt && out.finishTime == finishTime
    ensures out.waiting.Keys == Pids(done) && out.turnaround.Keys == Pids(done)
    ensures forall j | 0 <= j < |done| && LastOf(done, j) ::
              && out.turnaround[done[j].pid] == done[j].finishTime - done[j].arrivalTime
              && out.waiting[done[j].pid] == out.turnaround[done[j].pid] - done[j].burstTime
    ensures (out.avgWaiting, out.avgTurnaround) == Averages(done)
  {
    var s := TallyOf(done);
    var avg := Averages(done);
    assert forall j | 0 <= j < |done| && LastOf(done, j) ::
             && s.turnaround[done[j].pid] == Turnaround(done[j])
             && s.waiting[done[j].pid] == Turnaround(done[j]) - done[j].burstTime
    by {
      forall j | 0 <= j < |done| && LastOf(done, j)
        ensures && s.turnaround[done[j].pid] == Turnaround(done[j])
                && s.waiting[done[j].pid] == Turnaround(done[j]) - done[j].burstTime
      {
        TallyOfLast(done, j);
      }
    }
    ScheduleResult(gantt, s.waiting, s.turnaround, avg.0, avg.1, finishTime)
  }
}

=== FILE: simulator.dfy ===
/** The sequential part of the simulator: the intake of a batch of processes
    through the ready buffer into the ready and blocked lists, decided by the
    ledger, followed by scheduling, release and unblocking. Threads and
    semaphores are replaced by one sequential order of the same steps. */
module Simulator {
  import opened Common
  import opened Processes
  import Vectors
  import Bankers
  import BankersProofs
  import ReadyBuffer
  import Schedules
  import Scheduler

  // ---------------------------------------------------------------------
  // Processes made by the simulator itself
  // ---------------------------------------------------------------------

  /** The pid that ends intake, whoever pushed it. */
  const SentinelPid: int := -1

  /** The quantum the simulator always hands to the scheduler. */
  const SimulatorQuantum: int := 4

  /** `make_sentinel`: the end-of-intake marker. */
  function Sentinel(): (p: Process)
    ensures p.pid == SentinelPid && p.maxNeed == []
    ensures p.arrivalTime == 0 && p.burstTime == 0 && p.remainingTime == 0 && p.priority == 0
    ensures p.startTime == Unset && p.finishTime == Unset
  {
    NewProcess(SentinelPid, 0, 0, 0, [])
  }

  /** C++'s `/` on `int`: division truncated toward zero. */
  function TruncDiv(a: int, b: int): int
    requires b > 0
  {
    if a >= 0 then a / b else -((-a) / b)
  }

  /** C++'s `%` on `int`: what is left after truncated division, so it
      takes the sign of the dividend. */
  function TruncRem(a: int, b: int): (r: int)
    requires b > 0
    ensures -b < r < b
    ensures a >= 0 ==> r >= 0
    ensures a <= 0 ==> r <= 0
    ensures a >= 0 ==> r == a % b
  {
    if a >= 0 then a % b else -((-a) % b)
  }

  /** Truncated quotient and remainder put the dividend back together, as
      the C++ standard requires of `/` and `%`. */
  lemma TruncatedDivision(a: int, b: int)
    requires b > 0
    ensures TruncDiv(a, b) * b + TruncRem(a, b) == a
  {
  }

  /** The pid-derived process a producer builds in iteration `i` of its loop. */
  function Synthesize(pid: int, i: int): (p: Process)
    ensures p.pid == pid && p.arrivalTime == i && p.remainingTime == p.burstTime
    ensures p.startTime == Unset && p.finishTime == Unset && |p.maxNeed| == 3
    ensures pid >= 0 ==>
              && p.burstTime == pid % 7 + 1 && 1 <= p.burstTime <= 7
              && p.priority == pid % 5 + 1 && 1 <= p.priority <= 5
              && p.maxNeed == [pid % 3, (pid + 1) % 3, (pid + 2) % 3]
  {
    var need := [TruncRem(pid, 3), TruncRem(pid + 1, 3), TruncRem(pid + 2, 3)];
    NewProcess(pid, i, TruncRem(pid, 7) + 1, TruncRem(pid, 5) + 1, need)
  }

  /** The three claim components of a non-negative pid are 0, 1 and 2 in
      some rotation: each in range and no two alike. */
  lemma ClaimRotation(pid: nat, i: int)
    ensures var need := Synthesize(pid, i).maxNeed;
            && (forall j | 0 <= j < 3 :: 0 <= need[j] <= 2)
            && need[0] != need[1] && need[1] != need[2] && need[0] != need[2]
  {
    NextRemainders(pid);
  }

  lemma NextRemainders(pid: nat)
    ensures (pid + 1) % 3 == if pid % 3 == 2 then 0 else pid % 3 + 1
    ensures (pid + 2) % 3 == if pid % 3 == 0 then 2 else pid % 3 - 1
  {
  }

  /** The pids the shared counter `next_pid_` hands producer `k`: the
      counter starts at `first`, and its `j`-th `fetch_add` is made by
      producer `takers[j]`. The thread interleaving is this parameter. */
  function CounterPids(first: int, takers: seq<int>, k: int): (pids: seq<int>)
    ensures forall i | 0 <= i < |pids| :: first <= pids[i] < first + |takers|
    ensures forall i, j | 0 <= i < j < |pids| :: pids[i] < pids[j]
    decreases |takers|
  {
    if takers == [] then []
    else
      var n := |takers| - 1;
      CounterPids(first, takers[..n], k) + (if takers[n] == k then [first + n] else [])
  }

  /** A counter value lands in producer `k`'s list exactly when `k` made
      that `fetch_add`: every value goes to one producer and none is lost. */
  lemma {:induction false} CounterPidsOwner(first: int, takers: seq<int>, k: int, v: int)
    ensures v in CounterPids(first, takers, k) <==>
              first <= v < first + |takers| && takers[v - first] == k
    decreases |takers|
  {
    if takers != [] {
      var n := |takers| - 1;
      CounterPidsOwner(first, takers[..n], k, v);
      assert CounterPids(first, takers, k) ==
        CounterPids(first, takers[..n], k) + (if takers[n] == k then [first + n] else []);
      if first <= v < first + n {
        assert takers[..n][v - first] == takers[v - first];
      }
    }
  }

  /** A producer running alone takes every value: its pids are consecutive. */
  lemma {:induction false} SoloProducerPids(first: int, takers: seq<int>, k: int)
    requires forall j | 0 <= j < |takers| :: takers[j] == k
    ensures CounterPids(first, takers, k) == seq(|takers|, i => first + i)
    decreases |takers|
  {
    if takers != [] {
      var n := |takers| - 1;
      SoloProducerPids(first, takers[..n], k);
    }
  }

  /** Two producers alternating from pid 1 (the counter's initial value):
      the first gets 1 and 3, not 1 and 2. */
  lemma TwoProducersInterleave()
    ensures CounterPids(1, [1, 2, 1, 2], 1) == [1, 3]
    ensures CounterPids(1, [1, 2, 1, 2], 2) == [2, 4]
  {
    assert [1, 2, 1, 2][..3] == [1, 2, 1];
    assert [1, 2, 1][..2] == [1, 2];
    assert [1, 2][..1] == [1];
    assert [1][..0] == [];
  }

  /** One producer's whole loop: the i-th pid the counter handed it becomes
      a process arriving at `i`. */
  function ProducerBatch(pids: seq<int>): (batch: seq<Process>)
    ensures |batch| == |pids|
    ensures forall i | 0 <= i < |batch| :: batch[i].pid == pids[i] && batch[i].arrivalTime == i
    ensures forall i | 0 <= i < |batch| && pids[i] >= 0 ::
              1 <= batch[i].burstTime <= 7 && 1 <= batch[i].priority <= 5
  {
    var batch := seq(|pids|, i requires 0 <= i < |pids| => Synthesize(pids[i], i));
    assert forall i | 0 <= i < |pids| :: batch[i] == Synthesize(pids[i], i);
    batch
  }

  // ---------------------------------------------------------------------
  // Simulator state
  // ---------------------------------------------------------------------

  /** The simulator's fields; the counter `nextPid` is a plain integer. */
  datatype Sim = Sim(
    buffer: ReadyBuffer.Ring<Process>,
    ledger: Bankers.Ledger,
    producers: int,
    perProducer: int,
    nextPid: int,
    ready: seq<Process>,
    blocked: seq<Process>,
    manualPool: seq<Process>)

  /** The buffer and the ledger are in shape. */
  predicate SimValid(s: Sim)
  {
    ReadyBuffer.Valid(s.buffer) && Bankers.WellFormed(s.ledger)
  }

  /** What `std::vector` throws when asked for more than `max_size()`
      elements. */
  const VectorTooLong := InvalidConfiguration("cannot create std::vector larger than max_size()")

  /** The constructor: the buffer is built first and the ledger second; each
      rejects an unusable size. The `int` buffer size becomes a `size_t`, so a
      negative one wraps to a capacity no vector can hold, and allocating the
      slots throws before the buffer's own zero check. */
  function NewSimulator(bufferSize: int, producers: int, perProducer: int, available: seq<int>): (r: Result<Sim>)
    ensures r.Failure? <==> bufferSize <= 0 || available == []
    ensures bufferSize < 0 ==> r == Failure(VectorTooLong)
    ensures bufferSize == 0 ==> r.Failure? && r.error != VectorTooLong
    ensures r.Success? ==>
              && SimValid(r.value)
              && ReadyBuffer.Capacity(r.value.buffer) == bufferSize
              && ReadyBuffer.Contents(r.value.buffer) == []
              && r.value.ledger.available == available
              && Bankers.Inv(r.value.ledger, available)
              && r.value.producers == producers && r.value.perProducer == perProducer
              && r.value.nextPid == 1
              && r.value.ready == [] && r.value.blocked == [] && r.value.manualPool == []
  {
    if bufferSize < 0 then Failure(VectorTooLong)
    else
      var b := ReadyBuffer.NewRing(bufferSize, DefaultProcess());
      if b.Failure? then Failure(b.error)
      else
        var l := Bankers.NewLedger(available);
        if l.Failure? then Failure(l.error)
        else Success(Sim(b.value, l.value, producers, perProducer, 1, [], [], []))
  }

  /** `add_process`: the process waits in the manual pool for the next start. */
  function AddProcess(s: Sim, p: Process): (s': Sim)
    ensures s'.manualPool == s.manualPool + [p] && s'.manualPool[|s.manualPool|] == p
    ensures s'.buffer == s.buffer && s'.ledger == s.ledger
    ensures s'.ready == s.ready && s'.blocked == s.blocked && s'.nextPid == s.nextPid
  {
    s.(manualPool := s.manualPool + [p])
  }

  // ---------------------------------------------------------------------
  // Ledger requests made on the simulator's behalf
  // ---------------------------------------------------------------------

  /** Every claim is at most as wide as the ledger. */
  predicate ClaimsFit(xs: seq<Process>, width: nat)
  {
    forall p | p in xs :: |p.maxNeed| <= width
  }

  /** Every claim is non-negative. */
  predicate NonNegativeClaims(xs: seq<Process>)
  {
    forall p | p in xs :: Vectors.NonNegative(p.maxNeed)
  }

  /** Lists a set once, in whatever order the iteration happens to take:
      the hash map's iteration order, fixed by nothing the program controls. */
  method EnumerateKeys(s: set<int>) returns (xs: seq<int>)
    ensures IsEnumeration(xs, s)
  {
    xs := [];
    var left := s;
    while left != {}
      invariant left <= s
      invariant forall i, j | 0 <= i < j < |xs| :: xs[i] != xs[j]
      invariant forall i | 0 <= i < |xs| :: xs[i] in s && xs[i] !in left
      invariant forall k | k in s :: k in xs || k in left
      decreases left
    {
      HasElement(left);
      var k :| k in left;
      xs := xs + [k];
      left := left - {k};
    }
  }

  /** One request of `p`'s claim: `request_resources(p.pid, p.max_need)`,
      whose safety check scans the allocated pids in the order `scan`. */
  predicate Step(L: Bankers.Ledger, p: Process, scan: seq<int>, L': Bankers.Ledger, granted: bool)
  {
    && Bankers.WellFormed(L) && |p.maxNeed| <= |L.available|
    && IsEnumeration(scan, L.allocation.Keys + {p.pid})
    && var o := Bankers.RequestWith(L, p.pid, p.maxNeed, scan);
       L' == o.ledger && (granted <==> o.safeSequence.Some?)
  }

  /** The ledgers a run of requests went through, the orders their safety
      checks scanned in, and whether each was granted. */
  datatype Decisions = Decisions(trace: seq<Bankers.Ledger>, scans: seq<seq<int>>, verdicts: seq<bool>)

  /** `d` records requesting the claims of `xs`, one after another. */
  predicate Decided(xs: seq<Process>, d: Decisions)
  {
    && |d.trace| == |xs| + 1 && |d.scans| == |xs| && |d.verdicts| == |xs|
    && forall j | 0 <= j < |xs| :: Step(d.trace[j], xs[j], d.scans[j], d.trace[j + 1], d.verdicts[j])
  }

  /** The ledger after the last request. */
  function Final(d: Decisions): Bankers.Ledger
    requires |d.trace| > 0
  {
    d.trace[|d.trace| - 1]
  }

  /** What every run of requests from `L0` keeps: the ledger's shape, the
      pids it knows about (every requester joins them, granted or not), and
      conservation relative to `total` when no claim is negative. */
  ghost predicate Trail(L0: Bankers.Ledger, total: seq<int>, xs: seq<Process>, d: Decisions)
  {
    && Decided(xs, d) && d.trace[0] == L0
    && Bankers.WellFormed(Final(d)) && |Final(d).available| == |L0.available|
    && Final(d).allocation.Keys == L0.allocation.Keys + Schedules.Pids(xs)
    && (Bankers.Inv(L0, total) && NonNegativeClaims(xs) ==> Bankers.Inv(Final(d), total))
  }

  /** Request `p`'s claim, scanning in the iteration order of the moment. */
  method Decide(L: Bankers.Ledger, p: Process) returns (scan: seq<int>, L': Bankers.Ledger, granted: bool)
    requires Bankers.WellFormed(L) && |p.maxNeed| <= |L.available|
    ensures Step(L, p, scan, L', granted)
    ensures granted ==> L'.allocation[p.pid] == p.maxNeed && Bankers.IsSafeState(L')
    ensures !granted ==> L'.available == L.available
  {
    scan := EnumerateKeys(L.allocation.Keys + {p.pid});
    var o := Bankers.RequestWith(L, p.pid, p.maxNeed, scan);
    L', granted := o.ledger, o.safeSequence.Some?;
  }

  lemma TakeOneMore<T>(xs: seq<T>, k: nat)
    requires k < |xs|
    ensures xs[..k + 1] == xs[..k] + [xs[k]]
  {
  }

  /** Appending to a list that ends in a selection appends to the selection. */
  lemma AppendToSelection<T>(front: seq<T>, sel: seq<T>, r: seq<T>, x: T, g: bool)
    requires r == front + sel
    ensures (if g then r + [x] else r) == front + (sel + (if g then [x] else []))
  {
  }

  /** One more request extends the record of requests. */
  lemma DecidedExtend(xs: seq<Process>, d: Decisions, p: Process, scan: seq<int>, L': Bankers.Ledger, granted: bool,
                      xs': seq<Process>, d': Decisions)
    requires Decided(xs, d) && Step(Final(d), p, scan, L', granted)
    requires xs' == xs + [p] && d' == Decisions(d.trace + [L'], d.scans + [scan], d.verdicts + [granted])
    ensures Decided(xs', d') && Final(d') == L' && d'.trace[0] == d.trace[0]
  {
    forall j | 0 <= j < |xs'|
      ensures Step(d'.trace[j], xs'[j], d'.scans[j], d'.trace[j + 1], d'.verdicts[j])
    {
      if j < |xs| {
        assert d'.trace[j + 1] == d.trace[j + 1];
      }
    }
  }

  /** One more request extends the trail. */
  lemma TrailExtend(L0: Bankers.Ledger, total: seq<int>, xs: seq<Process>, d: Decisions,
                    p: Process, scan: seq<int>, L': Bankers.Ledger, granted: bool,
                    xs': seq<Process>, d': Decisions)
    requires Trail(L0, total, xs, d) && Step(Final(d), p, scan, L', granted)
    requires xs' == xs + [p] && d' == Decisions(d.trace + [L'], d.scans + [scan], d.verdicts + [granted])
    ensures Trail(L0, total, xs', d')
  {
    DecidedExtend(xs, d, p, scan, L', granted, xs', d');
    Schedules.PidsAppend(xs, p);
    if Bankers.Inv(L0, total) && NonNegativeClaims(xs') {
      assert p in xs';
      assert NonNegativeClaims(xs);
      BankersProofs.RequestPreservesInv(Final(d), total, p.pid, p.maxNeed, scan);
    }
  }

  lemma TrailStart(L0: Bankers.Ledger, total: seq<int>)
    requires Bankers.WellFormed(L0)
    ensures Trail(L0, total, [], Decisions([L0], [], []))
  {
    assert Schedules.Pids([]) == {};
  }

  // ---------------------------------------------------------------------
  // Intake
  // ---------------------------------------------------------------------

  /** Some queued process carries the sentinel pid. */
  predicate HasSentinel(c: seq<Process>)
  {
    exists j | 0 <= j < |c| :: c[j].pid == SentinelPid
  }

  /** Where intake stops: the first process carrying the sentinel pid. */
  function FirstSentinel(c: seq<Process>): (f: nat)
    requires HasSentinel(c)
    ensures f < |c| && c[f].pid == SentinelPid
    ensures forall j | 0 <= j < f :: c[j].pid != SentinelPid
  {
    if c[0].pid == SentinelPid then 0
    else
      assert HasSentinel(c[1..]) by {
        var j :| 0 <= j < |c| && c[j].pid == SentinelPid;
        assert c[1..][j - 1] == c[j];
      }
      1 + FirstSentinel(c[1..])
  }

  /** The consumer loop's invariant: `intake` is what has been popped before
      the sentinel, requested in order and split into the two lists; `ring`
      holds the rest (after the sentinel once `stop` is set). */
  ghost predicate Intake(s: Sim, total: seq<int>, ring: ReadyBuffer.Ring<Process>, stop: bool,
                         intake: seq<Process>, d: Decisions, ready: seq<Process>, blocked: seq<Process>)
  {
    && ReadyBuffer.Valid(s.buffer)
    && var c := ReadyBuffer.Contents(s.buffer);
    && HasSentinel(c)
    && ReadyBuffer.Valid(ring) && ReadyBuffer.Capacity(ring) == ReadyBuffer.Capacity(s.buffer)
    && |intake| <= FirstSentinel(c) && intake == c[..|intake|]
    && (!stop ==> ReadyBuffer.Contents(ring) == c[|intake|..])
    && (stop ==> |intake| == FirstSentinel(c) && ReadyBuffer.Contents(ring) == c[FirstSentinel(c) + 1..])
    && Trail(s.ledger, total, intake, d)
    && ready == s.ready + Select(intake, d.verdicts, true)
    && blocked == s.blocked + Select(intake, d.verdicts, false)
  }

  lemma IntakeStart(s: Sim, total: seq<int>, ring: ReadyBuffer.Ring<Process>, stop: bool,
                    intake: seq<Process>, d: Decisions, ready: seq<Process>, blocked: seq<Process>)
    requires SimValid(s) && HasSentinel(ReadyBuffer.Contents(s.buffer))
    requires ring == s.buffer && !stop && intake == [] && d == Decisions([s.ledger], [], [])
    requires ready == s.ready && blocked == s.blocked
    ensures Intake(s, total, ring, stop, intake, d, ready, blocked)
  {
    TrailStart(s.ledger, total);
  }

  /** While intake goes on, the buffer is not empty, and the next process
      out is either the sentinel or one whose claim the ledger can take. */
  lemma IntakeNext(s: Sim, total: seq<int>, ring: ReadyBuffer.Ring<Process>,
                   intake: seq<Process>, d: Decisions, ready: seq<Process>, blocked: seq<Process>)
    requires Intake(s, total, ring, false, intake, d, ready, blocked)
    requires ClaimsFit(ReadyBuffer.Contents(s.buffer), |s.ledger.available|)
    ensures ReadyBuffer.Size(ring) > 0
    ensures ReadyBuffer.Contents(ring)[0] == ReadyBuffer.Contents(s.buffer)[|intake|]
    ensures Bankers.WellFormed(Final(d))
    ensures |ReadyBuffer.Contents(ring)[0].maxNeed| <= |Final(d).available|
  {
    var c := ReadyBuffer.Contents(s.buffer);
    assert c[|intake|] in c;
  }

  /** Popping the sentinel ends intake. */
  lemma IntakeStop(s: Sim, total: seq<int>, ring: ReadyBuffer.Ring<Process>,
                   intake: seq<Process>, d: Decisions, ready: seq<Process>, blocked: seq<Process>,
                   popped: ReadyBuffer.Popped<Process>)
    requires Intake(s, total, ring, false, intake, d, ready, blocked)
    requires ReadyBuffer.Size(ring) > 0 && popped == ReadyBuffer.Pop(ring) && popped.item.pid == SentinelPid
    ensures Intake(s, total, popped.rest, true, intake, d, ready, blocked)
  {
    var c := ReadyBuffer.Contents(s.buffer);
    assert c[|intake|..][1..] == c[|intake| + 1..];
  }

  /** Popping any other process requests its claim and files it. */
  lemma IntakeStep(s: Sim, total: seq<int>, ring: ReadyBuffer.Ring<Process>,
                   intake: seq<Process>, d: Decisions, ready: seq<Process>, blocked: seq<Process>,
                   popped: ReadyBuffer.Popped<Process>, scan: seq<int>, L': Bankers.Ledger, granted: bool,
                   intake': seq<Process>, d': Decisions, ready': seq<Process>, blocked': seq<Process>)
    requires Intake(s, total, ring, false, intake, d, ready, blocked)
    requires ReadyBuffer.Size(ring) > 0 && popped == ReadyBuffer.Pop(ring) && popped.item.pid != SentinelPid
    requires Step(Final(d), popped.item, scan, L', granted)
    requires intake' == intake + [popped.item]
    requires d' == Decisions(d.trace + [L'], d.scans + [scan], d.verdicts + [granted])
    requires ready' == (if granted then ready + [popped.item] else ready)
    requires blocked' == (if granted then blocked else blocked + [popped.item])
    ensures Intake(s, total, popped.rest, false, intake', d', ready', blocked')
  {
    var c := ReadyBuffer.Contents(s.buffer);
    IntakeAdvance(c, FirstSentinel(c), intake, ring, popped, intake');
    TrailExtend(s.ledger, total, intake, d, popped.item, scan, L', granted, intake', d');
    assert d'.verdicts == d.verdicts + [granted];
    SelectAppend(intake, d.verdicts, true, popped.item, granted, intake', d'.verdicts);
    SelectAppend(intake, d.verdicts, false, popped.item, granted, intake', d'.verdicts);
    AppendToSelection(s.ready, Select(intake, d.verdicts, true), ready, popped.item, granted);
    AppendToSelection(s.blocked, Select(intake, d.verdicts, false), blocked, popped.item, !granted);
  }

  /** Popping a process other than the sentinel moves it from the buffer
      to the end of the intake. */
  lemma IntakeAdvance(c: seq<Process>, f: nat, intake: seq<Process>, ring: ReadyBuffer.Ring<Process>,
                      popped: ReadyBuffer.Popped<Process>, intake': seq<Process>)
    requires f < |c| && c[f].pid == SentinelPid
    requires |intake| <= f && intake == c[..|intake|]
    requires ReadyBuffer.Valid(ring) && ReadyBuffer.Contents(ring) == c[|intake|..] && ReadyBuffer.Size(ring) > 0
    requires popped == ReadyBuffer.Pop(ring) && popped.item.pid != SentinelPid
    requires intake' == intake + [popped.item]
    ensures |intake'| <= f && intake' == c[..|intake'|]
    ensures ReadyBuffer.Contents(popped.rest) == c[|intake'|..]
  {
    assert popped.item == c[|intake|];
    assert c[|intake|..][1..] == c[|intake'|..];
  }

  /** `consumer_dispatcher`: pop until a process with the sentinel pid
      comes out; request each other process's claim and append it to the
      ready list if granted, to the blocked list if refused. The sentinel
      itself goes to neither list and makes no request. */
  method Consume(s: Sim, ghost total: seq<int>) returns (s': Sim, intake: seq<Process>, d: Decisions)
    requires SimValid(s) && HasSentinel(ReadyBuffer.Contents(s.buffer))
    requires ClaimsFit(ReadyBuffer.Contents(s.buffer), |s.ledger.available|)
    ensures var c := ReadyBuffer.Contents(s.buffer);
            && intake == c[..FirstSentinel(c)]
            && ReadyBuffer.Valid(s'.buffer)
            && ReadyBuffer.Capacity(s'.buffer) == ReadyBuffer.Capacity(s.buffer)
            && ReadyBuffer.Contents(s'.buffer) == c[FirstSentinel(c) + 1..]
    ensures Trail(s.ledger, total, intake, d) && s'.ledger == Final(d)
    ensures s'.ready == s.ready + Select(intake, d.verdicts, true)
    ensures s'.blocked == s.blocked + Select(intake, d.verdicts, false)
    ensures s'.manualPool == s.manualPool && s'.nextPid == s.nextPid
  {
    var ring := s.buffer;
    var ready, blocked := s.ready, s.blocked;
    var stop := false;
    intake := [];
    d := Decisions([s.ledger], [], []);
    IntakeStart(s, total, ring, stop, intake, d, ready, blocked);
    while !stop
      invariant Intake(s, total, ring, stop, intake, d, ready, blocked)
      decreases ReadyBuffer.Size(ring)
    {
      IntakeNext(s, total, ring, intake, d, ready, blocked);
      var popped := ReadyBuffer.Pop(ring);
      if popped.item.pid == SentinelPid {
        IntakeStop(s, total, ring, intake, d, ready, blocked, popped);
        ring, stop := popped.rest, true;
      } else {
        ghost var ring0, intake0, d0, ready0, blocked0 := ring, intake, d, ready, blocked;
        var scan, L', granted := Decide(Final(d), popped.item);
        if granted {
          ready := ready + [popped.item];
        } else {
          blocked := blocked + [popped.item];
        }
        ring := popped.rest;
        intake := intake + [popped.item];
        d := Decisions(d.trace + [L'], d.scans + [scan], d.verdicts + [granted]);
        IntakeStep(s, total, ring0, intake0, d0, ready0, blocked0, popped, scan, L', granted,
                   intake, d, ready, blocked);
      }
    }
    s' := s.(buffer := ring, ledger := Final(d), ready := ready, blocked := blocked);
  }

  // ---------------------------------------------------------------------
  // Unblocking and release
  // ---------------------------------------------------------------------

  /** The unblocking loop's invariant: the first `k` blocked processes
      have been requested again and split into the two lists. */
  ghost predicate Unblocking(s: Sim, total: seq<int>, k: nat, d: Decisions, ready: seq<Process>, still: seq<Process>)
  {
    && k <= |s.blocked|
    && Trail(s.ledger, total, s.blocked[..k], d)
    && ready == s.ready + Select(s.blocked[..k], d.verdicts, true)
    && still == Select(s.blocked[..k], d.verdicts, false)
  }

  lemma UnblockNext(s: Sim, total: seq<int>, k: nat, d: Decisions, ready: seq<Process>, still: seq<Process>)
    requires Unblocking(s, total, k, d, ready, still) && k < |s.blocked|
    requires ClaimsFit(s.blocked, |s.ledger.available|)
    ensures Bankers.WellFormed(Final(d)) && |s.blocked[k].maxNeed| <= |Final(d).available|
  {
    assert s.blocked[k] in s.blocked;
  }

  lemma UnblockStep(s: Sim, total: seq<int>, k: nat, d: Decisions, ready: seq<Process>, still: seq<Process>,
                    scan: seq<int>, L': Bankers.Ledger, granted: bool,
                    k': nat, d': Decisions, ready': seq<Process>, still': seq<Process>)
    requires Unblocking(s, total, k, d, ready, still) && k < |s.blocked|
    requires Step(Final(d), s.blocked[k], scan, L', granted)
    requires k' == k + 1 && d' == Decisions(d.trace + [L'], d.scans + [scan], d.verdicts + [granted])
    requires ready' == (if granted then ready + [s.blocked[k]] else ready)
    requires still' == (if granted then still else still + [s.blocked[k]])
    ensures Unblocking(s, total, k', d', ready', still')
  {
    var p := s.blocked[k];
    TakeOneMore(s.blocked, k);
    TrailExtend(s.ledger, total, s.blocked[..k], d, p, scan, L', granted, s.blocked[..k'], d');
    assert d'.verdicts == d.verdicts + [granted];
    SelectAppend(s.blocked[..k], d.verdicts, true, p, granted, s.blocked[..k'], d'.verdicts);
    SelectAppend(s.blocked[..k], d.verdicts, false, p, granted, s.blocked[..k'], d'.verdicts);
    AppendToSelection(s.ready, Select(s.blocked[..k], d.verdicts, true), ready, p, granted);
    AppendToSelection([], Select(s.blocked[..k], d.verdicts, false), still, p, !granted);
  }

  /** `try_unblock`: request each blocked process's claim again, in list
      order; the granted ones join the back of the ready list in that order
      and the refused ones stay blocked in their original order. */
  method TryUnblock(s: Sim, ghost total: seq<int>) returns (s': Sim, d: Decisions)
    requires Bankers.WellFormed(s.ledger) && ClaimsFit(s.blocked, |s.ledger.available|)
    ensures Trail(s.ledger, total, s.blocked, d) && s'.ledger == Final(d)
    ensures s'.ready == s.ready + Select(s.blocked, d.verdicts, true)
    ensures s'.blocked == Select(s.blocked, d.verdicts, false)
    ensures s'.buffer == s.buffer && s'.manualPool == s.manualPool && s'.nextPid == s.nextPid
  {
    var ready := s.ready;
    var still: seq<Process> := [];
    d := Decisions([s.ledger], [], []);
    TrailStart(s.ledger, total);
    var k: nat := 0;
    assert s.blocked[..0] == [];
    while k < |s.blocked|
      invariant Unblocking(s, total, k, d, ready, still)
      decreases |s.blocked| - k
    {
      UnblockNext(s, total, k, d, ready, still);
      ghost var k0, d0, ready0, still0 := k, d, ready, still;
      var p := s.blocked[k];
      var scan, L', granted := Decide(Final(d), p);
      if granted {
        ready := ready + [p];
      } else {
        still := still + [p];
      }
      d := Decisions(d.trace + [L'], d.scans + [scan], d.verdicts + [granted]);
      k := k + 1;
      UnblockStep(s, total, k0, d0, ready0, still0, scan, L', granted, k, d, ready, still);
    }
    assert s.blocked[..k] == s.blocked;
    s' := s.(ledger := Final(d), ready := ready, blocked := still);
  }

  /** `release_all` for each process of `ps` in turn: every one of their
      pids leaves both tables, and nothing else does. */
  function ReleaseEach(L: Bankers.Ledger, ps: seq<Process>): (r: Bankers.Ledger)
    requires Bankers.WellFormed(L)
    ensures Bankers.WellFormed(r) && |r.available| == |L.available|
    ensures r.allocation == L.allocation - Schedules.Pids(ps)
    ensures r.maxNeed == L.maxNeed - Schedules.Pids(ps)
    decreases |ps|
  {
    if ps == [] then
      assert Schedules.Pids(ps) == {};
      L
    else
      assert ps == [ps[0]] + ps[1..];
      assert Schedules.Pids(ps) == {ps[0].pid} + Schedules.Pids(ps[1..]);
      ReleaseEach(Bankers.ReleaseAll(L, ps[0].pid), ps[1..])
  }

  /** Releasing keeps conservation. */
  lemma {:induction false} ReleaseEachKeepsInv(L: Bankers.Ledger, total: seq<int>, ps: seq<Process>)
    requires Bankers.Inv(L, total)
    ensures Bankers.Inv(ReleaseEach(L, ps), total)
    decreases |ps|
  {
    if ps != [] {
      BankersProofs.ReleasePreservesInv(L, total, ps[0].pid);
      ReleaseEachKeepsInv(Bankers.ReleaseAll(L, ps[0].pid), total, ps[1..]);
    }
  }

  // ---------------------------------------------------------------------
  // One manual-mode episode
  // ---------------------------------------------------------------------

  /** The pushes of a manual start: the pool and then the sentinel join the
      back of the buffer, and the pool and both lists are emptied. */
  function Load(s: Sim): (s1: Sim)
    requires ReadyBuffer.Valid(s.buffer)
    requires ReadyBuffer.Size(s.buffer) + |s.manualPool| + 1 <= ReadyBuffer.Capacity(s.buffer)
    ensures ReadyBuffer.Valid(s1.buffer) && ReadyBuffer.Capacity(s1.buffer) == ReadyBuffer.Capacity(s.buffer)
    ensures ReadyBuffer.Contents(s1.buffer) == ReadyBuffer.Contents(s.buffer) + s.manualPool + [Sentinel()]
    ensures s1.ready == [] && s1.blocked == [] && s1.manualPool == []
    ensures s1.ledger == s.ledger && s1.nextPid == s.nextPid
  {
    var ring := ReadyBuffer.PushAll(s.buffer, s.manualPool + [Sentinel()]);
    assert ReadyBuffer.Contents(s.buffer) + (s.manualPool + [Sentinel()])
        == ReadyBuffer.Contents(s.buffer) + s.manualPool + [Sentinel()];
    s.(buffer := ring, ready := [], blocked := [], manualPool := [])
  }

  /** After loading, intake stops at the pushed sentinel at the latest;
      when nothing queued carries the sentinel pid, exactly at it. */
  lemma LoadedQueue(q: seq<Process>, c: seq<Process>, width: nat)
    requires c == q + [Sentinel()]
    ensures ClaimsFit(q, width) ==> ClaimsFit(c, width)
    ensures HasSentinel(c) && FirstSentinel(c) <= |q|
    ensures forall j | 0 <= j < FirstSentinel(c) :: c[j] == q[j]
    ensures (forall p | p in q :: p.pid != SentinelPid) ==> FirstSentinel(c) == |q| && c[..FirstSentinel(c)] == q
  {
    assert c[|q|].pid == SentinelPid;
    if ClaimsFit(q, width) {
      forall p | p in c ensures |p.maxNeed| <= width {
        if p != Sentinel() {
          assert p in q;
        }
      }
    }
    if forall p | p in q :: p.pid != SentinelPid {
      var f := FirstSentinel(c);
      assert c[..|q|] == q;
    }
  }

  /** Every pid that requested successfully is still in the allocation
      table after the run of requests. */
  lemma PromotedStayAllocated(L0: Bankers.Ledger, total: seq<int>, xs: seq<Process>, d: Decisions)
    requires Trail(L0, total, xs, d)
    ensures forall p | p in Select(xs, d.verdicts, true) :: p.pid in Final(d).allocation
  {
    forall p | p in Select(xs, d.verdicts, true)
      ensures p.pid in Final(d).allocation
    {
      SelectSubset(xs, d.verdicts, true, p);
    }
  }

  /** The intake half of a manual start: load the buffer, then consume. */
  method LoadAndConsume(s: Sim, ghost total: seq<int>) returns (s2: Sim, intake: seq<Process>, d: Decisions)
    requires SimValid(s)
    requires ReadyBuffer.Size(s.buffer) + |s.manualPool| + 1 <= ReadyBuffer.Capacity(s.buffer)
    requires ClaimsFit(ReadyBuffer.Contents(s.buffer) + s.manualPool, |s.ledger.available|)
    ensures ReadyBuffer.Valid(s2.buffer) && ReadyBuffer.Capacity(s2.buffer) == ReadyBuffer.Capacity(s.buffer)
    ensures var c := ReadyBuffer.Contents(s.buffer) + s.manualPool + [Sentinel()];
            && HasSentinel(c)
            && intake == c[..FirstSentinel(c)]
            && ReadyBuffer.Contents(s2.buffer) == c[FirstSentinel(c) + 1..]
    ensures Trail(s.ledger, total, intake, d) && s2.ledger == Final(d)
    ensures s2.ready == Select(intake, d.verdicts, true) && s2.blocked == Select(intake, d.verdicts, false)
    ensures s2.manualPool == [] && s2.nextPid == s.nextPid
  {
    ghost var q := ReadyBuffer.Contents(s.buffer) + s.manualPool;
    var s1 := Load(s);
    ghost var c := ReadyBuffer.Contents(s1.buffer);
    LoadedQueue(q, c, |s.ledger.available|);
    s2, intake, d := Consume(s1, total);
    assert s2.ready == Select(intake, d.verdicts, true);
    assert s2.blocked == Select(intake, d.verdicts, false);
  }

  /** What follows from an intake that ran over the loaded queue `q`: with
      no sentinel pid inside `q` the whole queue is taken in and the buffer
      is drained; whatever is left blocked fits the ledger and, with
      non-negative claims, the ledger invariant survives. */
  lemma IntakeConclusions(q: seq<Process>, c: seq<Process>, L0: Bankers.Ledger, total: seq<int>,
                          intake: seq<Process>, d: Decisions, blocked: seq<Process>)
    requires c == q + [Sentinel()] && HasSentinel(c) && intake == c[..FirstSentinel(c)]
    requires Trail(L0, total, intake, d) && blocked == Select(intake, d.verdicts, false)
    requires ClaimsFit(q, |L0.available|)
    ensures (forall p | p in q :: p.pid != SentinelPid) ==> intake == q && c[FirstSentinel(c) + 1..] == []
    ensures ClaimsFit(blocked, |Final(d).available|)
    ensures Bankers.Inv(L0, total) && NonNegativeClaims(q) ==>
              Bankers.Inv(Final(d), total) && NonNegativeClaims(blocked)
  {
    LoadedQueue(q, c, |L0.available|);
    IntakeFromQueue(q, c, intake, d.verdicts, blocked, |L0.available|);
  }

  /** What was taken in, and so what is left blocked, came from the queue. */
  lemma IntakeFromQueue(q: seq<Process>, c: seq<Process>, intake: seq<Process>, v: seq<bool>,
                        blocked: seq<Process>, width: nat)
    requires HasSentinel(c) && FirstSentinel(c) <= |q|
    requires forall j | 0 <= j < FirstSentinel(c) :: c[j] == q[j]
    requires intake == c[..FirstSentinel(c)] && |v| == |intake| && blocked == Select(intake, v, false)
    ensures ClaimsFit(q, width) ==> ClaimsFit(blocked, width)
    ensures NonNegativeClaims(q) ==> NonNegativeClaims(intake) && NonNegativeClaims(blocked)
  {
    forall p | p in intake ensures p in q {
      var j :| 0 <= j < |intake| && intake[j] == p;
      assert p == q[j];
    }
    forall p | p in blocked ensures p in intake {
      SelectSubset(intake, v, false, p);
    }
  }

  /** `Scheduler::run` on the ready list with the simulator's quantum. */
  method Schedule(ready: seq<Process>) returns (out: Schedules.ScheduleResult)
    ensures |ready| <= Schedules.PriorityLimit ==> |out.gantt| == |ready|
    ensures ready == [] ==> out.gantt == [] && out.finishTime == 0
    ensures out.finishTime == Schedules.LastEnd(out.gantt)
    ensures out.waiting.Keys == out.turnaround.Keys
  {
    var picked, done;
    out, picked, done := Scheduler.Run(ready, SimulatorQuantum);
  }

  /** The closing half of a manual start: release every ready pid, then
      try to unblock. */
  method Settle(s2: Sim, ghost total: seq<int>) returns (s': Sim, released: Bankers.Ledger, d: Decisions)
    requires Bankers.WellFormed(s2.ledger) && ClaimsFit(s2.blocked, |s2.ledger.available|)
    ensures released == ReleaseEach(s2.ledger, s2.ready)
    ensures forall p | p in s2.ready :: p.pid !in released.allocation && p.pid !in released.maxNeed
    ensures Trail(released, total, s2.blocked, d) && s'.ledger == Final(d)
    ensures s'.ready == s2.ready + Select(s2.blocked, d.verdicts, true)
    ensures s'.blocked == Select(s2.blocked, d.verdicts, false)
    ensures s'.buffer == s2.buffer && s'.manualPool == s2.manualPool && s'.nextPid == s2.nextPid
    ensures forall p | p in Select(s2.blocked, d.verdicts, true) :: p.pid in s'.ledger.allocation
    ensures Bankers.Inv(s2.ledger, total) && NonNegativeClaims(s2.blocked) ==> Bankers.Inv(s'.ledger, total)
  {
    released := ReleaseEach(s2.ledger, s2.ready);
    forall p | p in s2.ready ensures p.pid in Schedules.Pids(s2.ready) { }
    s', d := TryUnblock(s2.(ledger := released), total);
    PromotedStayAllocated(released, total, s2.blocked, d);
    if Bankers.Inv(s2.ledger, total) {
      ReleaseEachKeepsInv(s2.ledger, total, s2.ready);
    }
  }

  /** What one episode went through, for the caller to inspect. */
  datatype Episode = Episode(
    intake: seq<Process>,
    admitted: seq<Process>,
    schedule: Schedules.ScheduleResult,
    released: Bankers.Ledger,
    intakeDecisions: Decisions,
    unblockDecisions: Decisions)

  /** `start` with a non-empty manual pool: clear both lists, move the pool
      into the buffer followed by the sentinel, run the consumer, schedule
      the ready list with quantum 4, release every ready pid, then try to
      unblock. The whole pool and the sentinel must fit in the buffer at
      once, since nothing is popped until everything is pushed. */
  method StartManual(s: Sim, ghost total: seq<int>) returns (s': Sim, ep: Episode)
    requires SimValid(s) && |s.manualPool| > 0
    requires ReadyBuffer.Size(s.buffer) + |s.manualPool| + 1 <= ReadyBuffer.Capacity(s.buffer)
    requires ClaimsFit(ReadyBuffer.Contents(s.buffer) + s.manualPool, |s.ledger.available|)
    ensures s'.manualPool == [] && s'.nextPid == s.nextPid
    ensures ReadyBuffer.Valid(s'.buffer) && ReadyBuffer.Capacity(s'.buffer) == ReadyBuffer.Capacity(s.buffer)
    ensures var c := ReadyBuffer.Contents(s.buffer) + s.manualPool + [Sentinel()];
            && HasSentinel(c)
            && ep.intake == c[..FirstSentinel(c)]
            && ReadyBuffer.Contents(s'.buffer) == c[FirstSentinel(c) + 1..]
    ensures (forall p | p in ReadyBuffer.Contents(s.buffer) + s.manualPool :: p.pid != SentinelPid) ==>
              ep.intake == ReadyBuffer.Contents(s.buffer) + s.manualPool && ReadyBuffer.Contents(s'.buffer) == []
    ensures Trail(s.ledger, total, ep.intake, ep.intakeDecisions)
    ensures ep.admitted == Select(ep.intake, ep.intakeDecisions.verdicts, true)
    ensures |ep.admitted| <= Schedules.PriorityLimit ==> |ep.schedule.gantt| == |ep.admitted|
    ensures ep.schedule.waiting.Keys == ep.schedule.turnaround.Keys
    ensures ep.released == ReleaseEach(Final(ep.intakeDecisions), ep.admitted)
    ensures forall p | p in ep.admitted :: p.pid !in ep.released.allocation && p.pid !in ep.released.maxNeed
    ensures Trail(ep.released, total, Select(ep.intake, ep.intakeDecisions.verdicts, false), ep.unblockDecisions)
    ensures s'.ledger == Final(ep.unblockDecisions)
    ensures s'.ready == ep.admitted + Select(Select(ep.intake, ep.intakeDecisions.verdicts, false), ep.unblockDecisions.verdicts, true)
    ensures s'.blocked == Select(Select(ep.intake, ep.intakeDecisions.verdicts, false), ep.unblockDecisions.verdicts, false)
    ensures Bankers.Inv(s.ledger, total) && NonNegativeClaims(ReadyBuffer.Contents(s.buffer) + s.manualPool) ==>
              Bankers.Inv(s'.ledger, total)
  {
    var s2, intake, d1 := LoadAndConsume(s, total);
    IntakeConclusions(ReadyBuffer.Contents(s.buffer) + s.manualPool,
                      ReadyBuffer.Contents(s.buffer) + s.manualPool + [Sentinel()],
                      s.ledger, total, intake, d1, s2.blocked);
    var out := Schedule(s2.ready);
    var released, d2;
    s', released, d2 := Settle(s2, total);
    ep := Episode(intake, s2.ready, out, released, d1, d2);
  }
}

=== FILE: vectors.dfy ===
/** Componentwise arithmetic on resource vectors, as the ledger's static
    helpers `leq`, `add` and `sub` perform it. */
module Vectors {

  /** Componentwise `a <= b`; vectors of different lengths are never related. */
  function Leq(a: seq<int>, b: seq<int>): (r: bool)
    ensures r <==> |a| == |b| && forall i | 0 <= i < |a| :: a[i] <= b[i]
  {
    if |a| != |b| then false
    else if |a| == 0 then true
    else a[0] <= b[0] && Leq(a[1..], b[1..])
  }

  /** Componentwise sum. The result has the length of `a`, and `b` is read at
      every index of `a` without a bounds check, so it must be at least as long. */
  function Add(a: seq<int>, b: seq<int>): (r: seq<int>)
    requires |a| <= |b|
    ensures |r| == |a|
    ensures forall i | 0 <= i < |a| :: r[i] == a[i] + b[i]
  {
    if |a| == 0 then [] else [a[0] + b[0]] + Add(a[1..], b[1..])
  }

  /** Componentwise difference, with the same length discipline as `Add`. */
  function Sub(a: seq<int>, b: seq<int>): (r: seq<int>)
    requires |a| <= |b|
    ensures |r| == |a|
    ensures forall i | 0 <= i < |a| :: r[i] == a[i] - b[i]
  {
    if |a| == 0 then [] else [a[0] - b[0]] + Sub(a[1..], b[1..])
  }

  /** The vector of `n` zeroes, the default allocation of an unseen pid. */
  function Zeros(n: nat): (r: seq<int>)
    ensures |r| == n
    ensures forall i | 0 <= i < n :: r[i] == 0
  {
    if n == 0 then [] else [0] + Zeros(n - 1)
  }

  /** Every component is non-negative. */
  predicate NonNegative(a: seq<int>)
  {
    forall i | 0 <= i < |a| :: a[i] >= 0
  }

  /** Adding back what was subtracted restores the vector: the ledger's
      `allocation + (claim - allocation)` is the claim itself. */
  lemma AddSubCancel(a: seq<int>, c: seq<int>)
    requires |a| == |c|
    ensures Add(a, Sub(c, a)) == c
  {
  }

  /** `Leq` is transitive. */
  lemma LeqTransitive(a: seq<int>, b: seq<int>, c: seq<int>)
    requires Leq(a, b) && Leq(b, c)
    ensures Leq(a, c)
  {
  }
}
